=== FILE: README.md ===
# CyberShield fraud dashboard — a Dafny model

CyberShield is a fraud-monitoring dashboard for UPI transactions in Madhya
Pradesh. It has a Flask backend and a set of React panels. This project
models the logic those parts run:

- **Flask backend** (`Backend`, `BackendGeo`):
  - the upload extension check;
  - the four-rule weighted fraud scorer, and the ordered validation chain of `POST /api/upload`;
  - the amount buckets, the totals and the failure cases of `/api/fraud-stats`;
  - the per-city aggregation of `/api/fraud-geo-data`.
- **Risk alert system** (`RiskAlerts`):
  - the four alert rules and the overall level;
  - the 20-entry alert history.
- **Fraud investigation centre** (`Investigation`):
  - the case filter and sort;
  - the investigation report (similar and related cases, risk matrix, recommended actions);
  - the append-only case timeline.
- **Madhya Pradesh heatmap** (`GeoHeatmap`):
  - the choice of data source;
  - the local city grouping, the endpoint transform and the generated fallback;
  - marker sizing and the summary cards.
- **Prevention engine** (`Prevention`): the recommendations and their metrics.
- **Live metrics dashboard** (`LiveMetrics`): the metric cards, the activity feed and the hourly chart.
- **Visualization charts** (`Charts`): the stats transform and the mock fallback.
- **Results table** (`ResultsTable`): the fetch and the type and amount filter.
- **Data preview** (`DataPreview`): derived column headers, cell formatting and the 100-row limit.
- **Upload panel** (`Upload`): accepted files, the state after a selection or an upload, and the displayed detection rate.

Shared modules:

- `Wrappers`: `Option`, and JavaScript's `x || d` on numbers and strings.
- `Seqs`: filter, count, sum, take and subsequence.
- `Text`: ASCII case mapping, `includes`, `endsWith`, `trim` (with JavaScript's full whitespace set) and code-point order.
- `Numbers`: Python `int()`, `Math.floor` and random draws.
- `Transactions`: the transaction record and fetch outcomes. A record's type is always canonical: one of the five known names is always its own constructor, never `OtherType`.
- `Grouping`: the insertion-ordered group-by that both city aggregations use. A fold over the rows is proved equal to a reference definition: each entry holds the indices of its key, in order.

How things are modelled:

- Amounts are exact `real`s. Timestamps are integer milliseconds.
- A field that may be missing is an `Option`.
- The server's answer is a parameter, `Fetched(body)` or `FetchFailed`.
- `Math.random()` is a parameter `rand: (nat, nat) -> real`, bounded to `[0, 1)` by `UnitDraws`. Each call site reads a distinct pair of arguments.
- Where a `.jsx` file computes something inside a React effect, the model is the pure function from the fetched data to the new state.

Where the code and the component's own labels disagree, the model follows the code:

- The alert level for warnings alone is `MEDIUM` (`RiskAlertSystem.jsx:84-87`). It is not a "WARNING" level.
- The database writer never stores `prediction_confidence` (`database_setup.py:56-70`), though `detect_fraud` computes it (`flask_app.py:62`). Every stored row reads back with a NULL confidence, so `/api/fraud-geo-data` answers 500 for any non-empty table (`BackendGeo.WriterRowsFailGeo`).
- The heatmap reads `geoData.districts`, but the Flask endpoint returns a bare list (`flask_app.py:275`). The model treats a body without `districts` as unusable, and the component then falls back to local grouping.

## Model

| member | source | states |
|---|---|---|
| Transactions.ParseType | Frontend/src/components/data/FraudResultsTable.jsx:54-60 | a `type` string maps to a canonical type carrying that name; the five known names map to their own constructors |
| Transactions.ParseTypeName | Frontend/src/components/data/FraudResultsTable.jsx:140 | on canonical types parsing inverts naming, so two types are equal iff their strings are |
| Wrappers.Or | Frontend/src/components/dashboard/LiveMetricsDashboard.jsx:30-31 | JavaScript `x \|\| d` on a number: the default exactly when the value is missing or 0, the value otherwise |
| Wrappers.OrText | fraud2/src/components/upload/UploadComponent.jsx:41 | `s \|\| d` on text: the default exactly for a missing or empty string |
| Numbers.Trunc | Frontend/flask_app.py:245-249 | Python `int()` on a float rounds toward zero: the result lies between the input and zero, less than one away |
| Numbers.Floor | Frontend/src/components/maps/MadhyaPradeshGeoHeatmap.jsx:127-135 | `Math.floor`: the greatest integer not above the input |
| Numbers.TruncExamples | Frontend/flask_app.py:247 | `int(2.7) == 2` and `int(-2.7) == -2`, whereas `Math.floor(-2.7) == -3`: truncation, not flooring |
| Text.Trim | Frontend/src/components/investigation/FraudInvestigation.jsx:286-292 | `trim()`: the result is a slice of the input with only whitespace cut off before and after it, and a non-empty result neither starts nor ends with whitespace; whitespace is the full JavaScript set (space separators, no-break space, byte-order mark, line terminators) |
| Text.TrimExamples | Frontend/src/components/investigation/FraudInvestigation.jsx:286 | a leading no-break space and a trailing byte-order mark are trimmed like spaces |
| Text.TrimEmptyIffBlank | Frontend/src/components/investigation/FraudInvestigation.jsx:286 | the trimmed text is empty iff every character is whitespace |
| Backend.LastDot | Frontend/flask_app.py:29-30 | `rsplit('.', 1)`: the position of a '.' with no '.' after it, or none when the name has no '.' |
| Backend.AllowedFileIff | Frontend/flask_app.py:29-30 | a name is accepted iff some '.' has no later '.' and the lower-cased text after it is csv, xlsx or xls |
| Backend.LastDotUnique | Frontend/flask_app.py:29-30 | a '.' with no '.' after it is the one `rsplit` splits at |
| Backend.AllowedFileExamples | Frontend/flask_app.py:23-30 | "data.CSV" and "report.xls" are accepted; the extension check ignores case |
| Backend.RejectedFileExamples | Frontend/flask_app.py:29-30 | "data" (no dot) and "data.csv.txt" (last extension txt) are refused |
| Backend.Get | Frontend/flask_app.py:43-55 | `row.get(field, 0)`: 0 only for an absent column; an empty cell stays NaN |
| Backend.RulesOnNumbers | Frontend/flask_app.py:42-56 | on numeric cells each rule is the plain comparison of its values: a transfer over 100,000 (30), a cash-out over 50,000 (25), an origin balance not reduced by exactly the amount (40), a transfer or cash-in leaving the destination at 0 (35) |
| Backend.EmptyCells | Frontend/flask_app.py:43-56 | an empty amount or balance cell always breaks rule 3 (NaN `!=` is true), an empty amount never breaks rules 1 and 2, an empty destination balance never breaks rule 4; an absent destination column reads as 0 |
| Backend.EmptyDestinationExample | Frontend/flask_app.py:43-59 | a 200,000 transfer with a consistent origin balance and an empty destination balance scores 30 and is not flagged; with a 0 destination balance it scores 65 and is |
| Backend.ScoreRange | Frontend/flask_app.py:40-62 | the score is between 0 and 105; rules 1 and 2 never both fire; a flagged row's confidence is in (50, 100] |
| Backend.NoSingleRuleFlags | Frontend/flask_app.py:42-59 | a flagged row breaks at least two rules; rule 3 with any other rule, or rules 1 and 4, always flag |
| Backend.FlagRowsSpec | Frontend/flask_app.py:37-65 | the flagged list holds exactly the rows scoring over 50, in input order; each is marked `isFlaggedFraud = 1` with confidence min(score, 100) |
| Backend.FlagRowsAppend | Frontend/flask_app.py:37-63 | the rows are judged one at a time: flagging a concatenation flags each part |
| Backend.FlagRowsRows | Frontend/flask_app.py:37-63 | the flagged list is as long as the number of fraudulent rows, and its rows are exactly those, in order |
| Backend.FlagRowsMarked | Frontend/flask_app.py:59-63 | every flagged entry comes from a fraudulent row and carries that row's mark and confidence |
| Backend.DetectFraud | Frontend/flask_app.py:32-65 | the loop over the rows returns the reference flagging; its length is the count of fraudulent rows; the original rows are the filtered input; every entry is marked and capped |
| Backend.Reading | Frontend/flask_app.py:86-90 | the CSV reader is used exactly when the saved name ends in ".csv" (case-sensitive), the Excel reader otherwise |
| Backend.UpperCaseCsvReadAsExcel | Frontend/flask_app.py:77-90 | "data.CSV" passes the extension check and is then handed to the Excel reader |
| Backend.MissingSpec | Frontend/flask_app.py:95-97 | the missing list is a subsequence of the required columns, holding exactly those the table lacks; it is empty iff all are present |
| Backend.UploadRejectionOrder | Frontend/flask_app.py:67-98 | the request is rejected with 400 at the first failing check, in order: no file part, empty name, bad extension, the chosen reader's failure (with its message), missing columns (listed in their required order); status 400 iff one of those fails |
| Backend.ProcessedUploadSpec | Frontend/flask_app.py:100-121 | a 200 answer comes from an accepted name and a table with every required column; it reports the row count, the flagged count, the rate as exactly their percentage (0 to 100) and the first 10 rows |
| Backend.ValidTableOutcome | Frontend/flask_app.py:100-124 | an accepted name with a complete table is processed when it has rows; a header-only table ends in the catch-all 500, because the rate divides by zero |
| Backend.PercentageBounds | Frontend/flask_app.py:119 | the fraud rate of a part of a non-empty whole lies in [0, 100] |
| Backend.CategorizeAmountIntervals | Frontend/flask_app.py:177-187 | each bucket is the half-open interval its label names (below 1K, 1K-10K, 10K-50K, 50K-100K, 100K and above) |
| Backend.FraudStatsTotals | Frontend/flask_app.py:148-204 | no fraudulent transactions give the all-empty, all-zero statistics; a non-empty list whose every amount is NULL answers 500, because bucketing compares `None < 1000`; otherwise the total is the number of transactions and the amount the sum of the stored amounts, NULL counting 0 |
| Backend.NullAmountStatsExample | Frontend/flask_app.py:176-204 | an upload row with an empty amount cell is flagged when it moves money to an emptied account (rules 3 and 4), and a flagged row stored with a NULL amount on its own makes the statistics answer 500 |
| Backend.FraudStatsAppend | Frontend/flask_app.py:200-201 | two non-empty lists together have totals iff either has a stored amount; the count is then the sum of the lengths and the amount the sum of the stored amounts, and when both have totals the joined totals are the sums of theirs |
| BackendGeo.CityIndex | Frontend/flask_app.py:245-249 | the hash always names one of the 19 cities |
| BackendGeo.GeoDataSpec | Frontend/flask_app.py:239-278 | the endpoint answers 500 iff some row has a NULL id, amount, step or confidence; otherwise the counts add up to the number of transactions, no city appears twice, and each entry holds exactly the transactions hashed to its city, in input order, with their sum, mean confidence and mean amount |
| BackendGeo.WriterRowsFailGeo | Frontend/flask_app.py:270-278 | rows without a stored confidence, as the database writer leaves them (`database_setup.py:56-70`), make a non-empty table answer 500 |
| BackendGeo.EveryTransactionPlaced | Frontend/flask_app.py:243-265 | when the endpoint answers with a list, every transaction is in the entry of the city its hash selects |
| BackendGeo.TotalCountOfAll | Frontend/flask_app.py:257-273 | the per-city counts add up to the number of grouped transactions |
| BackendGeo.DistinctCityNames | Frontend/flask_app.py:217-237 | the 19 backend cities have distinct names |
| BackendGeo.CityIndexExample | Frontend/flask_app.py:245-249 | a negative fractional amount truncates toward zero (1 + int(-2.5) + 0 gives city 1), and a fraction is dropped (7 + int(100.9) gives city 12) |
| Grouping.GroupKeysSpec | Frontend/flask_app.py:240-265 | the insertion-ordered dictionary has distinct keys; each non-empty entry holds exactly the row indices of its key; every row's key has an entry; the sizes add up to the row count; entries appear in order of first row |
| Grouping.ExactlyOneGroup | Frontend/src/components/maps/MadhyaPradeshGeoHeatmap.jsx:54-79 | each row lands in exactly one entry, the one for its key |
| Grouping.IndicesOf | Frontend/flask_app.py:240-265 | the reference grouping: every index listed for a key is a row with that key |
| Grouping.IndicesOfBounds | Frontend/flask_app.py:240-265 | a key's index list holds exactly the rows with that key; it is empty for an absent key |
| Grouping.InsertShape | Frontend/flask_app.py:251-265 | adding a row appends it to its key's entry or opens a new last entry, leaving the other entries alone; one more member in all |
| Grouping.StepOrder | Frontend/src/components/maps/MadhyaPradeshGeoHeatmap.jsx:64-76 | adding the next row keeps the entries in order of first appearance |
| Grouping.MemberOfOwnKey | Frontend/src/components/maps/MadhyaPradeshGeoHeatmap.jsx:54-79 | every row is a member of the entry for its key |
| Grouping.MemberOnlyOfOwnKey | Frontend/src/components/maps/MadhyaPradeshGeoHeatmap.jsx:54-79 | a row is a member of no entry for another key |
| Grouping.GroupKeysValid | Frontend/flask_app.py:240-265 | every member of the grouping is an index of an input row |
| GeoHeatmap.CityIndexAsWritten | Frontend/src/components/maps/MadhyaPradeshGeoHeatmap.jsx:56-62 | the index as the component computes it, without truncating the amount (see Findings) |
| GeoHeatmap.FractionalAmountHasNoCity | Frontend/src/components/maps/MadhyaPradeshGeoHeatmap.jsx:56-62 | id 1 and amount 0.5 give index 1.5, which is not a whole number, so no city key matches it and the row is grouped under `undefined`; the corrected index is 1 |
| GeoHeatmap.CityIndex | Frontend/src/components/maps/MadhyaPradeshGeoHeatmap.jsx:56-62 | the corrected index always names one of the 20 cities |
| GeoHeatmap.IndicesAgreeOnWholeAmounts | Frontend/src/components/maps/MadhyaPradeshGeoHeatmap.jsx:56-62 | for whole-number amounts the written and the corrected index coincide |
| GeoHeatmap.JsRemRange | Frontend/src/components/maps/MadhyaPradeshGeoHeatmap.jsx:56-60 | JavaScript `%` of a non-negative number lies in [0, m) |
| GeoHeatmap.ProcessTransactionsSpec | Frontend/src/components/maps/MadhyaPradeshGeoHeatmap.jsx:49-90 | the local grouping gives distinct cities, no more than there are transactions; each has at least one transaction, its amount total, its mean confidence and its mean amount; the case counts add up to the number of transactions |
| GeoHeatmap.CitiesOfEntries | Frontend/src/components/maps/MadhyaPradeshGeoHeatmap.jsx:64-87 | each grouped city has a case count equal to its transactions, at least one, its amount total, its mean confidence and its mean amount |
| GeoHeatmap.CitiesOfDistinct | Frontend/src/components/maps/MadhyaPradeshGeoHeatmap.jsx:64-76 | no city name appears twice in the local grouping |
| GeoHeatmap.TransformSpec | Frontend/src/components/maps/MadhyaPradeshGeoHeatmap.jsx:204-216 | one city per district, in order, named after it: 50000 per case, risk exactly 60 plus 2 per case up to 17 cases and 95 from 18 on, no mean amount, and `count` generated transactions with amounts in [10000, 510000), confidence in [60, 100) and one of three types |
| GeoHeatmap.MockTxBounds | Frontend/src/components/maps/MadhyaPradeshGeoHeatmap.jsx:210-215 | a generated transaction's amount, type and confidence stay in those ranges for any draws in [0, 1) |
| GeoHeatmap.WeightedPick | Frontend/src/components/maps/MadhyaPradeshGeoHeatmap.jsx:147-170 | the cumulative-weight pick returns one of the listed types, or TRANSFER |
| GeoHeatmap.RealisticDataSpec | Frontend/src/components/maps/MadhyaPradeshGeoHeatmap.jsx:92-192 | the generated data has one entry per city, in order; each has at least three cases, as many transactions as cases, a risk of at most 95, a positive total, and transactions with confidence at least 60 and a type from the city's urban or rural list |
| GeoHeatmap.RealisticCitySpec | Frontend/src/components/maps/MadhyaPradeshGeoHeatmap.jsx:120-191 | the same properties for one generated city |
| GeoHeatmap.RealisticData | Frontend/src/components/maps/MadhyaPradeshGeoHeatmap.jsx:120-192 | one generated city per city of the list, in list order |
| GeoHeatmap.CityFromSpec | Frontend/src/components/maps/MadhyaPradeshGeoHeatmap.jsx:120-191 | for any profile with non-negative economic activity and any draws in [0, 1), the generated city keeps those properties |
| GeoHeatmap.AtLeastThreeEach | Frontend/src/components/maps/MadhyaPradeshGeoHeatmap.jsx:486 | cities with at least three cases each total at least three times their number |
| GeoHeatmap.LoadSources | Frontend/src/components/maps/MadhyaPradeshGeoHeatmap.jsx:194-247 | the error is set exactly when the geo list was unusable and the transaction fetch failed; a usable geo list is transformed; otherwise fetched transactions are grouped, keeping all their cases; otherwise the data is generated |
| GeoHeatmap.HeatIconSpec | Frontend/src/components/maps/MadhyaPradeshGeoHeatmap.jsx:254-294 | the marker colour follows the legend bands 85+/75-84/65-74/below 65; the size is min(band base + 3 × count, 100), so a marker without cases has its band's base size (35 to 70); the label font is min(12 + count / 4, 20) and the count font min(10 + count / 6, 14), integer division |
| GeoHeatmap.HeatIconMonotone | Frontend/src/components/maps/MadhyaPradeshGeoHeatmap.jsx:270-286 | more cases never give a smaller marker or font |
| GeoHeatmap.HighestRisk | Frontend/src/components/maps/MadhyaPradeshGeoHeatmap.jsx:492 | `Math.max(..., 0)`: at least 0, at least every city's risk, and equal to one of them unless it is 0 |
| GeoHeatmap.SummaryExamples | Frontend/src/components/maps/MadhyaPradeshGeoHeatmap.jsx:479-499 | an empty map shows zeros; generated data shows 20 cities and at least 60 cases |
| RiskAlerts.HighValueAlertIff | Frontend/src/components/alerts/RiskAlertSystem.jsx:17-30 | a CRITICAL high-value alert appears iff some amount exceeds 1,000,000; it counts those transactions and sums their amounts |
| RiskAlerts.HighFrequencyAlertIff | Frontend/src/components/alerts/RiskAlertSystem.jsx:32-49 | a WARNING frequency alert appears iff more than 20 transactions are from the last hour; it counts them |
| RiskAlerts.TransferSpikeAlertIff | Frontend/src/components/alerts/RiskAlertSystem.jsx:51-63 | a WARNING transfer-spike alert appears iff more than 15 transfers are present; it counts them |
| RiskAlerts.CashoutPatternAlertIff | Frontend/src/components/alerts/RiskAlertSystem.jsx:65-77 | a HIGH cash-out alert appears iff more than 10 cash-outs are present; it counts them |
| RiskAlerts.HighValueRule | Frontend/src/components/alerts/RiskAlertSystem.jsx:18-30 | the high-value rule emits at most one alert, of its own kind |
| RiskAlerts.FrequencyRule | Frontend/src/components/alerts/RiskAlertSystem.jsx:33-49 | the frequency rule emits at most one alert, of its own kind |
| RiskAlerts.TransferRule | Frontend/src/components/alerts/RiskAlertSystem.jsx:52-63 | the transfer rule emits at most one alert, of its own kind |
| RiskAlerts.CashoutRule | Frontend/src/components/alerts/RiskAlertSystem.jsx:66-77 | the cash-out rule emits at most one alert, of its own kind |
| RiskAlerts.ConcatInOrder | Frontend/src/components/alerts/RiskAlertSystem.jsx:15-77 | four at-most-one lists of the four kinds, pushed in rule order, give at most four alerts in rule order |
| RiskAlerts.AlertsInRuleOrder | Frontend/src/components/alerts/RiskAlertSystem.jsx:15-77 | a cycle emits at most one alert per rule, and always in rule order |
| RiskAlerts.LevelIsHighestSeverity | Frontend/src/components/alerts/RiskAlertSystem.jsx:79-87 | the counting cascade equals the highest severity over the alerts (CRITICAL > HIGH > MEDIUM > LOW) |
| RiskAlerts.WarningsOnlyGiveMedium | Frontend/src/components/alerts/RiskAlertSystem.jsx:82-87 | a batch of warnings alone yields level MEDIUM |
| RiskAlerts.NewHistoryShape | Frontend/src/components/alerts/RiskAlertSystem.jsx:89-92 | the history is the new alerts followed by the previous history, cut to 20: its length is min(new + previous, 20), the new ones come first, the rest is a prefix of the previous history, and nothing is dropped while there is room |
| RiskAlerts.CycleLevelUpdate | Frontend/src/components/alerts/RiskAlertSystem.jsx:89-98 | after a fetch the level is the computed one, and the banner is raised exactly when the level changed |
| RiskAlerts.CycleFailedFetch | Frontend/src/components/alerts/RiskAlertSystem.jsx:100-102 | a failed fetch changes nothing |
| RiskAlerts.EmptyBatchCycle | Frontend/src/components/alerts/RiskAlertSystem.jsx:11-12 | an empty or missing list yields no alerts and level LOW, and leaves the history as it was |
| Investigation.BandsPartitionScores | Frontend/src/components/investigation/FraudInvestigation.jsx:256-260 | the four risk-filter bands partition the scores |
| Investigation.RiskColorFollowsBand | Frontend/src/components/investigation/FraudInvestigation.jsx:350-355 | the colour of a score is its band's colour, and the colours tell the bands apart |
| Investigation.FilterCasesIff | Frontend/src/components/investigation/FraudInvestigation.jsx:248-263 | a case is shown iff it matches the case-insensitive search on name, id or location, the status filter and the risk band; the shown cases keep their order |
| Investigation.DefaultFiltersKeepAll | Frontend/src/components/investigation/FraudInvestigation.jsx:9-11 | the initial filters (empty search, ALL, ALL) keep every case |
| Investigation.SortCasesCorrect | Frontend/src/components/investigation/FraudInvestigation.jsx:265-280 | sorting gives a permutation of the cases, ordered by the chosen field in the chosen direction |
| Investigation.PrecedesTotal | Frontend/src/components/investigation/FraudInvestigation.jsx:265-280 | for any two cases one may precede the other in the chosen field and direction |
| Investigation.PrecedesTransitive | Frontend/src/components/investigation/FraudInvestigation.jsx:265-280 | the order on cases is transitive, for every field and direction |
| Investigation.InsertCaseElements | Frontend/src/components/investigation/FraudInvestigation.jsx:265-280 | inserting a case adds exactly that case |
| Investigation.InsertCaseSorted | Frontend/src/components/investigation/FraudInvestigation.jsx:265-280 | inserting into a sorted list keeps it sorted |
| Investigation.FilteredAndSortedCorrect | Frontend/src/components/investigation/FraudInvestigation.jsx:248-282 | the list shown is a permutation of the filtered cases; by risk score, descending puts the larger of two distinct scores first and ascending the smaller |
| Investigation.HigherScoreFirst | Frontend/src/components/investigation/FraudInvestigation.jsx:12-13 | with the default sort, a 98 case is listed before a 76 case in either input order |
| Investigation.SelectCaseSpec | Frontend/src/components/investigation/FraudInvestigation.jsx:173-245 | selecting a case opens it with its own status, "Current User" as investigator, its similar cases and the note input kept; the timeline has five entries: the transaction at the case's time with its amount, detection 1 s and risk assessment (with its score) 30 s later, the investigation start at 2 min, and the pending review at the current time |
| Investigation.SimilarCasesSpec | Frontend/src/components/investigation/FraudInvestigation.jsx:182-188 | the first min(matches, 5) matching cases in pool order, never the case itself, each sharing customer, device or IP or within 100,000 in amount |
| Investigation.RelatedCasesSpec | Frontend/src/components/investigation/FraudInvestigation.jsx:221-224 | the first min(matches, 3) matching cases in pool order, never the case itself, each sharing the origin account or customer |
| Investigation.RiskAssessmentSpec | Frontend/src/components/investigation/FraudInvestigation.jsx:228-233 | the amount rating splits at 500,000 and 1,000,000; the device rating is Medium iff the fingerprint contains "ATM", otherwise High; the location rating is High iff the location contains "Railway" or "Mall", otherwise Medium; behaviour is Low iff the pattern recurs, otherwise High |
| Investigation.RecommendedActionsSpec | Frontend/src/components/investigation/FraudInvestigation.jsx:200-209 | eight actions; the first is an account freeze iff the score exceeds 90 |
| Investigation.AddNoteSpec | Frontend/src/components/investigation/FraudInvestigation.jsx:285-298 | a note entry with the trimmed text is appended, and the input cleared, iff the trimmed text is non-empty and a case is open; otherwise nothing changes |
| Investigation.BlankNoteIgnored | Frontend/src/components/investigation/FraudInvestigation.jsx:286 | a whitespace-only note is never recorded |
| Investigation.UpdateStatusSpec | Frontend/src/components/investigation/FraudInvestigation.jsx:300-312 | the status is always set; one status entry is appended iff a case is open; earlier entries are kept |
| Investigation.TimelineAppendOnly | Frontend/src/components/investigation/FraudInvestigation.jsx:285-312 | after any sequence of typing, notes and status changes, the old timeline is a prefix of the new one, at most one entry is added per action, and the open case is unchanged |
| Prevention.HighValueRecommendationIff | Frontend/src/components/prevention/FraudPreventionEngine.jsx:29-55 | the high-value recommendation is first, and present iff some amount exceeds 500,000; it estimates 80% of those amounts |
| Prevention.VelocityRecommendationIff | Frontend/src/components/prevention/FraudPreventionEngine.jsx:57-83 | the velocity recommendation is present iff more than 15 transfers are present; it estimates 25,000 per transfer |
| Prevention.RecommendationsShape | Frontend/src/components/prevention/FraudPreventionEngine.jsx:26-185 | four to six recommendations; the last four are always geo-fencing, ML, education and real-time alerts; no id repeats |
| Prevention.RefreshMetrics | Frontend/src/components/prevention/FraudPreventionEngine.jsx:187-194 | 45 prevented cases per recommendation; the saved amount is the two data-driven estimates plus 9.3 million; risk reduction 35 and score 78 |
| Prevention.FixedSavings | Frontend/src/components/prevention/FraudPreventionEngine.jsx:100-175 | the four fixed recommendations estimate 9.3 million together |
| Prevention.EmptyInputGivesFixedFour | Frontend/src/components/prevention/FraudPreventionEngine.jsx:24-194 | with no transactions only the fixed four are made: 180 cases and 9.3 million |
| Prevention.FailedRefreshKeepsState | Frontend/src/components/prevention/FraudPreventionEngine.jsx:19-22 | if either request fails, the recommendations and metrics stay as they were |
| LiveMetrics.DetectionRateDefined | Frontend/src/components/dashboard/LiveMetricsDashboard.jsx:30-59 | the rate never divides by zero; without a reported total it is 10% |
| LiveMetrics.DetectionRateExamples | Frontend/src/components/dashboard/LiveMetricsDashboard.jsx:59 | 7 of 100 shows 7; a zero or negative count shows 0 |
| LiveMetrics.MetricsSpec | Frontend/src/components/dashboard/LiveMetricsDashboard.jsx:29-64 | the cards: the count (0 when missing); the reported total, or 10 per case when it is missing or 0; a rate whose product with that total is 100 times the count, and 0 without fraud; the summed amounts and 15 times that volume; a mean processing time whose product with the number of logs is their summed time, and 145 without logs; 10 feed entries at most and 24 hourly bars |
| LiveMetrics.RateTimesTotal | Frontend/src/components/dashboard/LiveMetricsDashboard.jsx:59 | with a positive count the rate times the total is 100 times the count |
| LiveMetrics.AverageTimesCount | Frontend/src/components/dashboard/LiveMetricsDashboard.jsx:60-61 | the mean processing time times the number of logs is their summed time |
| LiveMetrics.RecentActivitySpec | Frontend/src/components/dashboard/LiveMetricsDashboard.jsx:46-52 | the feed is the first ten transactions in order, with their id and type and amount 0 when missing |
| LiveMetrics.RecentActivity | Frontend/src/components/dashboard/LiveMetricsDashboard.jsx:46-52 | no transaction list gives an empty feed |
| LiveMetrics.AverageBounded | Frontend/src/components/dashboard/LiveMetricsDashboard.jsx:60-61 | with at least one log, the mean processing time lies within any bounds that hold for every log time (150 for a missing one) |
| LiveMetrics.SumBounds | Frontend/src/components/dashboard/LiveMetricsDashboard.jsx:60-61 | log times within bounds sum to between the count times each bound |
| LiveMetrics.HourlyStatsBounds | Frontend/src/components/dashboard/LiveMetricsDashboard.jsx:36-43 | 24 hours; each count is 5 to 24 and each rate 85 to 95 |
| LiveMetrics.FailedRefreshKeepsMetrics | Frontend/src/components/dashboard/LiveMetricsDashboard.jsx:67-70 | if any of the three requests fails, the metrics stay as they were |
| Charts.MockTotals | Frontend/src/components/charts/FraudVisualizationCharts.jsx:24-47 | the mock data totals 680 cases and 30,870,000 over five types and five ranges |
| Charts.TransformSpec | Frontend/src/components/charts/FraudVisualizationCharts.jsx:54-68 | one bar per reported type, in order, with the reported count and 50,000 per case; the ranges 0-1K, 1K-10K and 10K+ at risks 25/45/65, each counting its bucket with a missing or zero bucket as 0; the total is the reported one or 0; the amount is the mean times the count, or 0 when either is missing |
| Charts.AveragePerCaseRecoversAverage | Frontend/src/components/charts/FraudVisualizationCharts.jsx:67-193 | with a non-zero count, the "Avg per Case" card gives back the reported mean |
| Charts.FetchStatsFallback | Frontend/src/components/charts/FraudVisualizationCharts.jsx:71-75 | a failed fetch shows the mock data; without a count the average card shows 0 |
| ResultsTable.KeepRowIff | Frontend/src/components/data/FraudResultsTable.jsx:139-144 | a row with an amount is kept iff its type matches (or no type is chosen) and its amount is within the set bounds, both inclusive |
| ResultsTable.FilteredRowsSpec | Frontend/src/components/data/FraudResultsTable.jsx:139-144 | the shown rows are exactly the fetched rows the filter keeps, in order; the displayed total counts them |
| ResultsTable.NoFiltersKeepAll | Frontend/src/components/data/FraudResultsTable.jsx:9-13 | with every field empty all fetched rows are shown |
| ResultsTable.BoundsInclusive | Frontend/src/components/data/FraudResultsTable.jsx:141-142 | an amount equal to both bounds is kept |
| ResultsTable.CrossedBoundsKeepNothing | Frontend/src/components/data/FraudResultsTable.jsx:141-142 | a minimum above the maximum shows no row that has an amount |
| ResultsTable.MissingTransactionsGiveEmpty | Frontend/src/components/data/FraudResultsTable.jsx:24-25 | a response without `transactions` gives an empty table and no error |
| ResultsTable.FailedFetchKeepsRows | Frontend/src/components/data/FraudResultsTable.jsx:26-27 | a failed fetch keeps the rows and sets the error message |
| DataPreview.SpacedSpec | Frontend/src/components/data/DataPreviewComponent.jsx:13 | spacing adds one character per capital; removing the spaces again gives back the key without its own spaces |
| DataPreview.CapitalsFollowSpaces | Frontend/src/components/data/DataPreviewComponent.jsx:13 | every capital in the spaced text follows a space |
| DataPreview.HeaderSpec | Frontend/src/components/data/DataPreviewComponent.jsx:13 | a header upper-cases the key's first character; the rest keeps its letters in order and gains one space per capital |
| DataPreview.HeaderExamples | Frontend/src/components/data/DataPreviewComponent.jsx:13 | "isFraud" becomes "Is Fraud" and "step" becomes "Step" |
| DataPreview.WidthIff | Frontend/src/components/data/DataPreviewComponent.jsx:30 | a column is 140px wide iff its key contains "amount" or "balance" |
| DataPreview.FormatCellSpec | Frontend/src/components/data/DataPreviewComponent.jsx:16-29 | "N/A" appears exactly for a missing value or an empty string, never for a number; currency only for numbers in money columns; dates only under `detected_at` |
| DataPreview.UpdateSpec | Frontend/src/components/data/DataPreviewComponent.jsx:8-36 | non-empty data keeps its first 100 rows and one column per key of the first row, in key order, keyed by it, headed by its spaced form with the first letter upper-cased, and 140px wide iff it is a money key; the view reports how many rows it shows and adds the footnote iff there are more than 100 (lines 101 and 125) |
| DataPreview.EmptyDataKeepsState | Frontend/src/components/data/DataPreviewComponent.jsx:81 | missing or empty data leaves the state as it was and shows the placeholder |
| Upload.AcceptsExamples | fraud2/src/components/upload/UploadComponent.jsx:14-20 | a ".csv" name or a listed MIME type is accepted; ".xls" by name alone, or an upper-case suffix, is not |
| Upload.SelectSpec | fraud2/src/components/upload/UploadComponent.jsx:10-28 | a chosen file is selected iff it is accepted; the error is set iff it is not |
| Upload.NoFileKeepsState | fraud2/src/components/upload/UploadComponent.jsx:11-12 | cancelling the file dialog changes nothing |
| Upload.UploadWithoutFileIsNoop | fraud2/src/components/upload/UploadComponent.jsx:31 | without a selected file an upload does nothing and reports nothing |
| Upload.UploadSpec | fraud2/src/components/upload/UploadComponent.jsx:30-45 | once the request settles the busy flag is cleared; the callback gets the result iff it succeeded; a success stores the result and clears the error; a failure keeps the old result and sets the error |
| Upload.FailureMessage | fraud2/src/components/upload/UploadComponent.jsx:40-41 | the error shown is the backend's non-empty message, otherwise the fallback; it is never empty |
| Upload.DetectionRateSpec | fraud2/src/components/upload/UploadComponent.jsx:133 | the rate is the fraud share in percent (rate × total = fraud × 100), 0 without transactions, within 0 to 100 when fraud ≤ total; 7 of 100 shows 7 |

## Left out

- Rendering, styling, timers (`setInterval`, `setTimeout`), loading flags and React's scheduling are not modelled. Each panel's refresh is one pure step from the fetched data to the new state.
- The HTTP client, the database, saving the file, `os.remove` and the database insert in the upload endpoint are left out. `secure_filename` is not modelled: the name it returns is a parameter of the uploaded file. So is what each of the two pandas readers makes of the saved bytes, a table or a failure.
- The Flask app imports its database functions from `api`, and `api.py` defines none of them under those names. The model takes them to be the functions of the same names in `database_setup.py`.
- A non-numeric text cell in a numeric upload column is not modelled; pandas would keep the column as text, and the comparisons would raise and end in the catch-all 500. A numeric cell is a number or NaN, and a `type` cell a string or empty.
- The error texts of the 500 answers are not modelled, only that the catch-all answers.
- `/api/fraud-stats`: the pandas `groupby` aggregations by step, type and amount range are left out. The bucket function, the empty case and the all-NULL failure are modelled.
- `Backend.FraudStatsTotals`: the totals for a list with a stored amount assume the later pandas stages return: the groupby aggregations, the confidence mean and the JSON encoding. A failure in them, which would also answer 500, is not modelled.
- `toFixed`, `toLocaleString`, `Date` parsing and printing are left out. Rates and amounts stay unrounded numbers, and the Flask `fraud_rate` string is modelled as the number it formats.
- Floating point is not modelled. Rule 3's balance check and every sum use exact reals.
- `ResultsTable.KeepRow`: `None` stands for an absent `amount` key, which compares false against both bounds. A JSON `null` amount, which compares as 0, is not modelled.
- `parseFloat` of non-numeric text (NaN) is not modelled. A missing amount is `None`, and comparisons with it are false, as `undefined` compares in JavaScript.
- `Text.LexLe` orders strings by code point, while JavaScript compares UTF-16 code units. The two differ when a character outside the Basic Multilingual Plane meets one from U+E000 to U+FFFF: `Text.AstralOrderExample` shows U+1F600 above U+FF5E, whereas JavaScript puts it below. So the customer-name sort of the investigation centre may order such names differently.
- Case mapping covers ASCII letters only. `toLowerCase` and `toUpperCase` on other characters are not modelled.
- Coordinates, map bounds and the leaflet markers are left out. Only the marker's colour, size and font sizes are modelled.
- The export of an investigation report (a JSON download) and the investigation's mock case list are left out. The model takes any case list.
- The case-sort comparator never returns 0. `Investigation.SortCasesCorrect` states the order any consistent sort gives (a stable insertion sort). It does not model how the browser's sort behaves on that inconsistent comparator for tied keys.
- `Upload`: the request to the server is a parameter. The fraud2 API client is not part of this model.
- `LiveMetrics.HourlyStatsBounds`: the mock hourly rates are stated only to lie in [85, 95].

## Findings

| source | as written | input that shows it | evidently intended | confidence | as-written member | corrected member |
|---|---|---|---|---|---|---|
| Frontend/src/components/maps/MadhyaPradeshGeoHeatmap.jsx:56-62 | the city index adds the raw amount, so a fractional amount gives a fractional index. `cityKeys[index]` is then `undefined`: every such transaction lands in the one entry `grouped["undefined"]`, whose coordinates are `undefined`, and reading `item.coordinates.lat` when fitting the map bounds (line 311) and placing the marker (line 431) throws | a transaction with id 1, amount 0.5 and no step: index 1.5 | truncate the amount to an integer first, as the backend does with `int()` (`flask_app.py:245-249`) | not executed | GeoHeatmap.CityIndexAsWritten, GeoHeatmap.FractionalAmountHasNoCity | GeoHeatmap.CityIndex, GeoHeatmap.IndicesAgreeOnWholeAmounts, GeoHeatmap.ProcessTransactionsSpec |

=== FILE: backend.dfy ===
/** The Flask backend's local logic: the upload extension check, the
    four-rule weighted fraud scorer, the ordered validation chain of the
    upload endpoint, amount bucketing and the empty-statistics case. */
module Backend {
  import opened Wrappers
  import opened Seqs
  import opened Text
  import opened Transactions

  // ---------------------------------------------------------------------
  // Extension check

  const AllowedExtensions: set<string> := {"csv", "xlsx", "xls"}

  /** The index of the last '.' in `s`, if any. */
  function LastDot(s: string): (r: Option<nat>)
    ensures r.Some? ==> r.value < |s| && s[r.value] == '.'
                        && forall j :: r.value < j < |s| ==> s[j] != '.'
    ensures r.None? ==> forall j :: 0 <= j < |s| ==> s[j] != '.'
    decreases |s|
  {
    if s == [] then None
    else if s[|s| - 1] == '.' then Some(|s| - 1)
    else LastDot(s[..|s| - 1])
  }

  /** `allowed_file`: there is a '.', and the lower-cased text after the
      last one is csv, xlsx or xls. */
  predicate AllowedFile(filename: string) {
    match LastDot(filename)
    case None => false
    case Some(i) => Lower(filename[i + 1..]) in AllowedExtensions
  }

  /** The check accepts a name iff some '.' is followed by a dot-free
      suffix whose lower-case form is an allowed extension. */
  lemma AllowedFileIff(filename: string)
    ensures AllowedFile(filename) <==>
      exists i :: 0 <= i < |filename| && filename[i] == '.'
        && (forall j :: i < j < |filename| ==> filename[j] != '.')
        && Lower(filename[i + 1..]) in AllowedExtensions
  {
    if AllowedFile(filename) {
      var i := LastDot(filename).value;
      assert Lower(filename[i + 1..]) in AllowedExtensions;
    }
    forall i | 0 <= i < |filename| && filename[i] == '.'
         && (forall j :: i < j < |filename| ==> filename[j] != '.')
      ensures LastDot(filename) == Some(i)
    {
      LastDotUnique(filename, i);
    }
  }

  /** A '.' with no '.' after it is the last one. */
  lemma LastDotUnique(s: string, i: nat)
    requires i < |s| && s[i] == '.'
    requires forall j :: i < j < |s| ==> s[j] != '.'
    ensures LastDot(s) == Some(i)
  {
  }

  /** Concrete cases: upper-case extensions pass. */
  lemma AllowedFileExamples()
    ensures AllowedFile("data.CSV")
    ensures AllowedFile("report.xls")
  {
    assert "data.CSV"[4] == '.' && "data.CSV"[5..] == "CSV";
    assert Lower("CSV") == "csv";
    assert "report.xls"[6] == '.' && "report.xls"[7..] == "xls";
    assert Lower("xls") == "xls";
  }

  /** A bare name, and a double extension ending in something else, are
      refused. */
  lemma RejectedFileExamples()
    ensures !AllowedFile("data")
    ensures !AllowedFile("data.csv.txt")
  {
    assert "data.csv.txt"[8] == '.' && "data.csv.txt"[9..] == "txt";
    assert Lower("txt") == "txt";
  }

  // ---------------------------------------------------------------------
  // Data-frame rows

  /** A cell of a numeric column as pandas holds it: a number, or NaN for
      an empty cell. */
  datatype Cell = NaN | Num(v: real)

  /** One row of the uploaded data frame. A numeric field is None when its
      column is absent from the file; `txType` is None when the column is
      absent or the cell is empty (neither compares equal to a name). */
  datatype Row = Row(
    step: Option<Cell>,
    txType: Option<string>,
    amount: Option<Cell>,
    oldBalanceOrg: Option<Cell>,
    newBalanceOrig: Option<Cell>,
    newBalanceDest: Option<Cell>)

  /** `row.get(field, 0)`: the default stands in only for an absent
      column; an empty cell stays NaN. */
  function Get(x: Option<Cell>): (c: Cell)
    ensures x.None? ==> c == Num(0.0)
    ensures x.Some? ==> c == x.value
  {
    x.GetOr(Num(0.0))
  }

  /** `c > bound`: false for NaN. */
  predicate Above(c: Cell, bound: real) {
    c.Num? && c.v > bound
  }

  /** `c == 0`: false for NaN. */
  predicate IsZero(c: Cell) {
    c.Num? && c.v == 0.0
  }

  /** `a - b`: NaN when either side is. */
  function Minus(a: Cell, b: Cell): Cell {
    if a.Num? && b.Num? then Num(a.v - b.v) else NaN
  }

  /** `a != b`: true whenever either side is NaN. */
  predicate Differs(a: Cell, b: Cell) {
    !(a.Num? && b.Num? && a.v == b.v)
  }

  // ---------------------------------------------------------------------
  // Rule scorer

  const FraudCutoff: int := 50

  function Rule1(t: Row): int {
    if t.txType == Some("TRANSFER") && Above(Get(t.amount), 100000.0) then 30 else 0
  }

  function Rule2(t: Row): int {
    if t.txType == Some("CASH_OUT") && Above(Get(t.amount), 50000.0) then 25 else 0
  }

  function Rule3(t: Row): int {
    if Differs(Minus(Get(t.oldBalanceOrg), Get(t.amount)), Get(t.newBalanceOrig)) then 40 else 0
  }

  function Rule4(t: Row): int {
    if (t.txType == Some("TRANSFER") || t.txType == Some("CASH_IN")) && IsZero(Get(t.newBalanceDest))
    then 35 else 0
  }

  /** The weighted sum of the four rules. */
  function FraudScore(t: Row): int {
    Rule1(t) + Rule2(t) + Rule3(t) + Rule4(t)
  }

  predicate IsFraud(t: Row) {
    FraudScore(t) > FraudCutoff
  }

  /** On a row whose cells are all numbers each rule is the plain
      comparison of the values, with 0 for an absent column. */
  lemma RulesOnNumbers(t: Row, amount: real, oldOrg: real, newOrig: real, newDest: real)
    requires Get(t.amount) == Num(amount) && Get(t.oldBalanceOrg) == Num(oldOrg)
    requires Get(t.newBalanceOrig) == Num(newOrig) && Get(t.newBalanceDest) == Num(newDest)
    ensures Rule1(t) == (if t.txType == Some("TRANSFER") && amount > 100000.0 then 30 else 0)
    ensures Rule2(t) == (if t.txType == Some("CASH_OUT") && amount > 50000.0 then 25 else 0)
    ensures Rule3(t) == (if oldOrg - amount != newOrig then 40 else 0)
    ensures Rule4(t) == (if (t.txType == Some("TRANSFER") || t.txType == Some("CASH_IN")) && newDest == 0.0
                         then 35 else 0)
  {
  }

  /** An empty cell is NaN, and every comparison with NaN is false except
      `!=`: an empty amount or balance always breaks rule 3, an empty
      amount never breaks rules 1 and 2, and an empty destination balance
      never breaks rule 4, whereas an absent destination column reads as
      0 and does. */
  lemma EmptyCells(t: Row)
    ensures t.amount == Some(NaN) ==> Rule1(t) == 0 && Rule2(t) == 0 && Rule3(t) == 40
    ensures t.oldBalanceOrg == Some(NaN) || t.newBalanceOrig == Some(NaN) ==> Rule3(t) == 40
    ensures t.newBalanceDest == Some(NaN) ==> Rule4(t) == 0
    ensures t.newBalanceDest.None? && t.txType == Some("CASH_IN") ==> Rule4(t) == 35
  {
  }

  /** A 200,000 transfer that empties its consistent origin balance but
      leaves the destination balance empty breaks rule 1 alone: it scores
      30 and is not flagged, where reading the empty cell as 0 would add
      rule 4 and flag it. */
  lemma EmptyDestinationExample()
    ensures var t := Row(Some(Num(1.0)), Some("TRANSFER"), Some(Num(200000.0)), Some(Num(200000.0)),
                         Some(Num(0.0)), Some(NaN));
            FraudScore(t) == 30 && !IsFraud(t)
    ensures var t := Row(Some(Num(1.0)), Some("TRANSFER"), Some(Num(200000.0)), Some(Num(200000.0)),
                         Some(Num(0.0)), Some(Num(0.0)));
            FraudScore(t) == 65 && IsFraud(t)
  {
  }

  /** A flagged row: the input row with `isFlaggedFraud = 1` and
      `prediction_confidence = min(score, 100)`. */
  datatype FlaggedRow = FlaggedRow(row: Row, isFlaggedFraud: int, confidence: int)

  function Confidence(score: int): int {
    if score < 100 then score else 100
  }

  function Flag(t: Row): FlaggedRow {
    FlaggedRow(t, 1, Confidence(FraudScore(t)))
  }

  /** Reference definition: flag every fraudulent row, in input order. */
  function FlagRows(rows: seq<Row>): seq<FlaggedRow>
    decreases rows
  {
    if rows == [] then [] else FlagOne(rows[0]) + FlagRows(rows[1..])
  }

  /** The flagged form of one row, if it is flagged. */
  function FlagOne(t: Row): seq<FlaggedRow> {
    if IsFraud(t) then [Flag(t)] else []
  }

  function RowsOf(flagged: seq<FlaggedRow>): seq<Row> {
    seq(|flagged|, i requires 0 <= i < |flagged| => flagged[i].row)
  }

  /** The score is one of the sums of distinct weights; the largest is
      105 (a transfer breaking rules 1, 3 and 4), which the confidence cap
      brings down to 100. */
  lemma ScoreRange(t: Row)
    ensures 0 <= FraudScore(t) <= 105
    ensures Rule1(t) > 0 ==> Rule2(t) == 0
    ensures IsFraud(t) ==> 50 < Confidence(FraudScore(t)) <= 100
  {
  }

  /** How many of the four rules the row breaks. */
  function RulesBroken(t: Row): nat {
    (if Rule1(t) > 0 then 1 else 0) + (if Rule2(t) > 0 then 1 else 0)
    + (if Rule3(t) > 0 then 1 else 0) + (if Rule4(t) > 0 then 1 else 0)
  }

  /** Every weight is at most 50, so no single rule flags a row: a flagged
      row breaks at least two rules, and any two of rules 1, 3, 4, or
      rules 2 and 3, are enough. */
  lemma NoSingleRuleFlags(t: Row)
    ensures IsFraud(t) ==> RulesBroken(t) >= 2
    ensures RulesBroken(t) <= 1 ==> !IsFraud(t)
    ensures Rule3(t) > 0 && (Rule1(t) > 0 || Rule2(t) > 0 || Rule4(t) > 0) ==> IsFraud(t)
    ensures Rule1(t) > 0 && Rule4(t) > 0 ==> IsFraud(t)
  {
  }

  lemma {:induction false} FlagRowsAppend(a: seq<Row>, b: seq<Row>)
    ensures FlagRows(a + b) == FlagRows(a) + FlagRows(b)
    decreases a
  {
    if a == [] {
      assert a + b == b;
    } else {
      var ab := a + b;
      assert ab[0] == a[0] && ab[1..] == a[1..] + b;
      FlagRowsAppend(a[1..], b);
      calc {
        FlagRows(ab);
        FlagOne(a[0]) + FlagRows(a[1..] + b);
        FlagOne(a[0]) + (FlagRows(a[1..]) + FlagRows(b));
        (FlagOne(a[0]) + FlagRows(a[1..])) + FlagRows(b);
      }
    }
  }

  /** The flagged rows are exactly the fraudulent input rows, in order,
      each marked and carrying its capped score. */
  lemma FlagRowsSpec(rows: seq<Row>)
    ensures |FlagRows(rows)| == Count(IsFraud, rows)
    ensures RowsOf(FlagRows(rows)) == Filter(IsFraud, rows)
    ensures forall k :: 0 <= k < |FlagRows(rows)| ==>
              && FlagRows(rows)[k].isFlaggedFraud == 1
              && IsFraud(FlagRows(rows)[k].row)
              && FlagRows(rows)[k].confidence == Confidence(FraudScore(FlagRows(rows)[k].row))
              && 50 < FlagRows(rows)[k].confidence <= 100
  {
    FlagRowsRows(rows);
    FlagRowsMarked(rows);
    forall k | 0 <= k < |FlagRows(rows)|
      ensures 50 < FlagRows(rows)[k].confidence <= 100
    {
      ScoreRange(FlagRows(rows)[k].row);
    }
  }

  lemma {:induction false} FlagRowsRows(rows: seq<Row>)
    ensures |FlagRows(rows)| == Count(IsFraud, rows)
    ensures RowsOf(FlagRows(rows)) == Filter(IsFraud, rows)
    decreases rows
  {
    if rows != [] {
      FlagRowsRows(rows[1..]);
      var head := FlagOne(rows[0]);
      assert FlagRows(rows) == head + FlagRows(rows[1..]);
      assert RowsOf(FlagRows(rows)) == RowsOf(head) + RowsOf(FlagRows(rows[1..]));
    }
  }

  lemma {:induction false} FlagRowsMarked(rows: seq<Row>)
    ensures forall k :: 0 <= k < |FlagRows(rows)| ==>
              IsFraud(FlagRows(rows)[k].row) && FlagRows(rows)[k] == Flag(FlagRows(rows)[k].row)
    decreases rows
  {
    if rows != [] {
      FlagRowsMarked(rows[1..]);
      var head := FlagOne(rows[0]);
      var r := FlagRows(rows);
      assert r == head + FlagRows(rows[1..]);
      forall k | 0 <= k < |r| ensures IsFraud(r[k].row) && r[k] == Flag(r[k].row) {
        if k >= |head| {
          assert r[k] == FlagRows(rows[1..])[k - |head|];
        }
      }
    }
  }

  /** `detect_fraud`: one pass over the rows. */
  method DetectFraud(rows: seq<Row>) returns (flagged: seq<FlaggedRow>)
    ensures flagged == FlagRows(rows)
    ensures |flagged| == Count(IsFraud, rows)
    ensures RowsOf(flagged) == Filter(IsFraud, rows)
    ensures forall k :: 0 <= k < |flagged| ==>
              && flagged[k].isFlaggedFraud == 1
              && IsFraud(flagged[k].row)
              && flagged[k].confidence == Confidence(FraudScore(flagged[k].row))
              && 50 < flagged[k].confidence <= 100
  {
    flagged := [];
    var i := 0;
    while i < |rows|
      invariant 0 <= i <= |rows|
      invariant flagged == FlagRows(rows[..i])
    {
      assert rows[..i + 1] == rows[..i] + [rows[i]];
      FlagRowsAppend(rows[..i], [rows[i]]);
      assert FlagRows([rows[i]]) == (if IsFraud(rows[i]) then [Flag(rows[i])] else []) + FlagRows([]);
      if IsFraud(rows[i]) {
        flagged := flagged + [Flag(rows[i])];
      }
      i := i + 1;
    }
    assert rows[..i] == rows;
    FlagRowsSpec(rows);
  }

  // ---------------------------------------------------------------------
  // Upload endpoint

  const RequiredColumns: seq<string> := ["step", "type", "amount", "oldbalanceOrg", "newbalanceOrig"]

  /** What one pandas reader produced from the saved file. */
  datatype ReadResult = Unreadable(reason: string) | Table(columns: seq<string>, rows: seq<Row>)

  /** The uploaded file: the name the client sent, the name
      `secure_filename` turned it into, and what each of the two readers
      would make of the saved bytes. */
  datatype UploadedFile = UploadedFile(
    filename: string,
    savedName: string,
    asCsv: ReadResult,
    asExcel: ReadResult)

  /** The `file` part of the multipart request, if present. */
  datatype UploadRequest = UploadRequest(file: Option<UploadedFile>)

  /** The reader is chosen by a case-sensitive ".csv" suffix on the saved
      name; anything else goes to the Excel reader. */
  function Reading(f: UploadedFile): (r: ReadResult)
    ensures EndsWith(f.savedName, ".csv") ==> r == f.asCsv
    ensures !EndsWith(f.savedName, ".csv") ==> r == f.asExcel
  {
    if EndsWith(f.savedName, ".csv") then f.asCsv else f.asExcel
  }

  /** The extension check ignores case but the reader choice does not: an
      upper-case ".CSV" file passes the check and is then handed to the
      Excel reader. */
  lemma UpperCaseCsvReadAsExcel(f: UploadedFile)
    requires f.filename == "data.CSV" && f.savedName == "data.CSV"
    ensures AllowedFile(f.filename)
    ensures Reading(f) == f.asExcel
  {
    AllowedFileExamples();
    assert "data.CSV"[4..] == ".CSV";
  }

  datatype UploadError =
    | NoFileProvided
    | NoFileSelected
    | InvalidFileType
    | ReadFailed(reason: string)
    | MissingColumns(columns: seq<string>)

  /** The JSON reply: an error with 400, the summary with 200, or the
      catch-all 500. */
  datatype UploadResponse =
    | Rejected(error: UploadError)
    | Processed(totalTransactions: nat, fraudulentCount: nat, fraudRate: real, preview: seq<Row>)
    | ServerError

  function StatusCode(r: UploadResponse): int {
    match r
    case Rejected(_) => 400
    case Processed(_, _, _, _) => 200
    case ServerError => 500
  }

  /** The required columns the table lacks, in the required order. */
  function Missing(columns: seq<string>): seq<string> {
    Filter(c => c !in columns, RequiredColumns)
  }

  /** The missing list names exactly the required columns the table
      lacks, each once, in the required order; it is empty exactly when
      every required column is present. */
  lemma MissingSpec(columns: seq<string>)
    ensures IsSubsequence(Missing(columns), RequiredColumns)
    ensures forall c :: c in Missing(columns) <==> c in RequiredColumns && c !in columns
    ensures Missing(columns) == [] <==> forall c :: c in RequiredColumns ==> c in columns
  {
    var p := c => c !in columns;
    FilterIsSubsequence(p, RequiredColumns);
    forall c | c in RequiredColumns && c !in columns
      ensures c in Missing(columns)
    {
      FilterKeeps(p, RequiredColumns, c);
    }
    FilterNonEmpty(p, RequiredColumns);
  }

  /** `upload_file`. Saving, the database insert and the file removal are
      I/O and left out; the rate divides by the row count, so a file with
      a header and no rows ends in the catch-all 500. */
  function Upload(req: UploadRequest): UploadResponse {
    if req.file.None? then Rejected(NoFileProvided)
    else if req.file.value.filename == "" then Rejected(NoFileSelected)
    else if !AllowedFile(req.file.value.filename) then Rejected(InvalidFileType)
    else match Reading(req.file.value)
      case Unreadable(reason) => Rejected(ReadFailed(reason))
      case Table(columns, rows) =>
        if Missing(columns) != [] then Rejected(MissingColumns(Missing(columns)))
        else if rows == [] then ServerError
        else Process(rows)
  }

  /** The success response for a non-empty table. */
  function Process(rows: seq<Row>): UploadResponse
    requires rows != []
  {
    var flagged := FlagRows(rows);
    Processed(|rows|, |flagged|, Percentage(|flagged|, |rows|), Take(rows, 10))
  }

  function Percentage(part: nat, whole: nat): real
    requires whole > 0
  {
    (part as real) / (whole as real) * 100.0
  }

  lemma PercentageBounds(part: nat, whole: nat)
    requires 0 < whole && part <= whole
    ensures 0.0 <= Percentage(part, whole) <= 100.0
  {
    assert (part as real) / (whole as real) <= 1.0;
  }

  /** The request passes the first three checks: a file part with a
      non-empty, allowed name. */
  predicate NameAccepted(req: UploadRequest) {
    req.file.Some? && req.file.value.filename != "" && AllowedFile(req.file.value.filename)
  }

  /** The request is rejected with 400 at the first failing check, in the
      order: file part, file name, extension, readability, columns. */
  lemma UploadRejectionOrder(req: UploadRequest)
    ensures req.file.None? ==> Upload(req) == Rejected(NoFileProvided)
    ensures req.file.Some? && req.file.value.filename == "" ==> Upload(req) == Rejected(NoFileSelected)
    ensures req.file.Some? && req.file.value.filename != "" && !AllowedFile(req.file.value.filename) ==>
              Upload(req) == Rejected(InvalidFileType)
    ensures NameAccepted(req) && Reading(req.file.value).Unreadable? ==>
              Upload(req) == Rejected(ReadFailed(Reading(req.file.value).reason))
    ensures NameAccepted(req) && Reading(req.file.value).Table? && Missing(Reading(req.file.value).columns) != [] ==>
              Upload(req) == Rejected(MissingColumns(Missing(Reading(req.file.value).columns)))
    ensures StatusCode(Upload(req)) == 400 <==>
      || req.file.None?
      || !AllowedFile(req.file.value.filename)
      || Reading(req.file.value).Unreadable?
      || exists c :: c in RequiredColumns && c !in Reading(req.file.value).columns
  {
    if req.file.Some? && req.file.value.filename == "" {
      assert LastDot("") == None;
    }
    if req.file.Some? && Reading(req.file.value).Table? {
      var columns := Reading(req.file.value).columns;
      FilterNonEmpty(c => c !in columns, RequiredColumns);
    }
  }

  /** A processed upload reports every row, counts the flagged ones, and
      its rate is their percentage; the preview is the first ten rows. */
  lemma ProcessedUploadSpec(req: UploadRequest)
    requires Upload(req).Processed?
    ensures var r := Upload(req);
            var rows := Reading(req.file.value).rows;
            && NameAccepted(req)
            && Reading(req.file.value).Table?
            && Missing(Reading(req.file.value).columns) == []
            && r.totalTransactions == |rows| > 0
            && r.fraudulentCount == Count(IsFraud, rows) <= r.totalTransactions
            && r.fraudRate == Percentage(Count(IsFraud, rows), |rows|)
            && 0.0 <= r.fraudRate <= 100.0
            && r.preview == Take(rows, 10)
  {
    var rows := Reading(req.file.value).rows;
    assert Upload(req) == Process(rows);
    FlagRowsSpec(rows);
    FilterLength(IsFraud, rows);
    PercentageBounds(Count(IsFraud, rows), |rows|);
  }

  /** Conversely, an accepted name whose reading is a table with every
      required column is processed when it has rows and ends in the
      catch-all 500 when it has only a header. */
  lemma ValidTableOutcome(req: UploadRequest)
    requires NameAccepted(req) && Reading(req.file.value).Table?
    requires Missing(Reading(req.file.value).columns) == []
    ensures Reading(req.file.value).rows == [] ==> Upload(req) == ServerError
    ensures Reading(req.file.value).rows != [] ==> Upload(req).Processed?
  {
  }

  // ---------------------------------------------------------------------
  // Amount buckets and statistics

  datatype AmountRange = Under1K | From1KTo10K | From10KTo50K | From50KTo100K | Over100K

  function CategorizeAmount(amount: real): AmountRange {
    if amount < 1000.0 then Under1K
    else if amount < 10000.0 then From1KTo10K
    else if amount < 50000.0 then From10KTo50K
    else if amount < 100000.0 then From50KTo100K
    else Over100K
  }

  function RangeLabel(r: AmountRange): string {
    match r
    case Under1K => "0-1K"
    case From1KTo10K => "1K-10K"
    case From10KTo50K => "10K-50K"
    case From50KTo100K => "50K-100K"
    case Over100K => "100K+"
  }

  /** Each bucket is a half-open interval, so a boundary value belongs to
      the upper bucket: 1000 is "1K-10K", 100000 is "100K+". */
  lemma CategorizeAmountIntervals(a: real)
    ensures CategorizeAmount(a) == Under1K <==> a < 1000.0
    ensures CategorizeAmount(a) == From1KTo10K <==> 1000.0 <= a < 10000.0
    ensures CategorizeAmount(a) == From10KTo50K <==> 10000.0 <= a < 50000.0
    ensures CategorizeAmount(a) == From50KTo100K <==> 50000.0 <= a < 100000.0
    ensures CategorizeAmount(a) == Over100K <==> 100000.0 <= a
    ensures RangeLabel(CategorizeAmount(1000.0)) == "1K-10K"
  {
  }

  /** The totals of `GET /fraud-stats`; with no transactions every list is
      empty and both totals are zero. */
  datatype FraudStats = NoFraudStats | FraudStats(totalFraud: nat, totalAmount: real) | StatsServerError

  /** A stored amount as `sum` reads it: NULL is skipped, which adds 0. */
  function StoredAmount(t: Transaction): real {
    t.amount.GetOr(0.0)
  }

  /** Every amount is NULL. pandas then builds a column of `None`, and
      bucketing it compares `None < 1000`, which raises. With at least one
      stored amount the column is numeric and a NULL is NaN, which falls
      through every bucket test to "100K+". */
  predicate NoStoredAmount(txs: seq<Transaction>) {
    forall i :: 0 <= i < |txs| ==> txs[i].amount.None?
  }

  function FraudStatsOf(txs: seq<Transaction>): FraudStats {
    if txs == [] then NoFraudStats
    else if NoStoredAmount(txs) then StatsServerError
    else FraudStats(|txs|, Sum(StoredAmount, txs))
  }

  function TotalFraud(s: FraudStats): nat
    requires !s.StatsServerError?
  {
    match s
    case NoFraudStats => 0
    case FraudStats(n, _) => n
  }

  /** The empty list gives the all-zero statistics; a non-empty list whose
      amounts are all NULL makes the handler raise and answer 500;
      otherwise the reported total is the number of transactions and the
      amount the sum of the stored amounts. */
  lemma FraudStatsTotals(txs: seq<Transaction>)
    ensures FraudStatsOf(txs).NoFraudStats? <==> txs == []
    ensures FraudStatsOf(txs).StatsServerError? <==>
              txs != [] && forall i :: 0 <= i < |txs| ==> txs[i].amount.None?
    ensures FraudStatsOf(txs).FraudStats? <==> exists i :: 0 <= i < |txs| && txs[i].amount.Some?
    ensures !FraudStatsOf(txs).StatsServerError? ==> TotalFraud(FraudStatsOf(txs)) == |txs|
    ensures FraudStatsOf(txs).FraudStats? ==> FraudStatsOf(txs).totalAmount == Sum(StoredAmount, txs)
  {
  }

  /** An upload row with an empty amount cell is flagged when it is a
      transfer to an emptied account (rules 3 and 4), and a stored row
      whose amount is NULL on its own makes the statistics fail. */
  lemma NullAmountStatsExample(t: Transaction)
    requires t.amount.None?
    ensures IsFraud(Row(Some(Num(1.0)), Some("TRANSFER"), Some(NaN), Some(Num(0.0)), Some(Num(0.0)), Some(Num(0.0))))
    ensures FraudStatsOf([t]) == StatsServerError
  {
  }

  /** The amount total is additive: two non-empty lists together have
      totals exactly when either has a stored amount, and then their sums
      add, so each stored amount counts once. */
  lemma FraudStatsAppend(a: seq<Transaction>, b: seq<Transaction>)
    requires a != [] && b != []
    ensures FraudStatsOf(a + b).FraudStats? <==> FraudStatsOf(a).FraudStats? || FraudStatsOf(b).FraudStats?
    ensures FraudStatsOf(a + b).FraudStats? ==>
              && FraudStatsOf(a + b).totalFraud == |a| + |b|
              && FraudStatsOf(a + b).totalAmount == Sum(StoredAmount, a) + Sum(StoredAmount, b)
    ensures FraudStatsOf(a).FraudStats? && FraudStatsOf(b).FraudStats? ==>
              && FraudStatsOf(a + b).totalFraud == FraudStatsOf(a).totalFraud + FraudStatsOf(b).totalFraud
              && FraudStatsOf(a + b).totalAmount == FraudStatsOf(a).totalAmount + FraudStatsOf(b).totalAmount
  {
    SumAppend(StoredAmount, a, b);
    var ab := a + b;
    if !NoStoredAmount(a) {
      var i :| 0 <= i < |a| && a[i].amount.Some?;
      assert ab[i] == a[i];
    }
    if !NoStoredAmount(b) {
      var i :| 0 <= i < |b| && b[i].amount.Some?;
      assert ab[|a| + i] == b[i];
    }
    if !NoStoredAmount(ab) {
      var i :| 0 <= i < |ab| && ab[i].amount.Some?;
      if i < |a| { assert ab[i] == a[i]; } else { assert ab[i] == b[i - |a|]; }
    }
  }
}

=== FILE: backend_geo.dfy ===
/** `GET /fraud-geo-data`: each fraudulent transaction is assigned to one of
    19 Madhya Pradesh cities by a hash of its id, amount and step, and the
    endpoint returns one aggregate per city that received any. */
module BackendGeo {
  import opened Wrappers
  import opened Seqs
  import opened Numbers
  import opened Transactions
  import opened Grouping

  /** The keys of `mp_cities`, in insertion order. */
  const Cities: seq<string> := [
    "Bhopal", "Indore", "Jabalpur", "Gwalior", "Ujjain", "Sagar", "Dewas",
    "Satna", "Ratlam", "Rewa", "Singrauli", "Burhanpur", "Khandwa", "Bhind",
    "Chhindwara", "Guna", "Shivpuri", "Vidisha", "Chhatarpur"]

  /** `abs(get('id', i) + int(get('amount', 0)) + int(get('step', 0))) % 19`.
      The defaults stand in for absent keys; `SELECT *` gives every row
      every key, so only complete rows (below) reach the hash. */
  function CityIndex(t: Transaction, i: nat): (r: nat)
    ensures r < |Cities|
  {
    AbsInt(t.id.GetOr(i) + Trunc(t.amount.GetOr(0.0)) + t.step.GetOr(0)) % |Cities|
  }

  function CityKeys(txs: seq<Transaction>): seq<nat> {
    KeysOf(txs, CityIndex)
  }

  /** One element of the response list. */
  datatype CityAggregate = CityAggregate(
    city: string,
    cityIndex: nat,
    transactions: seq<Transaction>,
    totalAmount: real,
    avgRiskScore: real,
    avgAmount: real,
    count: nat)

  function AmountOf(t: Transaction): real { t.amount.GetOr(0.0) }

  function RiskOf(t: Transaction): real { t.confidence.GetOr(0.0) }

  /** The aggregate of one group; every group has a member, so both means
      are defined. */
  function Aggregate(txs: seq<Transaction>, g: Group): CityAggregate
    requires g.key < |Cities| && g.members != []
    requires forall q :: 0 <= q < |g.members| ==> g.members[q] < |txs|
  {
    var members := Pick(txs, g.members);
    var n := |members| as real;
    CityAggregate(Cities[g.key], g.key, members, Sum(AmountOf, members),
                  Sum(RiskOf, members) / n, Sum(AmountOf, members) / n, |members|)
  }

  function AggregateAll(txs: seq<Transaction>, gs: seq<Group>): (r: seq<CityAggregate>)
    requires ValidGroups(gs, |txs|) && KeysBelow(gs, |Cities|)
    ensures |r| == |gs|
    ensures forall j :: 0 <= j < |gs| ==> r[j] == Aggregate(txs, gs[j])
    decreases gs
  {
    if gs == [] then [] else [Aggregate(txs, gs[0])] + AggregateAll(txs, gs[1..])
  }

  /** The endpoint's list; an empty table gives `[]`. */
  function GeoData(txs: seq<Transaction>): seq<CityAggregate> {
    if txs == [] then []
    else
      var keys := CityKeys(txs);
      GroupKeysValid(keys);
      GroupKeysBelow(keys, |Cities|);
      AggregateAll(txs, GroupKeys(keys))
  }

  /** A stored row the endpoint can use. Every key is present, so a field
      that is None is SQL NULL, and a NULL id, amount, step or confidence
      makes `+`, `int()` or `sum` raise inside the handler. */
  predicate Complete(t: Transaction) {
    t.id.Some? && t.amount.Some? && t.step.Some? && t.confidence.Some?
  }

  /** The reply: the list with 200, or the catch-all 500. */
  datatype GeoResponse = GeoList(cities: seq<CityAggregate>) | GeoServerError

  /** `get_fraud_geo_data`: an empty table gives `[]`; any incomplete row
      makes the handler raise. */
  function Geo(txs: seq<Transaction>): GeoResponse {
    if forall i :: 0 <= i < |txs| ==> Complete(txs[i]) then GeoList(GeoData(txs)) else GeoServerError
  }

  function TotalCount(r: seq<CityAggregate>): nat
    decreases r
  {
    if r == [] then 0 else r[0].count + TotalCount(r[1..])
  }

  lemma {:induction false} TotalCountOfAll(txs: seq<Transaction>, gs: seq<Group>)
    requires ValidGroups(gs, |txs|) && KeysBelow(gs, |Cities|)
    ensures TotalCount(AggregateAll(txs, gs)) == TotalMembers(gs)
    decreases gs
  {
    if gs != [] {
      TotalCountOfAll(txs, gs[1..]);
      assert AggregateAll(txs, gs)[1..] == AggregateAll(txs, gs[1..]);
    }
  }

  /** The endpoint fails exactly when some row is incomplete. Otherwise
      every city in the response received at least one transaction and
      appears once; its entry holds exactly the transactions hashed to it,
      in input order, with their sum and means; the counts add up to the
      number of transactions. */
  lemma GeoDataSpec(txs: seq<Transaction>)
    ensures Geo(txs).GeoServerError? <==> exists i :: 0 <= i < |txs| && !Complete(txs[i])
    ensures Geo(txs).GeoList? ==>
            var r := Geo(txs).cities;
            && TotalCount(r) == |txs|
            && (forall a, b :: 0 <= a < b < |r| ==> r[a].city != r[b].city)
            && (forall j :: 0 <= j < |r| ==>
                  && r[j].cityIndex < |Cities|
                  && r[j].city == Cities[r[j].cityIndex]
                  && 1 <= r[j].count == |r[j].transactions|
                  && r[j].transactions == Pick(txs, IndicesOf(CityKeys(txs), r[j].cityIndex))
                  && r[j].totalAmount == Sum(AmountOf, r[j].transactions)
                  && r[j].avgRiskScore == Sum(RiskOf, r[j].transactions) / (r[j].count as real)
                  && r[j].avgAmount == r[j].totalAmount / (r[j].count as real))
  {
    if txs != [] {
      var keys := CityKeys(txs);
      var gs := GroupKeys(keys);
      GroupKeysSpec(keys);
      GroupKeysValid(keys);
      GroupKeysBelow(keys, |Cities|);
      var r := GeoData(txs);
      assert r == AggregateAll(txs, gs);
      TotalCountOfAll(txs, gs);
      assert DistinctKeys(gs) && MembersExact(gs, keys);
      forall a, b | 0 <= a < b < |r| ensures r[a].city != r[b].city {
        DistinctCityNames(gs[a].key, gs[b].key);
      }
    }
  }

  /** The database writer never stores `prediction_confidence`, so every
      row it writes reads back with a NULL confidence, and a non-empty
      table of such rows makes the endpoint answer 500. */
  lemma WriterRowsFailGeo(txs: seq<Transaction>)
    requires txs != []
    requires forall i :: 0 <= i < |txs| ==> txs[i].confidence.None?
    ensures Geo(txs) == GeoServerError
  {
    assert !Complete(txs[0]);
  }

  lemma DistinctCityNames(a: nat, b: nat)
    requires a < |Cities| && b < |Cities| && a != b
    ensures Cities[a] != Cities[b]
  {
  }

  /** Every transaction is listed under the city its hash selects. */
  lemma EveryTransactionPlaced(txs: seq<Transaction>, i: nat)
    requires i < |txs| && Geo(txs).GeoList?
    ensures exists j :: 0 <= j < |Geo(txs).cities| &&
              Geo(txs).cities[j].cityIndex == CityIndex(txs[i], i) && txs[i] in Geo(txs).cities[j].transactions
  {
    var keys := CityKeys(txs);
    var gs := GroupKeys(keys);
    ExactlyOneGroup(keys, i);
    GroupKeysValid(keys);
    GroupKeysBelow(keys, |Cities|);
    var j :| 0 <= j < |gs| && gs[j].key == keys[i] && i in gs[j].members;
    var q :| 0 <= q < |gs[j].members| && gs[j].members[q] == i;
    var r := GeoData(txs);
    assert r == AggregateAll(txs, gs);
    assert r[j].transactions[q] == txs[i];
  }

  /** Python's `int()` keeps a negative amount's hash in range:
      `int(-2.5) == -2`, and `abs` makes the sum non-negative; a fraction
      is dropped, so 7 + int(100.9) + 0 lands on city 107 % 19 = 12. */
  lemma CityIndexExample()
    ensures CityIndex(Transaction(Some(1), Some(0), Transfer, Some(-2.5), None, None, None, None, Some(80.0)), 0) == 1
    ensures CityIndex(Transaction(Some(7), Some(0), Transfer, Some(100.9), None, None, None, None, Some(80.0)), 3) == 12
  {
  }
}

=== FILE: charts.dfy ===
/** The fraud visualisation charts: the statistics response reshaped into
    chart series, the mock series used when the request fails, and the
    three summary cards. */
module Charts {
  import opened Wrappers
  import opened Transactions

  datatype TypeBar = TypeBar(txType: string, count: real, amount: real)

  datatype RangeBar = RangeBar(range: string, count: real, avgRisk: real)

  datatype ChartStats = ChartStats(fraudByType: seq<TypeBar>, amountRanges: seq<RangeBar>,
                                   totalFraud: real, totalAmount: real)

  /** `fraudByAmount` of the response. */
  datatype AmountBuckets = AmountBuckets(low: Option<real>, medium: Option<real>, high: Option<real>)

  /** The fields of `/fraud-stats` read here; `transactionsByType` is an
      object, kept as its entries in insertion order. */
  datatype StatsResponse = StatsResponse(
    transactionsByType: Option<seq<(string, real)>>,
    fraudByAmount: Option<AmountBuckets>,
    totalFraudulent: Option<real>,
    averageAmount: Option<real>)

  const MockAmountPerCase: real := 50000.0

  const MockTypes: seq<TypeBar> := [
    TypeBar("TRANSFER", 234.0, 12450000.0), TypeBar("CASH_OUT", 189.0, 8760000.0),
    TypeBar("PAYMENT", 145.0, 5430000.0), TypeBar("CASH_IN", 67.0, 2340000.0),
    TypeBar("DEBIT", 45.0, 1890000.0)]

  const MockRanges: seq<RangeBar> := [
    RangeBar("0-1K", 45.0, 25.0), RangeBar("1K-10K", 123.0, 45.0), RangeBar("10K-50K", 234.0, 65.0),
    RangeBar("50K-100K", 189.0, 78.0), RangeBar("100K+", 89.0, 89.0)]

  function TotalCount(bars: seq<TypeBar>): real
    decreases bars
  {
    if bars == [] then 0.0 else bars[0].count + TotalCount(bars[1..])
  }

  function TotalBarAmount(bars: seq<TypeBar>): real
    decreases bars
  {
    if bars == [] then 0.0 else bars[0].amount + TotalBarAmount(bars[1..])
  }

  /** `generateMockStats`: the totals are summed from the type series. */
  function MockStats(): ChartStats {
    ChartStats(MockTypes, MockRanges, TotalCount(MockTypes), TotalBarAmount(MockTypes))
  }

  function TypeBars(entries: seq<(string, real)>): (r: seq<TypeBar>)
    ensures |r| == |entries|
    ensures forall i :: 0 <= i < |entries| ==>
              r[i] == TypeBar(entries[i].0, entries[i].1, entries[i].1 * MockAmountPerCase)
  {
    seq(|entries|, i requires 0 <= i < |entries| =>
      TypeBar(entries[i].0, entries[i].1, entries[i].1 * MockAmountPerCase))
  }

  function Bucket(b: Option<AmountBuckets>, pick: AmountBuckets -> Option<real>): real {
    if b.None? then 0.0 else Or(pick(b.value), 0.0)
  }

  /** `averageAmount * totalFraudulent || 0`: a missing factor gives NaN,
      which is falsy. */
  function TotalAmountOf(data: StatsResponse): real {
    if data.averageAmount.Some? && data.totalFraudulent.Some? then
      data.averageAmount.value * data.totalFraudulent.value
    else 0.0
  }

  function Transform(data: StatsResponse): ChartStats {
    ChartStats(
      TypeBars(data.transactionsByType.GetOr([])),
      [RangeBar("0-1K", Bucket(data.fraudByAmount, (b: AmountBuckets) => b.low), 25.0),
       RangeBar("1K-10K", Bucket(data.fraudByAmount, (b: AmountBuckets) => b.medium), 45.0),
       RangeBar("10K+", Bucket(data.fraudByAmount, (b: AmountBuckets) => b.high), 65.0)],
      Or(data.totalFraudulent, 0.0),
      TotalAmountOf(data))
  }

  /** `fetchStats`. */
  function FetchStats(fetch: Fetch<StatsResponse>): ChartStats {
    match fetch
    case Fetched(data) => Transform(data)
    case FetchFailed => MockStats()
  }

  /** The "average per case" card: zero when the total is falsy. */
  function AveragePerCase(s: ChartStats): real {
    if s.totalFraud != 0.0 then s.totalAmount / s.totalFraud else 0.0
  }

  /** The mock totals are the sums of its series: 680 cases, 30.87 million. */
  lemma MockTotals()
    ensures MockStats().totalFraud == 680.0
    ensures MockStats().totalAmount == 30870000.0
    ensures |MockStats().amountRanges| == 5
  {
    var t := MockTypes;
    assert t[1..][1..][1..][1..][1..] == [];
    assert TotalCount(t[1..][1..][1..][1..]) == 45.0;
    assert TotalCount(t[1..][1..][1..]) == 112.0;
    assert TotalCount(t[1..][1..]) == 257.0;
    assert TotalCount(t[1..]) == 446.0;
    assert TotalBarAmount(t[1..][1..][1..][1..]) == 1890000.0;
    assert TotalBarAmount(t[1..][1..][1..]) == 4230000.0;
    assert TotalBarAmount(t[1..][1..]) == 9660000.0;
    assert TotalBarAmount(t[1..]) == 18420000.0;
  }

  /** The transformed series: one bar per type entry, in order, with the
      reported count and 50000 per case; the three ranges with fixed
      risks, each counting its bucket with a missing or zero bucket read
      as 0; the total the reported one or 0; the amount the mean times the
      count, or 0 when either is missing. */
  lemma TransformSpec(data: StatsResponse)
    ensures var s := Transform(data);
            var entries := data.transactionsByType.GetOr([]);
            && |s.fraudByType| == |entries|
            && (data.transactionsByType.None? ==> s.fraudByType == [])
            && (forall i :: 0 <= i < |s.fraudByType| ==>
                  && s.fraudByType[i].txType == entries[i].0
                  && s.fraudByType[i].count == entries[i].1
                  && s.fraudByType[i].amount == 50000.0 * entries[i].1)
    ensures var s := Transform(data);
            var b := data.fraudByAmount;
            && |s.amountRanges| == 3
            && s.amountRanges[0] == RangeBar("0-1K", if b.Some? then Or(b.value.low, 0.0) else 0.0, 25.0)
            && s.amountRanges[1] == RangeBar("1K-10K", if b.Some? then Or(b.value.medium, 0.0) else 0.0, 45.0)
            && s.amountRanges[2] == RangeBar("10K+", if b.Some? then Or(b.value.high, 0.0) else 0.0, 65.0)
    ensures var s := Transform(data);
            && s.totalFraud == Or(data.totalFraudulent, 0.0)
            && (data.averageAmount.Some? && data.totalFraudulent.Some? ==>
                  s.totalAmount == data.averageAmount.value * data.totalFraudulent.value)
            && (data.averageAmount.None? || data.totalFraudulent.None? ==> s.totalAmount == 0.0)
  {
  }

  /** When the response reports both figures and a non-zero count, the
      average card gives back the reported average amount. */
  lemma AveragePerCaseRecoversAverage(data: StatsResponse)
    requires data.averageAmount.Some? && data.totalFraudulent.Some? && data.totalFraudulent.value != 0.0
    ensures AveragePerCase(Transform(data)) == data.averageAmount.value
  {
    var a := data.averageAmount.value;
    var t := data.totalFraudulent.value;
    assert (a * t) / t == a;
  }

  /** A failed request shows the mock data; no reported total shows a zero
      average. */
  lemma FetchStatsFallback(data: StatsResponse)
    ensures FetchStats(FetchFailed) == MockStats()
    ensures data.totalFraudulent.None? ==> AveragePerCase(FetchStats(Fetched(data))) == 0.0
  {
  }
}

=== FILE: data_preview.dfy ===
/** The data preview table: columns derived from the first row's keys,
    per-cell formatting, and the 100-row preview limit. */
module DataPreview {
  import opened Wrappers
  import opened Seqs
  import opened Text

  /** A cell value as the row object holds it. */
  datatype Value = Number(n: real) | Str(s: string) | Absent

  datatype Field = Field(key: string, value: Value)

  /** A row object: its fields in key order. */
  type Row = seq<Field>

  datatype Width = Fixed140 | AutoWidth

  datatype Column = Column(key: string, name: string, width: Width)

  datatype PreviewState = PreviewState(columns: seq<Column>, rows: seq<Row>)

  const PreviewLimit: nat := 100

  // ---------------------------------------------------------------------
  // Column headers

  /** `replace(/([A-Z])/g, ' $1')`: a space before every capital. */
  function Spaced(s: string): string
    decreases s
  {
    if s == [] then []
    else (if IsUpper(s[0]) then [' ', s[0]] else [s[0]]) + Spaced(s[1..])
  }

  /** The header: first character upper-cased, then the rest spaced. */
  function Header(key: string): string {
    if key == [] then [] else [UpperChar(key[0])] + Spaced(key[1..])
  }

  function CountUpper(s: string): nat
    decreases s
  {
    if s == [] then 0 else (if IsUpper(s[0]) then 1 else 0) + CountUpper(s[1..])
  }

  /** `s` with every space removed. */
  function DropSpaces(s: string): string
    decreases s
  {
    if s == [] then [] else (if s[0] == ' ' then [] else [s[0]]) + DropSpaces(s[1..])
  }

  lemma {:induction false} DropSpacesAppend(a: string, b: string)
    ensures DropSpaces(a + b) == DropSpaces(a) + DropSpaces(b)
    decreases a
  {
    if a == [] {
      assert a + b == b;
    } else {
      assert (a + b)[1..] == a[1..] + b;
      DropSpacesAppend(a[1..], b);
    }
  }

  /** Spacing adds one character per capital, and deleting the spaces
      again gives back the key without its own spaces: no letter is lost,
      added or reordered. */
  lemma {:induction false} SpacedSpec(s: string)
    ensures |Spaced(s)| == |s| + CountUpper(s)
    ensures DropSpaces(Spaced(s)) == DropSpaces(s)
    decreases s
  {
    if s != [] {
      SpacedSpec(s[1..]);
      var head := if IsUpper(s[0]) then [' ', s[0]] else [s[0]];
      DropSpacesAppend(head, Spaced(s[1..]));
      assert DropSpaces(s) == DropSpaces([s[0]]) + DropSpaces(s[1..]) by {
        assert s == [s[0]] + s[1..];
        DropSpacesAppend([s[0]], s[1..]);
      }
      if IsUpper(s[0]) {
        assert head[1..] == [s[0]];
        assert DropSpaces(head) == [s[0]];
      }
    }
  }

  /** Every capital in the spaced text is preceded by a space. */
  lemma {:induction false} CapitalsFollowSpaces(s: string)
    ensures forall i :: 0 <= i < |Spaced(s)| && IsUpper(Spaced(s)[i]) ==> 0 < i && Spaced(s)[i - 1] == ' '
    decreases s
  {
    if s != [] {
      CapitalsFollowSpaces(s[1..]);
      var head := if IsUpper(s[0]) then [' ', s[0]] else [s[0]];
      var r := Spaced(s);
      assert r == head + Spaced(s[1..]);
      forall i | 0 <= i < |r| && IsUpper(r[i]) ensures 0 < i && r[i - 1] == ' ' {
        if i >= |head| {
          assert r[i] == Spaced(s[1..])[i - |head|];
          if i - |head| > 0 {
            assert r[i - 1] == Spaced(s[1..])[i - |head| - 1];
          }
        }
      }
    }
  }

  /** The header keeps the key's letters in order, upper-cases the first,
      and adds one space per capital after it. */
  lemma HeaderSpec(key: string)
    requires key != []
    ensures |Header(key)| == |key| + CountUpper(key[1..])
    ensures Header(key)[0] == UpperChar(key[0])
    ensures DropSpaces(Header(key)[1..]) == DropSpaces(key[1..])
  {
    SpacedSpec(key[1..]);
    assert Header(key)[1..] == Spaced(key[1..]);
  }

  /** Header examples for the dataset's columns. */
  lemma HeaderExamples()
    ensures Header("isFraud") == "Is Fraud"
    ensures Header("step") == "Step"
    ensures Header("") == ""
  {
    SpacedFraud();
    assert UpperChar('i') == 'I';
    assert Spaced("p") == "p";
    assert Spaced("ep") == "ep";
    assert Spaced("tep") == "tep";
    assert UpperChar('s') == 'S';
  }

  lemma SpacedFraud()
    ensures Spaced("sFraud") == "s Fraud"
  {
    assert Spaced("") == "";
    assert Spaced("d") == "d";
    assert Spaced("ud") == "ud";
    assert Spaced("aud") == "aud";
    assert Spaced("raud") == "raud";
    assert Spaced("Fraud") == " Fraud";
  }

  /** `key.includes('amount') || key.includes('balance')`. */
  predicate IsMoneyKey(key: string) {
    Contains(key, "amount") || Contains(key, "balance")
  }

  function ColumnOf(key: string): Column {
    Column(key, Header(key), if IsMoneyKey(key) then Fixed140 else AutoWidth)
  }

  /** The money columns are 140px wide, every other one auto. */
  lemma WidthIff(key: string)
    ensures ColumnOf(key).width == Fixed140 <==> IsMoneyKey(key)
    ensures ColumnOf("amount").width == Fixed140
    ensures ColumnOf("newbalanceDest").width == Fixed140
  {
    assert OccursAt("amount", "amount", 0);
    assert OccursAt("newbalanceDest", "balance", 3);
  }

  // ---------------------------------------------------------------------
  // Cells

  datatype Cell = Currency(amount: real) | Plain(n: real) | DateText(raw: string) | TextCell(text: string) | NotAvailable

  /** The cell renderer: numbers first (money columns with the rupee
      sign), then a truthy `detected_at` as a date, then the value or
      "N/A" for a falsy one. */
  function FormatCell(key: string, v: Value): Cell {
    match v
    case Number(n) => if IsMoneyKey(key) then Currency(n) else Plain(n)
    case Str(s) =>
      if key == "detected_at" && s != "" then DateText(s)
      else if s == "" then NotAvailable
      else TextCell(s)
    case Absent => NotAvailable
  }

  /** "N/A" appears exactly for a missing value or an empty string; a
      number is never shown as "N/A", not even zero. */
  lemma FormatCellSpec(key: string, v: Value)
    ensures FormatCell(key, v) == NotAvailable <==> v.Absent? || v == Str("")
    ensures FormatCell(key, v).Currency? <==> v.Number? && IsMoneyKey(key)
    ensures v.Number? ==> FormatCell(key, v) != NotAvailable
    ensures FormatCell(key, v).DateText? ==> key == "detected_at"
  {
  }

  // ---------------------------------------------------------------------
  // State and view

  function ColumnsOf(first: Row): (cols: seq<Column>)
    ensures |cols| == |first|
    ensures forall i :: 0 <= i < |first| ==> cols[i] == ColumnOf(first[i].key)
  {
    seq(|first|, i requires 0 <= i < |first| => ColumnOf(first[i].key))
  }

  /** The effect on a new `data` prop: a non-empty list resets the
      columns from its first row and keeps its first 100 rows; anything
      else leaves the state alone. */
  function Update(st: PreviewState, data: Option<seq<Row>>): PreviewState {
    if data.Some? && |data.value| > 0 then PreviewState(ColumnsOf(data.value[0]), Take(data.value, PreviewLimit))
    else st
  }

  datatype View = NoDataView | TableView(shown: nat, total: nat, footnote: bool)

  function Render(st: PreviewState, data: Option<seq<Row>>): View {
    if data.None? || |data.value| == 0 then NoDataView
    else
      var n := if |st.rows| < PreviewLimit then |st.rows| else PreviewLimit;
      TableView(n, |data.value|, |data.value| > PreviewLimit)
  }

  /** After an update with rows, the preview is their first 100, one column
      per key of the first row, in key order, keyed by it, headed by its
      spaced form and 140px wide exactly for a money key; the view reports
      how many are shown and adds the footnote exactly for more than 100
      rows. */
  lemma UpdateSpec(st: PreviewState, data: seq<Row>)
    requires data != []
    ensures var s := Update(st, Some(data));
            && |s.rows| == (if |data| < 100 then |data| else 100)
            && (forall i :: 0 <= i < |s.rows| ==> s.rows[i] == data[i])
            && Render(s, Some(data)) == TableView(|s.rows|, |data|, |data| > 100)
            && (Render(s, Some(data)).footnote <==> |data| > 100)
    ensures var s := Update(st, Some(data));
            && |s.columns| == |data[0]|
            && forall i :: 0 <= i < |data[0]| ==>
                 && s.columns[i].key == data[0][i].key
                 && (data[0][i].key != [] ==>
                       && |s.columns[i].name| == |data[0][i].key| + CountUpper(data[0][i].key[1..])
                       && s.columns[i].name[0] == UpperChar(data[0][i].key[0])
                       && DropSpaces(s.columns[i].name[1..]) == DropSpaces(data[0][i].key[1..]))
                 && (s.columns[i].width == Fixed140 <==> IsMoneyKey(data[0][i].key))
  {
    var s := Update(st, Some(data));
    forall i | 0 <= i < |data[0]|
      ensures data[0][i].key != [] ==>
                && |s.columns[i].name| == |data[0][i].key| + CountUpper(data[0][i].key[1..])
                && s.columns[i].name[0] == UpperChar(data[0][i].key[0])
                && DropSpaces(s.columns[i].name[1..]) == DropSpaces(data[0][i].key[1..])
      ensures s.columns[i].width == Fixed140 <==> IsMoneyKey(data[0][i].key)
    {
      assert s.columns[i] == ColumnOf(data[0][i].key);
      WidthIff(data[0][i].key);
      if data[0][i].key != [] {
        HeaderSpec(data[0][i].key);
      }
    }
  }

  /** An empty or missing list leaves the state and shows the placeholder. */
  lemma EmptyDataKeepsState(st: PreviewState, data: Option<seq<Row>>)
    requires data.None? || data.value == []
    ensures Update(st, data) == st
    ensures Render(st, data) == NoDataView
  {
  }
}

=== FILE: grouping.dfy ===
/** Grouping row indices by a small integer key, in order of first
    appearance: the insertion-ordered dictionary both geo aggregations
    build (`grouped_data` in the backend, `cityData` in the map). */
module Grouping {
  /** One dictionary entry: a key and the indices of the rows filed under
      it, in input order. */
  datatype Group = Group(key: nat, members: seq<nat>)

  /** File row `i` under key `k`: append to the existing entry, or open a
      new entry at the end. */
  function Insert(gs: seq<Group>, k: nat, i: nat): seq<Group>
    decreases gs
  {
    if gs == [] then [Group(k, [i])]
    else if gs[0].key == k then [gs[0].(members := gs[0].members + [i])] + gs[1..]
    else [gs[0]] + Insert(gs[1..], k, i)
  }

  /** Row `i` is filed under `keys[i]`, rows taken in order. */
  function GroupKeys(keys: seq<nat>): seq<Group>
    decreases |keys|
  {
    if keys == [] then []
    else Insert(GroupKeys(keys[..|keys| - 1]), keys[|keys| - 1], |keys| - 1)
  }

  /** Reference definition: the indices of the rows with key `k`, ascending. */
  function IndicesOf(keys: seq<nat>, k: nat): (r: seq<nat>)
    ensures forall q :: 0 <= q < |r| ==> r[q] < |keys| && keys[r[q]] == k
    decreases |keys|
  {
    if keys == [] then []
    else IndicesOf(keys[..|keys| - 1], k) + (if keys[|keys| - 1] == k then [|keys| - 1] else [])
  }

  function TotalMembers(gs: seq<Group>): nat
    decreases gs
  {
    if gs == [] then 0 else |gs[0].members| + TotalMembers(gs[1..])
  }

  predicate DistinctKeys(gs: seq<Group>) {
    forall a, b :: 0 <= a < b < |gs| ==> gs[a].key != gs[b].key
  }

  predicate HasKey(gs: seq<Group>, k: nat) {
    exists j :: 0 <= j < |gs| && gs[j].key == k
  }

  /** Inserting keeps every entry's key and position, appends `i` to the
      entry for `k` only, and opens an entry `[i]` at the end exactly when
      `k` had none. */
  lemma {:induction false} InsertShape(gs: seq<Group>, k: nat, i: nat)
    requires DistinctKeys(gs)
    ensures var r := Insert(gs, k, i);
            && |r| == (if HasKey(gs, k) then |gs| else |gs| + 1)
            && (forall j :: 0 <= j < |gs| ==>
                  r[j].key == gs[j].key
                  && r[j].members == gs[j].members + (if gs[j].key == k then [i] else []))
            && (!HasKey(gs, k) ==> r[|gs|] == Group(k, [i]))
            && TotalMembers(r) == TotalMembers(gs) + 1
    decreases gs
  {
    if gs != [] && gs[0].key != k {
      InsertShape(gs[1..], k, i);
      var r := Insert(gs, k, i);
      assert r == [gs[0]] + Insert(gs[1..], k, i);
      assert HasKey(gs, k) <==> HasKey(gs[1..], k) by {
        if HasKey(gs, k) {
          var j :| 0 <= j < |gs| && gs[j].key == k;
          assert gs[1..][j - 1].key == k;
        }
        if HasKey(gs[1..], k) {
          var j :| 0 <= j < |gs[1..]| && gs[1..][j].key == k;
          assert gs[j + 1].key == k;
        }
      }
    } else if gs != [] {
      var r := Insert(gs, k, i);
      assert HasKey(gs, k) by { assert gs[0].key == k; }
      assert r[1..] == gs[1..];
      assert TotalMembers(r) == |r[0].members| + TotalMembers(r[1..]);
    } else {
      assert TotalMembers([Group(k, [i])]) == 1 + TotalMembers([]);
    }
  }

  lemma IndicesOfBounds(keys: seq<nat>, k: nat)
    ensures forall m :: m in IndicesOf(keys, k) ==> m < |keys| && keys[m] == k
    ensures (forall m :: 0 <= m < |keys| ==> keys[m] != k) ==> IndicesOf(keys, k) == []
    ensures forall m :: 0 <= m < |keys| && keys[m] == k ==> m in IndicesOf(keys, k)
  {
    IndicesOfComplete(keys, k);
    var r := IndicesOf(keys, k);
    if r != [] {
      assert keys[r[0]] == k;
    }
  }

  /** Every row with key `k` is listed. */
  lemma {:induction false} IndicesOfComplete(keys: seq<nat>, k: nat)
    ensures forall m :: 0 <= m < |keys| && keys[m] == k ==> m in IndicesOf(keys, k)
    decreases |keys|
  {
    if keys != [] {
      var p := keys[..|keys| - 1];
      IndicesOfComplete(p, k);
      assert IndicesOf(keys, k) == IndicesOf(p, k) + (if keys[|keys| - 1] == k then [|keys| - 1] else []);
      forall m | 0 <= m < |keys| && keys[m] == k ensures m in IndicesOf(keys, k) {
        if m < |p| {
          assert p[m] == keys[m];
        }
      }
    }
  }

  /** Every entry is non-empty and holds exactly the indices of its key. */
  predicate MembersExact(gs: seq<Group>, keys: seq<nat>) {
    forall j :: 0 <= j < |gs| ==> gs[j].members == IndicesOf(keys, gs[j].key) && gs[j].members != []
  }

  /** Every row's key has an entry. */
  predicate Covers(gs: seq<Group>, keys: seq<nat>) {
    forall m :: 0 <= m < |keys| ==> HasKey(gs, keys[m])
  }

  /** Entries are ordered by their first row. */
  predicate FirstAppearanceOrder(gs: seq<Group>) {
    forall a, b :: 0 <= a < b < |gs| ==> gs[a].members != [] && gs[b].members != [] && gs[a].members[0] < gs[b].members[0]
  }

  /** The defining properties of the grouping: keys are distinct, every
      entry is non-empty and holds exactly the indices of its key, every
      row's key has an entry, the entry sizes add up to the row count, and
      entries are ordered by their first row. */
  predicate GroupingOf(gs: seq<Group>, keys: seq<nat>) {
    && DistinctKeys(gs)
    && MembersExact(gs, keys)
    && Covers(gs, keys)
    && TotalMembers(gs) == |keys|
    && FirstAppearanceOrder(gs)
  }

  lemma StepMembers(gs: seq<Group>, p: seq<nat>, k: nat)
    requires DistinctKeys(gs) && MembersExact(gs, p) && Covers(gs, p)
    ensures MembersExact(Insert(gs, k, |p|), p + [k])
  {
    var keys := p + [k];
    var r := Insert(gs, k, |p|);
    InsertShape(gs, k, |p|);
    assert keys[..|keys| - 1] == p;
    forall j | 0 <= j < |r|
      ensures r[j].members == IndicesOf(keys, r[j].key) && r[j].members != []
    {
      if j == |gs| {
        forall m | 0 <= m < |p| ensures p[m] != k {
          assert HasKey(gs, p[m]);
        }
        IndicesOfBounds(p, k);
      }
    }
  }

  lemma StepCovers(gs: seq<Group>, p: seq<nat>, k: nat)
    requires DistinctKeys(gs) && Covers(gs, p)
    ensures Covers(Insert(gs, k, |p|), p + [k])
  {
    var keys := p + [k];
    var r := Insert(gs, k, |p|);
    InsertShape(gs, k, |p|);
    forall m | 0 <= m < |keys| ensures HasKey(r, keys[m]) {
      if m < |p| {
        assert HasKey(gs, p[m]);
        var j :| 0 <= j < |gs| && gs[j].key == p[m];
        assert r[j].key == keys[m];
      } else if HasKey(gs, k) {
        var j :| 0 <= j < |gs| && gs[j].key == k;
        assert r[j].key == k;
      } else {
        assert r[|gs|].key == k;
      }
    }
  }

  /** Every entry's first row is one of the rows seen so far. */
  predicate FirstsBelow(gs: seq<Group>, n: nat) {
    forall j :: 0 <= j < |gs| ==> gs[j].members != [] && gs[j].members[0] < n
  }

  lemma MembersExactFirsts(gs: seq<Group>, p: seq<nat>)
    requires MembersExact(gs, p)
    ensures FirstsBelow(gs, |p|)
  {
    forall j | 0 <= j < |gs| ensures gs[j].members != [] && gs[j].members[0] < |p| {
      IndicesOfBounds(p, gs[j].key);
      assert gs[j].members[0] in IndicesOf(p, gs[j].key);
    }
  }

  /** The part of `InsertShape` that the ordering step needs, without the
      existential. */
  lemma InsertPrefix(gs: seq<Group>, k: nat, i: nat)
    requires DistinctKeys(gs)
    ensures var r := Insert(gs, k, i);
            && |gs| <= |r| <= |gs| + 1
            && (forall j :: 0 <= j < |gs| ==> r[j].members == gs[j].members + (if gs[j].key == k then [i] else []))
            && (|r| > |gs| ==> r[|gs|] == Group(k, [i]))
  {
    InsertShape(gs, k, i);
  }

  lemma StepOrder(gs: seq<Group>, p: seq<nat>, k: nat)
    requires DistinctKeys(gs) && FirstsBelow(gs, |p|) && FirstAppearanceOrder(gs)
    ensures FirstAppearanceOrder(Insert(gs, k, |p|))
  {
    var r := Insert(gs, k, |p|);
    InsertPrefix(gs, k, |p|);
    forall j | 0 <= j < |gs|
      ensures r[j].members != [] && r[j].members[0] == gs[j].members[0] < |p|
    {
    }
    assert |r| > |gs| ==> r[|gs|].members == [|p|];
    forall a, b | 0 <= a < b < |r|
      ensures r[a].members != [] && r[b].members != [] && r[a].members[0] < r[b].members[0]
    {
      if b < |gs| {
        assert gs[a].members[0] < gs[b].members[0];
      }
    }
  }

  lemma {:induction false} GroupKeysSpec(keys: seq<nat>)
    ensures GroupingOf(GroupKeys(keys), keys)
    decreases |keys|
  {
    if keys != [] {
      var n := |keys|;
      var p := keys[..n - 1];
      var k := keys[n - 1];
      GroupKeysSpec(p);
      var gs := GroupKeys(p);
      assert keys == p + [k];
      assert GroupKeys(keys) == Insert(gs, k, |p|);
      InsertShape(gs, k, |p|);
      StepMembers(gs, p, k);
      StepCovers(gs, p, k);
      MembersExactFirsts(gs, p);
      StepOrder(gs, p, k);
    }
  }

  lemma MemberOfOwnKey(gs: seq<Group>, keys: seq<nat>, m: nat)
    requires MembersExact(gs, keys) && Covers(gs, keys) && m < |keys|
    ensures exists j :: 0 <= j < |gs| && gs[j].key == keys[m] && m in gs[j].members
  {
    assert HasKey(gs, keys[m]);
    var j :| 0 <= j < |gs| && gs[j].key == keys[m];
    IndicesOfBounds(keys, keys[m]);
    assert m in gs[j].members;
  }

  lemma MemberOnlyOfOwnKey(gs: seq<Group>, keys: seq<nat>, m: nat)
    requires MembersExact(gs, keys) && m < |keys|
    ensures forall j :: 0 <= j < |gs| && m in gs[j].members ==> gs[j].key == keys[m]
  {
    forall j | 0 <= j < |gs| && m in gs[j].members ensures gs[j].key == keys[m] {
      IndicesOfBounds(keys, gs[j].key);
    }
  }

  /** Each row lands in exactly one entry, the one for its key. */
  lemma ExactlyOneGroup(keys: seq<nat>, m: nat)
    requires m < |keys|
    ensures exists j :: 0 <= j < |GroupKeys(keys)| && GroupKeys(keys)[j].key == keys[m] && m in GroupKeys(keys)[j].members
    ensures forall j :: 0 <= j < |GroupKeys(keys)| && m in GroupKeys(keys)[j].members ==> GroupKeys(keys)[j].key == keys[m]
  {
    GroupKeysSpec(keys);
    MemberOfOwnKey(GroupKeys(keys), keys, m);
    MemberOnlyOfOwnKey(GroupKeys(keys), keys, m);
  }

  /** The entries are non-empty and hold only indices below `n`. */
  predicate ValidGroups(gs: seq<Group>, n: nat) {
    forall j :: 0 <= j < |gs| ==>
      gs[j].members != [] && forall q :: 0 <= q < |gs[j].members| ==> gs[j].members[q] < n
  }

  lemma GroupKeysValid(keys: seq<nat>)
    ensures ValidGroups(GroupKeys(keys), |keys|)
  {
    var gs := GroupKeys(keys);
    GroupKeysSpec(keys);
    assert MembersExact(gs, keys);
    forall j, q | 0 <= j < |gs| && 0 <= q < |gs[j].members| ensures gs[j].members[q] < |keys| {
      IndicesOfBounds(keys, gs[j].key);
      assert gs[j].members[q] in IndicesOf(keys, gs[j].key);
    }
  }

  /** The key of each row, computed from the row and its position. */
  function KeysOf<T>(rows: seq<T>, key: (T, nat) -> nat): (keys: seq<nat>)
    ensures |keys| == |rows|
    ensures forall i :: 0 <= i < |rows| ==> keys[i] == key(rows[i], i)
  {
    seq(|rows|, i requires 0 <= i < |rows| => key(rows[i], i))
  }

  predicate KeysBelow(gs: seq<Group>, bound: nat) {
    forall j :: 0 <= j < |gs| ==> gs[j].key < bound
  }

  /** Keys below a bound give entries whose keys are below it. */
  lemma GroupKeysBelow(keys: seq<nat>, bound: nat)
    requires forall i :: 0 <= i < |keys| ==> keys[i] < bound
    ensures KeysBelow(GroupKeys(keys), bound)
  {
    var gs := GroupKeys(keys);
    GroupKeysSpec(keys);
    assert MembersExact(gs, keys);
    forall j | 0 <= j < |gs| ensures gs[j].key < bound {
      assert gs[j].members[0] in IndicesOf(keys, gs[j].key);
    }
  }

  /** The rows at the given indices, in that order. */
  function Pick<T>(xs: seq<T>, idx: seq<nat>): (r: seq<T>)
    requires forall q :: 0 <= q < |idx| ==> idx[q] < |xs|
    ensures |r| == |idx| && forall q :: 0 <= q < |idx| ==> r[q] == xs[idx[q]]
  {
    seq(|idx|, q requires 0 <= q < |idx| => xs[idx[q]])
  }
}

=== FILE: heatmap.dfy ===
/** The Madhya Pradesh fraud heatmap: where its city list comes from (the
    geo endpoint, locally grouped transactions, or a generated fallback),
    how a marker is sized, and the summary figures under the map. */
module GeoHeatmap {
  import opened Wrappers
  import opened Seqs
  import opened Numbers
  import opened Transactions
  import opened Grouping

  // ---------------------------------------------------------------------
  // Cities

  datatype CityInfo = CityInfo(name: string, district: string)

  /** `mpCities`, in key order. Murwara lies in Katni district. */
  const Cities: seq<CityInfo> := [
    CityInfo("Bhopal", "Bhopal"), CityInfo("Indore", "Indore"),
    CityInfo("Jabalpur", "Jabalpur"), CityInfo("Gwalior", "Gwalior"),
    CityInfo("Ujjain", "Ujjain"), CityInfo("Sagar", "Sagar"),
    CityInfo("Dewas", "Dewas"), CityInfo("Satna", "Satna"),
    CityInfo("Ratlam", "Ratlam"), CityInfo("Rewa", "Rewa"),
    CityInfo("Murwara", "Katni"), CityInfo("Singrauli", "Singrauli"),
    CityInfo("Burhanpur", "Burhanpur"), CityInfo("Khandwa", "Khandwa"),
    CityInfo("Bhind", "Bhind"), CityInfo("Chhindwara", "Chhindwara"),
    CityInfo("Guna", "Guna"), CityInfo("Shivpuri", "Shivpuri"),
    CityInfo("Vidisha", "Vidisha"), CityInfo("Chhatarpur", "Chhatarpur")]

  /** The fields of a map transaction the component reads or generates. */
  datatype MapTx = MapTx(amount: real, txType: ParsedType, confidence: real)

  /** One marker's data. Only the local grouping sets `avgAmount`; the
      endpoint transform and the generator leave it out. */
  datatype MapCity = MapCity(
    city: string,
    district: string,
    count: nat,
    totalAmount: real,
    avgRiskScore: real,
    avgAmount: Option<real>,
    transactions: seq<MapTx>)

  function Min(a: real, b: real): real { if a < b then a else b }

  function Max(a: real, b: real): real { if a > b then a else b }

  // ---------------------------------------------------------------------
  // City assignment

  /** The JavaScript remainder of a non-negative number. */
  function JsRem(x: real, m: nat): real
    requires x >= 0.0 && m > 0
  {
    x - (m as real) * (Floor(x / (m as real)) as real)
  }

  /** The remainder lies in [0, m). */
  lemma JsRemRange(x: real, m: nat)
    requires x >= 0.0 && m > 0
    ensures 0.0 <= JsRem(x, m) < m as real
  {
    var mr := m as real;
    var q := x / mr;
    var f := Floor(q) as real;
    var mf := mr * f;
    assert f <= q < f + 1.0;
    calc {
      x;
      == mr * q;
      < { assert q < f + 1.0; assert mr > 0.0; } mr * (f + 1.0);
      == mf + mr;
    }
    assert mf <= mr * q;
    assert JsRem(x, m) == x - mf;
  }

  function AbsReal(x: real): real { if x < 0.0 then -x else x }

  /** The index as written:
      `Math.abs((id || index) + (amount || 0) + (step || 0)) % 20`. The
      amount is not truncated, so the index is fractional whenever the
      amount is. */
  function CityIndexAsWritten(t: Transaction, index: nat): real {
    JsRem(AbsReal((OrInt(t.id, index) as real) + Or(t.amount, 0.0) + (OrInt(t.step, 0) as real)), |Cities|)
  }

  /** The index as evidently intended: the amount truncated to an integer,
      as the backend's `int()` does, so the index always names a city. */
  function CityIndex(t: Transaction, index: nat): (r: nat)
    ensures r < |Cities|
  {
    AbsInt(OrInt(t.id, index) + Trunc(Or(t.amount, 0.0)) + OrInt(t.step, 0)) % |Cities|
  }

  /** A transaction with id 1, amount 0.5 and no step gets index 1.5, which
      is no key of the city list: `cityKeys[1.5]` is undefined, so the row
      joins the one group keyed "undefined", which has no coordinates. */
  lemma FractionalAmountHasNoCity()
    ensures var t := Transaction(Some(1), None, Transfer, Some(0.5), None, None, None, None, None);
            && CityIndexAsWritten(t, 0) == 1.5
            && CityIndexAsWritten(t, 0) != Floor(CityIndexAsWritten(t, 0)) as real
            && CityIndex(t, 0) == 1
  {
    var t := Transaction(Some(1), None, Transfer, Some(0.5), None, None, None, None, None);
    assert Floor(1.5 / 20.0) == 0;
  }

  /** For a whole-number amount, the code as written and the corrected
      index agree. */
  lemma IndicesAgreeOnWholeAmounts(t: Transaction, index: nat)
    requires Or(t.amount, 0.0) == Floor(Or(t.amount, 0.0)) as real
    ensures CityIndexAsWritten(t, index) == CityIndex(t, index) as real
  {
    var i0 := OrInt(t.id, index);
    var a0 := Or(t.amount, 0.0);
    var s0 := OrInt(t.step, 0);
    var n := i0 + Trunc(a0) + s0;
    WholeTrunc(a0);
    assert (i0 as real) + a0 + (s0 as real) == n as real;
    AbsOfWhole(n);
    RemOfWhole(AbsInt(n), |Cities|);
  }

  lemma WholeTrunc(a: real)
    requires a == Floor(a) as real
    ensures Trunc(a) as real == a
  {
    if a < 0.0 {
      assert (-a).Floor == -Floor(a);
    }
  }

  lemma AbsOfWhole(n: int)
    ensures AbsReal(n as real) == AbsInt(n) as real
  {
  }

  lemma RemOfWhole(a: nat, m: nat)
    requires m > 0
    ensures JsRem(a as real, m) == (a % m) as real
  {
    var q := a / m;
    assert a == q * m + a % m;
    assert (a as real) / (m as real) == (q as real) + ((a % m) as real) / (m as real);
    assert 0.0 <= ((a % m) as real) / (m as real) < 1.0;
    assert Floor((a as real) / (m as real)) == q;
  }

  // ---------------------------------------------------------------------
  // Local grouping of fetched transactions

  /** The confidence as it enters the average:
      `prediction_confidence || Math.random() * 100`. */
  function ToMapTx(t: Transaction, draw: real): MapTx {
    MapTx(Or(t.amount, 0.0), t.txType, Or(t.confidence, draw * 100.0))
  }

  function MapTxs(txs: seq<Transaction>, rand: Draws): (r: seq<MapTx>)
    ensures |r| == |txs|
    ensures forall i :: 0 <= i < |txs| ==> r[i] == ToMapTx(txs[i], rand(i, 0))
  {
    seq(|txs|, i requires 0 <= i < |txs| => ToMapTx(txs[i], rand(i, 0)))
  }

  function CityKeys(txs: seq<Transaction>): seq<nat> {
    KeysOf(txs, CityIndex)
  }

  function TxAmount(m: MapTx): real { m.amount }

  function TxConfidence(m: MapTx): real { m.confidence }

  function CityOf(mtxs: seq<MapTx>, g: Group): MapCity
    requires g.key < |Cities| && g.members != []
    requires forall q :: 0 <= q < |g.members| ==> g.members[q] < |mtxs|
  {
    var members := Pick(mtxs, g.members);
    MapCity(Cities[g.key].name, Cities[g.key].district, |members|, Sum(TxAmount, members),
            Sum(TxConfidence, members) / (|members| as real),
            Some(Sum(TxAmount, members) / (|members| as real)), members)
  }

  function CitiesOf(mtxs: seq<MapTx>, gs: seq<Group>): (r: seq<MapCity>)
    requires ValidGroups(gs, |mtxs|) && KeysBelow(gs, |Cities|)
    ensures |r| == |gs|
    ensures forall j :: 0 <= j < |gs| ==> r[j] == CityOf(mtxs, gs[j])
    decreases gs
  {
    if gs == [] then [] else [CityOf(mtxs, gs[0])] + CitiesOf(mtxs, gs[1..])
  }

  /** `processTransactionsForMap`, with the corrected city index. */
  function ProcessTransactions(txs: seq<Transaction>, rand: Draws): seq<MapCity> {
    var keys := CityKeys(txs);
    GroupKeysValid(keys);
    GroupKeysBelow(keys, |Cities|);
    CitiesOf(MapTxs(txs, rand), GroupKeys(keys))
  }

  function TotalCases(data: seq<MapCity>): nat
    decreases data
  {
    if data == [] then 0 else data[0].count + TotalCases(data[1..])
  }

  lemma {:induction false} TotalCasesOfCities(mtxs: seq<MapTx>, gs: seq<Group>)
    requires ValidGroups(gs, |mtxs|) && KeysBelow(gs, |Cities|)
    ensures TotalCases(CitiesOf(mtxs, gs)) == TotalMembers(gs)
    decreases gs
  {
    if gs != [] {
      TotalCasesOfCities(mtxs, gs[1..]);
      assert CitiesOf(mtxs, gs)[1..] == CitiesOf(mtxs, gs[1..]);
    }
  }

  /** The grouped cities are distinct, each has at least one transaction,
      holds exactly those hashed to it with their total and mean
      confidence, and the counts add up to the number of transactions. */
  lemma ProcessTransactionsSpec(txs: seq<Transaction>, rand: Draws)
    ensures var r := ProcessTransactions(txs, rand);
            && TotalCases(r) == |txs|
            && |r| <= |txs|
            && (forall a, b :: 0 <= a < b < |r| ==> r[a].city != r[b].city)
            && (forall j :: 0 <= j < |r| ==>
                  && 1 <= r[j].count == |r[j].transactions|
                  && r[j].totalAmount == Sum(TxAmount, r[j].transactions)
                  && r[j].avgRiskScore == Sum(TxConfidence, r[j].transactions) / (r[j].count as real)
                  && r[j].avgAmount == Some(r[j].totalAmount / (r[j].count as real)))
  {
    var keys := CityKeys(txs);
    var gs := GroupKeys(keys);
    var mtxs := MapTxs(txs, rand);
    GroupKeysSpec(keys);
    GroupKeysValid(keys);
    GroupKeysBelow(keys, |Cities|);
    assert ProcessTransactions(txs, rand) == CitiesOf(mtxs, gs);
    TotalCasesOfCities(mtxs, gs);
    TotalMembersBound(gs);
    CitiesOfEntries(mtxs, gs);
    CitiesOfDistinct(mtxs, gs);
  }

  lemma CitiesOfEntries(mtxs: seq<MapTx>, gs: seq<Group>)
    requires ValidGroups(gs, |mtxs|) && KeysBelow(gs, |Cities|)
    ensures var r := CitiesOf(mtxs, gs);
            forall j :: 0 <= j < |r| ==>
              && 1 <= r[j].count == |r[j].transactions|
              && r[j].totalAmount == Sum(TxAmount, r[j].transactions)
              && r[j].avgRiskScore == Sum(TxConfidence, r[j].transactions) / (r[j].count as real)
              && r[j].avgAmount == Some(r[j].totalAmount / (r[j].count as real))
  {
  }

  lemma CitiesOfDistinct(mtxs: seq<MapTx>, gs: seq<Group>)
    requires ValidGroups(gs, |mtxs|) && KeysBelow(gs, |Cities|) && DistinctKeys(gs)
    ensures var r := CitiesOf(mtxs, gs);
            forall a, b :: 0 <= a < b < |r| ==> r[a].city != r[b].city
  {
    var r := CitiesOf(mtxs, gs);
    forall a, b | 0 <= a < b < |r| ensures r[a].city != r[b].city {
      assert r[a].city == Cities[gs[a].key].name;
      assert r[b].city == Cities[gs[b].key].name;
      DistinctCityNames(gs[a].key, gs[b].key);
    }
  }

  lemma DistinctCityNames(a: nat, b: nat)
    requires a < |Cities| && b < |Cities| && a != b
    ensures Cities[a].name != Cities[b].name
  {
  }

  lemma {:induction false} TotalMembersBound(gs: seq<Group>)
    requires forall j :: 0 <= j < |gs| ==> gs[j].members != []
    ensures |gs| <= TotalMembers(gs)
    decreases gs
  {
    if gs != [] {
      TotalMembersBound(gs[1..]);
    }
  }

  // ---------------------------------------------------------------------
  // Geo endpoint transform

  datatype District = District(name: string, lat: real, lng: real, count: nat)

  /** The body of `/fraud-geo-data`, read through `.districts`. */
  datatype GeoResponse = GeoResponse(districts: Option<seq<District>>)

  const MockTypes: seq<ParsedType> := [Transfer, CashOut, Payment]

  function MockTx(rand: Draws, d: nat, i: nat): MapTx
    requires UnitDraws(rand)
  {
    var typeIndex := Floor(rand(d, 3 * i + 1) * 3.0);
    MapTx((Floor(rand(d, 3 * i) * 500000.0) + 10000) as real,
          if 0 <= typeIndex < 3 then MockTypes[typeIndex] else Transfer,
          (Floor(rand(d, 3 * i + 2) * 40.0) + 60) as real)
  }

  function TransformDistrict(rand: Draws, d: nat, district: District): MapCity
    requires UnitDraws(rand)
  {
    MapCity(district.name, district.name, district.count, (district.count as real) * 50000.0,
            Min(60.0 + 2.0 * (district.count as real), 95.0), None,
            seq(district.count, i requires 0 <= i < district.count => MockTx(rand, d, i)))
  }

  function TransformDistricts(rand: Draws, ds: seq<District>): (r: seq<MapCity>)
    requires UnitDraws(rand)
    ensures |r| == |ds|
    ensures forall d :: 0 <= d < |ds| ==> r[d] == TransformDistrict(rand, d, ds[d])
  {
    seq(|ds|, d requires 0 <= d < |ds| => TransformDistrict(rand, d, ds[d]))
  }

  /** One city per district, in order, named after it, with the mock
      totals: 50000 per case, risk 60 plus 2 per case up to 17 cases and
      95 from 18 on, no mean amount, and `count` generated
      transactions with amounts in [10000, 510000), confidences in [60,
      100) and one of three types. */
  lemma TransformSpec(rand: Draws, ds: seq<District>)
    requires UnitDraws(rand)
    ensures |TransformDistricts(rand, ds)| == |ds|
    ensures var r := TransformDistricts(rand, ds);
            forall d :: 0 <= d < |ds| ==>
              && r[d].city == ds[d].name == r[d].district
              && r[d].count == ds[d].count == |r[d].transactions|
              && r[d].totalAmount == 50000.0 * (ds[d].count as real)
              && r[d].avgRiskScore == (if ds[d].count <= 17 then 60.0 + 2.0 * (ds[d].count as real) else 95.0)
              && 60.0 <= r[d].avgRiskScore <= 95.0
              && r[d].avgAmount.None?
              && (forall i :: 0 <= i < |r[d].transactions| ==>
                    var tx := r[d].transactions[i];
                    && 10000.0 <= tx.amount < 510000.0
                    && 60.0 <= tx.confidence < 100.0
                    && tx.txType in MockTypes)
  {
    var r := TransformDistricts(rand, ds);
    forall d, i | 0 <= d < |ds| && 0 <= i < |r[d].transactions|
      ensures var tx := r[d].transactions[i];
              && 10000.0 <= tx.amount < 510000.0
              && 60.0 <= tx.confidence < 100.0
              && tx.txType in MockTypes
    {
      MockTxBounds(rand, d, i);
    }
  }

  lemma MockTxBounds(rand: Draws, d: nat, i: nat)
    requires UnitDraws(rand)
    ensures var tx := MockTx(rand, d, i);
            && 10000.0 <= tx.amount < 510000.0
            && 60.0 <= tx.confidence < 100.0
            && tx.txType in MockTypes
  {
    var r0 := rand(d, 3 * i);
    var r1 := rand(d, 3 * i + 1);
    var r2 := rand(d, 3 * i + 2);
    assert 0.0 <= r0 < 1.0 && 0.0 <= r1 < 1.0 && 0.0 <= r2 < 1.0;
    FloorScaled(r0, 500000);
    FloorScaled(r1, 3);
    FloorScaled(r2, 40);
  }

  /** `Math.floor(r * n)` of a draw is one of 0 .. n - 1. */
  lemma FloorScaled(r: real, n: nat)
    requires 0.0 <= r < 1.0 && n > 0
    ensures 0 <= Floor(r * (n as real)) < n
  {
    assert 0.0 <= r * (n as real) < n as real;
  }

  // ---------------------------------------------------------------------
  // Generated fallback

  datatype Profile = Profile(population: real, economicActivity: real, urbanization: real)

  /** `cityProfiles`, in the order of `Cities`. */
  const Profiles: seq<Profile> := [
    Profile(2.4, 0.9, 0.85), Profile(3.2, 0.95, 0.9), Profile(1.3, 0.7, 0.75),
    Profile(1.2, 0.65, 0.7), Profile(0.7, 0.6, 0.65), Profile(0.4, 0.45, 0.5),
    Profile(0.3, 0.5, 0.55), Profile(0.35, 0.4, 0.45), Profile(0.28, 0.45, 0.5),
    Profile(0.25, 0.35, 0.4), Profile(0.2, 0.4, 0.45), Profile(0.3, 0.6, 0.55),
    Profile(0.2, 0.3, 0.35), Profile(0.2, 0.35, 0.4), Profile(0.18, 0.3, 0.35),
    Profile(0.15, 0.3, 0.35), Profile(0.18, 0.25, 0.3), Profile(0.2, 0.25, 0.3),
    Profile(0.16, 0.3, 0.35), Profile(0.13, 0.2, 0.25)]

  const UrbanTypes: seq<ParsedType> := [Transfer, CashOut, Payment, CashIn, Debit]
  const UrbanWeights: seq<real> := [0.3, 0.25, 0.25, 0.1, 0.1]
  const RuralTypes: seq<ParsedType> := [Transfer, CashOut, Payment]
  const RuralWeights: seq<real> := [0.5, 0.35, 0.15]

  /** The cumulative-weight pick: the first type whose running weight
      reaches the draw, else TRANSFER. */
  function WeightedPick(types: seq<ParsedType>, weights: seq<real>, r: real, cumulative: real): (t: ParsedType)
    requires |types| == |weights|
    ensures t in types || t == Transfer
    decreases |types|
  {
    if types == [] then Transfer
    else if r <= cumulative + weights[0] then types[0]
    else WeightedPick(types[1..], weights[1..], r, cumulative + weights[0])
  }

  predicate IsUrban(p: Profile) { p.urbanization > 0.7 }

  function RealisticType(p: Profile, r: real): ParsedType {
    if IsUrban(p) then WeightedPick(UrbanTypes, UrbanWeights, r, 0.0)
    else WeightedPick(RuralTypes, RuralWeights, r, 0.0)
  }

  function FraudCount(p: Profile, r: real): nat {
    var base := Floor(p.population * 15.0 + p.economicActivity * 25.0 + p.urbanization * 20.0 + r * 10.0);
    if base > 3 then base else 3
  }

  function AvgTransactionAmount(p: Profile, r: real): real {
    var base := 50000.0 + p.economicActivity * 200000.0;
    base + r * base * 0.3
  }

  function RiskScore(p: Profile, r: real): real {
    Min(50.0 + p.urbanization * 25.0 + p.economicActivity * 20.0 + r * 15.0, 95.0)
  }

  function RealisticTx(rand: Draws, c: nat, p: Profile, avg: real, risk: real, i: nat): MapTx {
    MapTx(Floor(avg * (0.3 + rand(c, 3 + 3 * i) * 1.4)) as real,
          RealisticType(p, rand(c, 4 + 3 * i)),
          Max(60.0, risk + (rand(c, 5 + 3 * i) * 20.0 - 10.0)))
  }

  function RealisticCity(rand: Draws, c: nat): MapCity
    requires c < |Cities|
  {
    CityFrom(rand, c, Profiles[c], Cities[c])
  }

  /** The generated entry for city `c` with profile `p`. */
  function CityFrom(rand: Draws, c: nat, p: Profile, info: CityInfo): MapCity {
    var count := FraudCount(p, rand(c, 0));
    var avg := AvgTransactionAmount(p, rand(c, 1));
    var risk := RiskScore(p, rand(c, 2));
    MapCity(info.name, info.district, count, (count as real) * avg, risk, None,
            seq(count, i requires 0 <= i < count => RealisticTx(rand, c, p, avg, risk, i)))
  }

  /** `generateRealisticMPData`: one city per entry of the city list. */
  function RealisticData(rand: Draws): (r: seq<MapCity>)
    ensures |r| == |Cities|
    ensures forall c :: 0 <= c < |Cities| ==> r[c] == RealisticCity(rand, c)
  {
    seq(|Cities|, c requires 0 <= c < |Cities| => RealisticCity(rand, c))
  }

  /** Every one of the 20 cities is shown with at least three cases, a
      risk score of at most 95, as many generated transactions as cases,
      each with confidence at least 60 and a type from the city's urban or
      rural list. */
  lemma RealisticDataSpec(rand: Draws)
    requires UnitDraws(rand)
    ensures var r := RealisticData(rand);
            forall c :: 0 <= c < |r| ==>
              && r[c].city == Cities[c].name
              && r[c].count >= 3
              && r[c].count == |r[c].transactions|
              && r[c].avgRiskScore <= 95.0
              && r[c].totalAmount > 0.0
              && (forall i :: 0 <= i < |r[c].transactions| ==>
                    && r[c].transactions[i].confidence >= 60.0
                    && r[c].transactions[i].txType in (if IsUrban(Profiles[c]) then UrbanTypes else RuralTypes))
  {
    forall c | 0 <= c < |Cities| {
      RealisticCitySpec(rand, c);
    }
  }

  lemma RealisticCitySpec(rand: Draws, c: nat)
    requires UnitDraws(rand) && c < |Cities|
    ensures var city := RealisticCity(rand, c);
            && city.city == Cities[c].name
            && city.count >= 3
            && city.count == |city.transactions|
            && city.avgRiskScore <= 95.0
            && city.totalAmount > 0.0
            && (forall i :: 0 <= i < |city.transactions| ==>
                  && city.transactions[i].confidence >= 60.0
                  && city.transactions[i].txType in (if IsUrban(Profiles[c]) then UrbanTypes else RuralTypes))
  {
    ProfileNonNegative(c);
    CityFromSpec(rand, c, Profiles[c], Cities[c]);
  }

  lemma CityFromSpec(rand: Draws, c: nat, p: Profile, info: CityInfo)
    requires UnitDraws(rand) && p.economicActivity >= 0.0
    ensures var city := CityFrom(rand, c, p, info);
            && city.city == info.name
            && city.count >= 3
            && city.count == |city.transactions|
            && city.avgRiskScore <= 95.0
            && city.totalAmount > 0.0
            && (forall i :: 0 <= i < |city.transactions| ==>
                  && city.transactions[i].confidence >= 60.0
                  && city.transactions[i].txType in (if IsUrban(p) then UrbanTypes else RuralTypes))
  {
    var count := FraudCount(p, rand(c, 0));
    var avg := AvgTransactionAmount(p, rand(c, 1));
    var risk := RiskScore(p, rand(c, 2));
    AvgAtLeastBase(p, rand(c, 1));
    assert (count as real) * avg > 0.0;
    var city := CityFrom(rand, c, p, info);
    forall i | 0 <= i < |city.transactions|
      ensures && city.transactions[i].confidence >= 60.0
              && city.transactions[i].txType in (if IsUrban(p) then UrbanTypes else RuralTypes)
    {
      assert city.transactions[i] == RealisticTx(rand, c, p, avg, risk, i);
      RealisticTxSpec(rand, c, p, avg, risk, i);
    }
  }

  lemma AvgAtLeastBase(p: Profile, r: real)
    requires p.economicActivity >= 0.0 && r >= 0.0
    ensures AvgTransactionAmount(p, r) >= 50000.0
  {
  }

  lemma RealisticTxSpec(rand: Draws, c: nat, p: Profile, avg: real, risk: real, i: nat)
    ensures RealisticTx(rand, c, p, avg, risk, i).confidence >= 60.0
    ensures RealisticTx(rand, c, p, avg, risk, i).txType in (if IsUrban(p) then UrbanTypes else RuralTypes)
  {
  }

  lemma ProfileNonNegative(c: nat)
    requires c < |Profiles|
    ensures Profiles[c].economicActivity >= 0.0
  {
  }

  // ---------------------------------------------------------------------
  // Loading

  datatype MapState = MapState(data: seq<MapCity>, error: Option<string>)

  const MapFetchError := "Failed to fetch fraud data for mapping"

  /** `fetchAndProcessData`: the geo list when it is non-empty; otherwise
      the fetched transactions grouped locally; otherwise, or when that
      fetch fails, the generated data (with an error in the last case). */
  function Load(geo: Fetch<GeoResponse>, txFetch: Fetch<FraudList>, rand: Draws): MapState
    requires UnitDraws(rand)
  {
    if geo.Fetched? && geo.body.districts.Some? && |geo.body.districts.value| > 0 then
      MapState(TransformDistricts(rand, geo.body.districts.value), None)
    else match txFetch
      case Fetched(body) =>
        var txs := TransactionsOf(body);
        if |txs| > 0 then MapState(ProcessTransactions(txs, rand), None)
        else MapState(RealisticData(rand), None)
      case FetchFailed => MapState(RealisticData(rand), Some(MapFetchError))
  }

  /** The source of the map: the error is set exactly when the geo list
      was unusable and the transaction fetch failed; the generated data is
      used exactly when neither source had anything to show. */
  lemma LoadSources(geo: Fetch<GeoResponse>, txFetch: Fetch<FraudList>, rand: Draws)
    requires UnitDraws(rand)
    ensures var geoUsable := geo.Fetched? && geo.body.districts.Some? && |geo.body.districts.value| > 0;
            var st := Load(geo, txFetch, rand);
            && (st.error.Some? <==> !geoUsable && txFetch.FetchFailed?)
            && (geoUsable ==> st.data == TransformDistricts(rand, geo.body.districts.value))
            && (!geoUsable && txFetch.Fetched? && TransactionsOf(txFetch.body) != [] ==>
                  TotalCases(st.data) == |TransactionsOf(txFetch.body)|)
            && (!geoUsable && (txFetch.FetchFailed? || TransactionsOf(txFetch.body) == []) ==>
                  st.data == RealisticData(rand))
  {
    if txFetch.Fetched? {
      ProcessTransactionsSpec(TransactionsOf(txFetch.body), rand);
    }
  }

  // ---------------------------------------------------------------------
  // Markers

  datatype RiskTier = Critical | HighTier | MediumTier | LowTier

  /** The legend: Critical 85+, High 75-84, Medium 65-74, Low below 65. */
  function TierOf(riskScore: real): RiskTier {
    if riskScore >= 85.0 then Critical
    else if riskScore >= 75.0 then HighTier
    else if riskScore >= 65.0 then MediumTier
    else LowTier
  }

  function TierColor(t: RiskTier): string {
    match t
    case Critical => "#DC2626"
    case HighTier => "#EA580C"
    case MediumTier => "#D97706"
    case LowTier => "#10B981"
  }

  function BaseSize(t: RiskTier): int {
    match t
    case Critical => 70
    case HighTier => 60
    case MediumTier => 50
    case LowTier => 35
  }

  datatype Marker = Marker(color: string, size: int, fontSize: int, countFontSize: int)

  function MinInt(a: int, b: int): int { if a < b then a else b }

  function MaxInt(a: int, b: int): int { if a > b then a else b }

  /** `createHeatIcon`. */
  function HeatIcon(riskScore: real, count: nat): Marker {
    var tier := TierOf(riskScore);
    Marker(TierColor(tier), MinInt(BaseSize(tier) + count * 3, 100),
           MinInt(12 + count / 4, 20), MaxInt(8, MinInt(10 + count / 6, 14)))
  }

  /** The marker's colour follows the legend band of its risk score; its
      size grows with the count from the band's base and is capped at 100;
      the label grows by one point per four cases up to 20, the count by
      one per six cases up to 14. */
  lemma HeatIconSpec(riskScore: real, count: nat)
    ensures var m := HeatIcon(riskScore, count);
            && (m.color == "#DC2626" <==> riskScore >= 85.0)
            && (m.color == "#EA580C" <==> 75.0 <= riskScore < 85.0)
            && (m.color == "#D97706" <==> 65.0 <= riskScore < 75.0)
            && (m.color == "#10B981" <==> riskScore < 65.0)
            && 35 <= m.size <= 100
            && m.size == MinInt(BaseSize(TierOf(riskScore)) + 3 * count, 100)
            && (count == 0 ==> m.size == BaseSize(TierOf(riskScore)))
            && 12 <= m.fontSize <= 20
            && m.fontSize == MinInt(12 + count / 4, 20)
            && 10 <= m.countFontSize <= 14
            && m.countFontSize == MinInt(10 + count / 6, 14)
  {
  }

  /** More cases never shrink a marker. */
  lemma HeatIconMonotone(riskScore: real, c1: nat, c2: nat)
    requires c1 <= c2
    ensures HeatIcon(riskScore, c1).size <= HeatIcon(riskScore, c2).size
    ensures HeatIcon(riskScore, c1).fontSize <= HeatIcon(riskScore, c2).fontSize
  {
    assert c1 / 4 <= c2 / 4;
  }

  // ---------------------------------------------------------------------
  // Summary

  /** `Math.max(...risks, 0)`. */
  function HighestRisk(data: seq<MapCity>): (h: real)
    ensures h >= 0.0
    ensures forall j :: 0 <= j < |data| ==> data[j].avgRiskScore <= h
    ensures h == 0.0 || exists j :: 0 <= j < |data| && data[j].avgRiskScore == h
    decreases data
  {
    if data == [] then 0.0
    else
      var rest := HighestRisk(data[1..]);
      if data[0].avgRiskScore > rest then data[0].avgRiskScore else rest
  }

  function TotalAmount(data: seq<MapCity>): real
    decreases data
  {
    if data == [] then 0.0 else data[0].totalAmount + TotalAmount(data[1..])
  }

  /** The four summary cards. */
  datatype Summary = Summary(totalCities: nat, totalCases: nat, highestRisk: real, totalAmount: real)

  function SummaryOf(data: seq<MapCity>): Summary {
    Summary(|data|, TotalCases(data), HighestRisk(data), TotalAmount(data))
  }

  /** With generated data the map shows all 20 cities and at least 60
      cases; an empty list shows zeros. */
  lemma SummaryExamples(rand: Draws)
    requires UnitDraws(rand)
    ensures SummaryOf([]) == Summary(0, 0, 0.0, 0.0)
    ensures SummaryOf(RealisticData(rand)).totalCities == 20
    ensures SummaryOf(RealisticData(rand)).totalCases >= 60
  {
    RealisticDataSpec(rand);
    AtLeastThreeEach(RealisticData(rand));
  }

  lemma {:induction false} AtLeastThreeEach(data: seq<MapCity>)
    requires forall j :: 0 <= j < |data| ==> data[j].count >= 3
    ensures TotalCases(data) >= 3 * |data|
    decreases data
  {
    if data != [] {
      AtLeastThreeEach(data[1..]);
    }
  }
}

=== FILE: investigation.dfy ===
/** The fraud-investigation centre: the AND filter and field sort over the
    case list, the derived investigation report (similar and related
    cases, risk-assessment matrix, recommended actions, timeline), and the
    append-only case timeline with guarded note and status entries. */
module Investigation {
  import opened Wrappers
  import opened Seqs
  import opened Text

  datatype CaseStatus = Flagged | UnderReview | Investigating | Blocked | Resolved | FalsePositive

  /** A fraud case: the fields of a flagged transaction the logic reads.
      `timestamp` is the parsed date in milliseconds. */
  datatype Case = Case(
    id: string,
    amount: int,
    originAccount: string,
    timestamp: int,
    location: string,
    riskScore: int,
    status: CaseStatus,
    customerName: string,
    ipAddress: string,
    deviceFingerprint: string,
    geoLocation: string,
    recurringPattern: bool)

  // ---------------------------------------------------------------------
  // Risk bands

  datatype RiskBand = BandCritical | BandHigh | BandMedium | BandLow

  /** The band a risk score falls in. */
  function BandOf(score: int): RiskBand {
    if score >= 90 then BandCritical
    else if score >= 75 then BandHigh
    else if score >= 60 then BandMedium
    else BandLow
  }

  /** The per-band condition the risk filter tests. */
  predicate InBand(score: int, b: RiskBand) {
    match b
    case BandCritical => score >= 90
    case BandHigh => score >= 75 && score < 90
    case BandMedium => score >= 60 && score < 75
    case BandLow => score < 60
  }

  /** The four band conditions partition the scores: each score satisfies
      exactly one of them, the one `BandOf` names. */
  lemma BandsPartitionScores(score: int, b: RiskBand)
    ensures InBand(score, b) <==> b == BandOf(score)
  {
  }

  /** The text colour of a risk score (`getRiskColor`). */
  datatype RiskColor = RedBold | OrangeSemibold | Yellow | Green

  function RiskColorOf(score: int): RiskColor {
    if score >= 90 then RedBold
    else if score >= 75 then OrangeSemibold
    else if score >= 60 then Yellow
    else Green
  }

  function BandColor(b: RiskBand): RiskColor {
    match b
    case BandCritical => RedBold
    case BandHigh => OrangeSemibold
    case BandMedium => Yellow
    case BandLow => Green
  }

  /** The colour scale uses the filter's cut points: the colour of a score
      is the colour of its band, and each band has its own colour. */
  lemma RiskColorFollowsBand(score: int)
    ensures RiskColorOf(score) == BandColor(BandOf(score))
    ensures forall b :: BandColor(b) == RiskColorOf(score) <==> InBand(score, b)
  {
  }

  // ---------------------------------------------------------------------
  // Filter

  datatype StatusFilter = AnyStatus | OnlyStatus(status: CaseStatus)

  datatype RiskFilter = AnyRisk | OnlyBand(band: RiskBand)

  datatype CaseFilters = CaseFilters(search: string, status: StatusFilter, risk: RiskFilter)

  /** The lower-cased term occurs in the lower-cased name, id or location. */
  predicate MatchesSearch(c: Case, term: string) {
    var t := Lower(term);
    Contains(Lower(c.customerName), t) || Contains(Lower(c.id), t) || Contains(Lower(c.location), t)
  }

  predicate MatchesStatus(c: Case, f: StatusFilter) {
    f.AnyStatus? || c.status == f.status
  }

  predicate MatchesRisk(c: Case, f: RiskFilter) {
    match f
    case AnyRisk => true
    case OnlyBand(b) =>
      || (b == BandCritical && c.riskScore >= 90)
      || (b == BandHigh && c.riskScore >= 75 && c.riskScore < 90)
      || (b == BandMedium && c.riskScore >= 60 && c.riskScore < 75)
      || (b == BandLow && c.riskScore < 60)
  }

  predicate PassesFilters(c: Case, f: CaseFilters) {
    MatchesSearch(c, f.search) && MatchesStatus(c, f.status) && MatchesRisk(c, f.risk)
  }

  function FilterCases(cases: seq<Case>, f: CaseFilters): seq<Case> {
    Filter(c => PassesFilters(c, f), cases)
  }

  /** A case is kept iff it matches the search, the status filter and the
      risk band; the kept cases stay in list order. */
  lemma FilterCasesIff(cases: seq<Case>, f: CaseFilters, c: Case)
    ensures c in FilterCases(cases, f) <==>
      && c in cases
      && MatchesSearch(c, f.search)
      && (f.status.AnyStatus? || c.status == f.status.status)
      && (f.risk.AnyRisk? || BandOf(c.riskScore) == f.risk.band)
    ensures IsSubsequence(FilterCases(cases, f), cases)
  {
    if c in cases && PassesFilters(c, f) {
      FilterKeeps(c => PassesFilters(c, f), cases, c);
    }
    FilterIsSubsequence(c => PassesFilters(c, f), cases);
  }

  /** With an empty search, status ALL and risk ALL every case is kept. */
  lemma DefaultFiltersKeepAll(cases: seq<Case>)
    ensures FilterCases(cases, CaseFilters("", AnyStatus, AnyRisk)) == cases
  {
    var f := CaseFilters("", AnyStatus, AnyRisk);
    assert Lower("") == "";
    forall c | c in cases
      ensures PassesFilters(c, f)
    {
      ContainsEmpty(Lower(c.customerName));
    }
    FilterAll(c => PassesFilters(c, f), cases);
  }

  // ---------------------------------------------------------------------
  // Sort

  datatype SortField = ByRiskScore | ByAmount | ByTimestamp | ByCustomerName

  datatype SortOrder = Asc | Desc

  /** The key of `a` is at most the key of `b`; dates compare as times and
      names in code-point order. */
  predicate KeyLe(a: Case, b: Case, field: SortField) {
    match field
    case ByRiskScore => a.riskScore <= b.riskScore
    case ByAmount => a.amount <= b.amount
    case ByTimestamp => a.timestamp <= b.timestamp
    case ByCustomerName => LexLe(a.customerName, b.customerName)
  }

  /** `a` may be listed before `b` in the chosen direction. */
  predicate Precedes(a: Case, b: Case, field: SortField, order: SortOrder) {
    if order == Asc then KeyLe(a, b, field) else KeyLe(b, a, field)
  }

  predicate SortedBy(s: seq<Case>, field: SortField, order: SortOrder) {
    forall i, j :: 0 <= i < j < |s| ==> Precedes(s[i], s[j], field, order)
  }

  lemma PrecedesTotal(a: Case, b: Case, field: SortField, order: SortOrder)
    ensures Precedes(a, b, field, order) || Precedes(b, a, field, order)
  {
    if field == ByCustomerName {
      LexLeTotal(a.customerName, b.customerName);
    }
  }

  lemma PrecedesTransitive(a: Case, b: Case, c: Case, field: SortField, order: SortOrder)
    requires Precedes(a, b, field, order) && Precedes(b, c, field, order)
    ensures Precedes(a, c, field, order)
  {
    if field == ByCustomerName {
      if order == Asc {
        LexLeTransitive(a.customerName, b.customerName, c.customerName);
      } else {
        LexLeTransitive(c.customerName, b.customerName, a.customerName);
      }
    }
  }

  /** Insert `x` before the first element it may precede. */
  function InsertCase(x: Case, s: seq<Case>, field: SortField, order: SortOrder): seq<Case>
    decreases s
  {
    if s == [] then [x]
    else if Precedes(x, s[0], field, order) then [x] + s
    else [s[0]] + InsertCase(x, s[1..], field, order)
  }

  /** Insertion sort, stable on ties. */
  function SortCases(s: seq<Case>, field: SortField, order: SortOrder): seq<Case>
    decreases s
  {
    if s == [] then [] else InsertCase(s[0], SortCases(s[1..], field, order), field, order)
  }

  lemma {:induction false} InsertCaseElements(x: Case, s: seq<Case>, field: SortField, order: SortOrder)
    ensures multiset(InsertCase(x, s, field, order)) == multiset(s) + multiset{x}
    decreases s
  {
    if s != [] && !Precedes(x, s[0], field, order) {
      InsertCaseElements(x, s[1..], field, order);
      assert s == [s[0]] + s[1..];
    }
  }

  /** Every element of a sorted `s` may follow its head. */
  lemma HeadPrecedesAll(s: seq<Case>, y: Case, field: SortField, order: SortOrder)
    requires SortedBy(s, field, order)
    requires s != [] && y in s[1..]
    ensures Precedes(s[0], y, field, order)
  {
    var k :| 0 <= k < |s[1..]| && s[1..][k] == y;
    assert s[k + 1] == y;
  }

  lemma {:induction false} InsertCaseSorted(x: Case, s: seq<Case>, field: SortField, order: SortOrder)
    requires SortedBy(s, field, order)
    ensures SortedBy(InsertCase(x, s, field, order), field, order)
    decreases s
  {
    if s == [] {
    } else if Precedes(x, s[0], field, order) {
      forall y | y in s ensures Precedes(x, y, field, order) {
        if y != s[0] {
          assert y in s[1..] by { assert s == [s[0]] + s[1..]; }
          HeadPrecedesAll(s, y, field, order);
          PrecedesTransitive(x, s[0], y, field, order);
        }
      }
      ConsSorted(x, s, field, order);
    } else {
      PrecedesTotal(x, s[0], field, order);
      var tail := InsertCase(x, s[1..], field, order);
      InsertCaseSorted(x, s[1..], field, order);
      InsertCaseElements(x, s[1..], field, order);
      forall y | y in tail ensures Precedes(s[0], y, field, order) {
        assert y in multiset(tail);
        if y != x {
          assert y in multiset(s[1..]);
          HeadPrecedesAll(s, y, field, order);
        }
      }
      ConsSorted(s[0], tail, field, order);
      assert InsertCase(x, s, field, order) == [s[0]] + tail;
    }
  }

  /** A head that may precede every element of a sorted list keeps it sorted. */
  lemma ConsSorted(h: Case, s: seq<Case>, field: SortField, order: SortOrder)
    requires SortedBy(s, field, order)
    requires forall y :: y in s ==> Precedes(h, y, field, order)
    ensures SortedBy([h] + s, field, order)
  {
    var r := [h] + s;
    forall i, j | 0 <= i < j < |r| ensures Precedes(r[i], r[j], field, order) {
      assert r[j] == s[j - 1];
      if i > 0 {
        assert r[i] == s[i - 1];
      } else {
        assert s[j - 1] in s;
      }
    }
  }

  /** Sorting returns a permutation of its input, ordered by the key in the
      chosen direction. */
  lemma {:induction false} SortCasesCorrect(s: seq<Case>, field: SortField, order: SortOrder)
    ensures multiset(SortCases(s, field, order)) == multiset(s)
    ensures SortedBy(SortCases(s, field, order), field, order)
    decreases s
  {
    if s != [] {
      SortCasesCorrect(s[1..], field, order);
      InsertCaseElements(s[0], SortCases(s[1..], field, order), field, order);
      InsertCaseSorted(s[0], SortCases(s[1..], field, order), field, order);
      assert s == [s[0]] + s[1..];
    }
  }

  /** The list shown: the filtered cases, sorted. */
  function FilteredAndSorted(cases: seq<Case>, f: CaseFilters, field: SortField, order: SortOrder): seq<Case> {
    SortCases(FilterCases(cases, f), field, order)
  }

  /** The shown list is a permutation of the filtered list; with distinct
      risk scores, descending order lists the larger score first and
      ascending order the smaller. */
  lemma FilteredAndSortedCorrect(cases: seq<Case>, f: CaseFilters, field: SortField, order: SortOrder)
    ensures multiset(FilteredAndSorted(cases, f, field, order)) == multiset(FilterCases(cases, f))
    ensures var r := FilteredAndSorted(cases, f, field, order);
            forall i, j :: 0 <= i < j < |r| && field == ByRiskScore && r[i].riskScore != r[j].riskScore ==>
              (order == Desc ==> r[i].riskScore > r[j].riskScore)
              && (order == Asc ==> r[i].riskScore < r[j].riskScore)
  {
    SortCasesCorrect(FilterCases(cases, f), field, order);
  }

  /** Whatever the fetch order, a 98 case is listed before a 76 case when
      sorting by risk score, high to low. */
  lemma HigherScoreFirst(a: Case, b: Case)
    requires a.riskScore == 98 && b.riskScore == 76
    ensures SortCases([b, a], ByRiskScore, Desc) == [a, b]
    ensures SortCases([a, b], ByRiskScore, Desc) == [a, b]
  {
    assert SortCases([a], ByRiskScore, Desc) == [a];
    assert SortCases([b], ByRiskScore, Desc) == [b];
    assert [b, a][1..] == [a];
    assert [a, b][1..] == [b];
    assert InsertCase(b, [a], ByRiskScore, Desc) == [a] + InsertCase(b, [], ByRiskScore, Desc);
  }

  // ---------------------------------------------------------------------
  // Investigation report

  /** `Math.abs`. */
  function Abs(x: int): nat {
    if x < 0 then -x else x
  }

  /** Another case that shares the customer, device or IP, or whose amount
      is within 100,000. */
  predicate IsSimilar(c: Case, t: Case) {
    t.id != c.id
    && (t.customerName == c.customerName
        || t.deviceFingerprint == c.deviceFingerprint
        || t.ipAddress == c.ipAddress
        || Abs(t.amount - c.amount) < 100000)
  }

  /** Another case from the same origin account or customer. */
  predicate IsRelated(c: Case, t: Case) {
    t.id != c.id && (t.originAccount == c.originAccount || t.customerName == c.customerName)
  }

  function SimilarCases(pool: seq<Case>, c: Case): seq<Case> {
    Take(Filter(t => IsSimilar(c, t), pool), 5)
  }

  function RelatedCases(pool: seq<Case>, c: Case): seq<Case> {
    Take(Filter(t => IsRelated(c, t), pool), 3)
  }

  function MinNat(a: nat, b: nat): nat { if a < b then a else b }

  /** Similar cases: the first five matches in pool order, or all of them
      when fewer match; never the selected case, each matching on
      customer, device, IP or amount. */
  lemma SimilarCasesSpec(pool: seq<Case>, c: Case)
    ensures var r := SimilarCases(pool, c);
            && |r| <= 5
            && |r| == MinNat(Count(t => IsSimilar(c, t), pool), 5)
            && (forall t :: t in r ==> t in pool && t.id != c.id && IsSimilar(c, t))
            && (Count(t => IsSimilar(c, t), pool) <= 5 ==> r == Filter(t => IsSimilar(c, t), pool))
            && r == Filter(t => IsSimilar(c, t), pool)[..|r|]
  {
    FilterLength(t => IsSimilar(c, t), pool);
    var r := SimilarCases(pool, c);
    forall t | t in r
      ensures t in Filter(t => IsSimilar(c, t), pool)
    {
      var k :| 0 <= k < |r| && r[k] == t;
    }
  }

  /** Related cases: the first three matches in pool order, or all of
      them when fewer match; never the selected case, each sharing the
      origin account or customer. */
  lemma RelatedCasesSpec(pool: seq<Case>, c: Case)
    ensures var r := RelatedCases(pool, c);
            && |r| <= 3
            && |r| == MinNat(Count(t => IsRelated(c, t), pool), 3)
            && r == Filter(t => IsRelated(c, t), pool)[..|r|]
            && (forall t :: t in r ==>
                  (t in pool && t.id != c.id
                   && (t.originAccount == c.originAccount || t.customerName == c.customerName)))
            && (Count(t => IsRelated(c, t), pool) <= 3 ==> r == Filter(t => IsRelated(c, t), pool))
  {
    FilterLength(t => IsRelated(c, t), pool);
    var r := RelatedCases(pool, c);
    forall t | t in r
      ensures t in Filter(t => IsRelated(c, t), pool)
    {
      var k :| 0 <= k < |r| && r[k] == t;
    }
  }

  datatype Level = LevelLow | LevelMedium | LevelHigh | LevelCritical

  datatype RiskAssessment = RiskAssessment(deviceRisk: Level, locationRisk: Level, behaviorRisk: Level, amountRisk: Level)

  function AssessRisk(c: Case): RiskAssessment {
    RiskAssessment(
      if Contains(c.deviceFingerprint, "ATM") then LevelMedium else LevelHigh,
      if Contains(c.geoLocation, "Railway") || Contains(c.geoLocation, "Mall") then LevelHigh else LevelMedium,
      if c.recurringPattern then LevelLow else LevelHigh,
      if c.amount > 1000000 then LevelCritical else if c.amount > 500000 then LevelHigh else LevelMedium)
  }

  /** The amount rating splits amounts at 500,000 and 1,000,000 (upper
      bounds inclusive); the other three ratings are two-valued: a device
      is Medium iff its fingerprint names an ATM, a location High iff it is
      a railway station or a mall, behaviour Low iff the pattern recurs. */
  lemma RiskAssessmentSpec(c: Case)
    ensures AssessRisk(c).amountRisk == LevelCritical <==> c.amount > 1000000
    ensures AssessRisk(c).amountRisk == LevelHigh <==> 500000 < c.amount <= 1000000
    ensures AssessRisk(c).amountRisk == LevelMedium <==> c.amount <= 500000
    ensures AssessRisk(c).deviceRisk in {LevelMedium, LevelHigh}
    ensures AssessRisk(c).deviceRisk == LevelMedium <==> Contains(c.deviceFingerprint, "ATM")
    ensures AssessRisk(c).locationRisk in {LevelMedium, LevelHigh}
    ensures AssessRisk(c).locationRisk == LevelHigh <==>
              Contains(c.geoLocation, "Railway") || Contains(c.geoLocation, "Mall")
    ensures AssessRisk(c).behaviorRisk == LevelLow <==> c.recurringPattern
    ensures AssessRisk(c).amountRisk != LevelLow && AssessRisk(c).behaviorRisk != LevelMedium
  {
  }

  const FreezeAction := "Immediate account freeze recommended"
  const MonitorAction := "Enhanced monitoring required"

  function RecommendedActions(c: Case): seq<string> {
    [ if c.riskScore > 90 then FreezeAction else MonitorAction,
      "Contact customer for verification",
      "Review transaction history for patterns",
      "Check device and IP reputation",
      "Verify merchant legitimacy",
      "Cross-reference with fraud databases",
      "Coordinate with local branch if needed",
      "Document all investigation steps" ]
  }

  /** Eight actions; a freeze is recommended iff the score exceeds 90, so a
      score of exactly 90 gets enhanced monitoring. */
  lemma RecommendedActionsSpec(c: Case)
    ensures |RecommendedActions(c)| == 8
    ensures RecommendedActions(c)[0] == FreezeAction <==> c.riskScore > 90
    ensures c.riskScore == 90 ==> RecommendedActions(c)[0] == MonitorAction
  {
  }

  // ---------------------------------------------------------------------
  // Timeline

  datatype EventKind = TransactionEvent | SystemEvent | InvestigationEvent | NoteEvent | StatusEvent | PendingEvent

  /** What an entry says; amounts and scores are kept as numbers. */
  datatype Detail =
    | TransactionSummary(amount: int)
    | Fixed(text: string)
    | ScoreSummary(score: int)
    | NoteText(note: string)
    | StatusChange(status: CaseStatus)

  datatype TimelineEvent = TimelineEvent(time: int, title: string, detail: Detail, kind: EventKind, investigator: Option<string>)

  /** The five entries of a freshly opened case: initiation, detection one
      second later, assessment after 30 s, assignment after two minutes,
      and a pending entry stamped `now`. */
  function InitialTimeline(c: Case, now: int): seq<TimelineEvent> {
    [ TimelineEvent(c.timestamp, "Transaction Initiated", TransactionSummary(c.amount), TransactionEvent, None),
      TimelineEvent(c.timestamp + 1000, "Fraud Detection", Fixed("ML model flagged transaction as suspicious"), SystemEvent, None),
      TimelineEvent(c.timestamp + 30000, "Risk Assessment", ScoreSummary(c.riskScore), SystemEvent, None),
      TimelineEvent(c.timestamp + 120000, "Investigation Started", Fixed("Case assigned to fraud investigation team"), InvestigationEvent, None),
      TimelineEvent(now, "Currently Under Review", Fixed("Awaiting investigator action"), PendingEvent, None) ]
  }

  /** The detail pane's state. `caseStatus` is None for the initial ''. */
  datatype CaseView = CaseView(
    selected: Option<Case>,
    timeline: seq<TimelineEvent>,
    noteInput: string,
    caseStatus: Option<CaseStatus>,
    investigator: string,
    similar: seq<Case>)

  /** `assignedInvestigator || 'Current User'`. */
  function InvestigatorName(v: CaseView): string {
    if v.investigator == "" then "Current User" else v.investigator
  }

  /** Opening a case replaces the detail pane with a fresh report. */
  function SelectCase(v: CaseView, c: Case, pool: seq<Case>, now: int): CaseView {
    CaseView(Some(c), InitialTimeline(c, now), v.noteInput, Some(c.status), "Current User", SimilarCases(pool, c))
  }

  /** Opening a case shows it, with its status, the default investigator
      and its similar cases from the pool; the timeline is the five report
      entries in order, the first four stamped at the case's own time and
      1 s, 30 s and 2 min after it, strictly increasing, and the last at
      `now`; the note being typed is kept. */
  lemma SelectCaseSpec(v: CaseView, c: Case, pool: seq<Case>, now: int)
    ensures var r := SelectCase(v, c, pool, now);
            && r.selected == Some(c)
            && r.caseStatus == Some(c.status)
            && r.investigator == "Current User" && InvestigatorName(r) == "Current User"
            && r.similar == SimilarCases(pool, c)
            && r.noteInput == v.noteInput
    ensures var t := SelectCase(v, c, pool, now).timeline;
            && |t| == 5
            && t[0].time == c.timestamp && t[1].time == c.timestamp + 1000
            && t[2].time == c.timestamp + 30000 && t[3].time == c.timestamp + 120000
            && t[4].time == now
            && (forall i, j :: 0 <= i < j < 4 ==> t[i].time < t[j].time)
            && t[0].kind == TransactionEvent && t[0].detail == TransactionSummary(c.amount)
            && t[1].kind == SystemEvent && t[2].kind == SystemEvent && t[2].detail == ScoreSummary(c.riskScore)
            && t[3].kind == InvestigationEvent && t[4].kind == PendingEvent
            && (forall i :: 0 <= i < 5 ==> t[i].investigator.None?)
  {
  }

  /** `addInvestigationNote`. */
  function AddNote(v: CaseView, now: int): CaseView {
    var text := Trim(v.noteInput);
    if text != [] && v.selected.Some? then
      v.(timeline := v.timeline + [TimelineEvent(now, "Investigation Note", NoteText(text), NoteEvent, Some(InvestigatorName(v)))],
         noteInput := "")
    else v
  }

  /** `updateCaseStatus`. */
  function UpdateStatus(v: CaseView, s: CaseStatus, now: int): CaseView {
    var v' := v.(caseStatus := Some(s));
    if v.selected.Some? then
      v'.(timeline := v.timeline + [TimelineEvent(now, "Status Update", StatusChange(s), StatusEvent, Some(InvestigatorName(v)))])
    else v'
  }

  /** A note is appended (exactly one 'note' entry with the trimmed text,
      and the input cleared) iff the trimmed text is non-empty and a case
      is selected; otherwise nothing changes. */
  lemma AddNoteSpec(v: CaseView, now: int)
    ensures var r := AddNote(v, now);
            if Trim(v.noteInput) != [] && v.selected.Some? then
              && |r.timeline| == |v.timeline| + 1
              && r.timeline[..|v.timeline|] == v.timeline
              && r.timeline[|v.timeline|].kind == NoteEvent
              && r.timeline[|v.timeline|].detail == NoteText(Trim(v.noteInput))
              && r.noteInput == ""
              && r.selected == v.selected && r.caseStatus == v.caseStatus
            else r == v
  {
  }

  /** A note made only of whitespace is never recorded. */
  lemma BlankNoteIgnored(v: CaseView, now: int)
    requires forall i :: 0 <= i < |v.noteInput| ==> IsSpace(v.noteInput[i])
    ensures AddNote(v, now) == v
  {
    TrimEmptyIffBlank(v.noteInput);
  }

  /** The status is always set; exactly one 'status' entry is appended iff a
      case is selected, and earlier entries are untouched. */
  lemma UpdateStatusSpec(v: CaseView, s: CaseStatus, now: int)
    ensures var r := UpdateStatus(v, s, now);
            && r.caseStatus == Some(s)
            && r.timeline[..|v.timeline|] == v.timeline
            && (v.selected.Some? ==>
                  (|r.timeline| == |v.timeline| + 1
                   && r.timeline[|v.timeline|].kind == StatusEvent
                   && r.timeline[|v.timeline|].detail == StatusChange(s)))
            && (v.selected.None? ==> r.timeline == v.timeline)
            && r.selected == v.selected && r.noteInput == v.noteInput
  {
  }

  /** What an investigator can do to an open case. */
  datatype CaseAction = TypeNote(text: string) | SubmitNote | SetStatus(status: CaseStatus)

  function Apply(v: CaseView, a: CaseAction, now: int): CaseView {
    match a
    case TypeNote(text) => v.(noteInput := text)
    case SubmitNote => AddNote(v, now)
    case SetStatus(s) => UpdateStatus(v, s, now)
  }

  function ApplyAll(v: CaseView, actions: seq<CaseAction>, now: int): CaseView
    decreases actions
  {
    if actions == [] then v else ApplyAll(Apply(v, actions[0], now), actions[1..], now)
  }

  /** The timeline is append-only: after any sequence of actions the old
      timeline is a prefix of the new one, and the selected case is
      unchanged; at most one entry is added per action. */
  lemma {:induction false} TimelineAppendOnly(v: CaseView, actions: seq<CaseAction>, now: int)
    ensures var r := ApplyAll(v, actions, now);
            && |v.timeline| <= |r.timeline| <= |v.timeline| + |actions|
            && r.timeline[..|v.timeline|] == v.timeline
            && r.selected == v.selected
    decreases actions
  {
    if actions != [] {
      var v1 := Apply(v, actions[0], now);
      TimelineAppendOnly(v1, actions[1..], now);
      var r := ApplyAll(v1, actions[1..], now);
      assert v1.timeline[..|v.timeline|] == v.timeline;
      assert r.timeline[..|v.timeline|] == r.timeline[..|v1.timeline|][..|v.timeline|];
    }
  }
}

=== FILE: live_metrics.dfy ===
/** The live metrics dashboard: one refresh combines the statistics, the
    fraudulent transactions and the processing logs into the metric
    cards, an hourly chart and a feed of recent activity. */
module LiveMetrics {
  import opened Wrappers
  import opened Seqs
  import opened Numbers
  import opened Transactions

  /** The part of `/fraud-stats` read here. */
  datatype StatsBody = StatsBody(totalProcessed: Option<real>)

  datatype ProcessingLog = ProcessingLog(processingTime: Option<real>)

  datatype LogsBody = LogsBody(logs: Option<seq<ProcessingLog>>)

  datatype Activity = Activity(id: Option<int>, txType: ParsedType, amount: real, timestamp: int, riskScore: real)

  datatype HourlyStat = HourlyStat(hour: nat, fraudCount: int, detectionRate: real)

  datatype Metrics = Metrics(
    totalTransactions: real,
    fraudDetected: int,
    totalAmount: real,
    fraudAmount: real,
    detectionRate: real,
    averageProcessingTime: real,
    recentActivity: seq<Activity>,
    hourlyStats: seq<HourlyStat>)

  const InitialMetrics := Metrics(0.0, 0, 0.0, 0.0, 0.0, 0.0, [], [])

  const DefaultProcessingTime: real := 150.0
  const NoLogsProcessingTime: real := 145.0
  const FeedLength: nat := 10

  /** `count || 0`. */
  function FraudCount(txs: FraudList): int {
    OrInt(txs.count, 0)
  }

  /** `totalProcessed || fraudCount * 10`. */
  function TotalProcessed(stats: StatsBody, fraudCount: int): real {
    Or(stats.totalProcessed, (fraudCount * 10) as real)
  }

  /** The rate before `toFixed(2)`: zero unless some fraud was counted. */
  function DetectionRate(fraudCount: int, totalProcessed: real): real
    requires fraudCount > 0 ==> totalProcessed != 0.0
  {
    if fraudCount > 0 then (fraudCount as real) / totalProcessed * 100.0 else 0.0
  }

  function LogTime(l: ProcessingLog): real {
    Or(l.processingTime, DefaultProcessingTime)
  }

  function AverageProcessingTime(logs: LogsBody): real {
    if logs.logs.Some? && |logs.logs.value| > 0 then
      Sum(LogTime, logs.logs.value) / (|logs.logs.value| as real)
    else NoLogsProcessingTime
  }

  function ToActivity(t: Transaction, now: int, draw: real): Activity {
    Activity(t.id, t.txType, AmountOrZero(t), OrInt(t.timestamp, now), Or(t.confidence, draw * 100.0))
  }

  /** The first ten transactions as feed entries. */
  function RecentActivity(txs: FraudList, now: int, rand: Draws): (r: seq<Activity>)
    ensures txs.transactions.None? ==> r == []
  {
    if txs.transactions.None? then []
    else
      var first := Take(txs.transactions.value, FeedLength);
      seq(|first|, i requires 0 <= i < |first| => ToActivity(first[i], now, rand(i, 0)))
  }

  /** The mock hourly chart: 24 hours, counts 5 to 24, rates capped at 95. */
  function HourlyStats(rand: Draws): seq<HourlyStat> {
    seq(24, h requires 0 <= h < 24 =>
      HourlyStat(h, Floor(rand(100 + h, 0) * 20.0) + 5, if 85.0 + rand(100 + h, 1) * 10.0 < 95.0 then 85.0 + rand(100 + h, 1) * 10.0 else 95.0))
  }

  /** `fetchLiveMetrics` once all three requests succeeded. */
  function ComputeMetrics(stats: StatsBody, txs: FraudList, logs: LogsBody, now: int, rand: Draws): Metrics {
    var fraudCount := FraudCount(txs);
    var totalProcessed := TotalProcessed(stats, fraudCount);
    var fraudAmount := Sum(AmountOrZero, TransactionsOf(txs));
    Metrics(totalProcessed, fraudCount, fraudAmount * 15.0, fraudAmount,
            DetectionRate(fraudCount, totalProcessed), AverageProcessingTime(logs),
            RecentActivity(txs, now, rand), HourlyStats(rand))
  }

  /** Any failed request leaves the previous metrics in place. */
  function Refresh(m: Metrics, stats: Fetch<StatsBody>, txs: Fetch<FraudList>, logs: Fetch<LogsBody>,
                   now: int, rand: Draws): Metrics {
    if stats.Fetched? && txs.Fetched? && logs.Fetched? then
      ComputeMetrics(stats.body, txs.body, logs.body, now, rand)
    else m
  }

  /** The rate never divides by zero: with a positive count the divisor is
      either the reported non-zero total or ten times the count. */
  lemma DetectionRateDefined(stats: StatsBody, txs: FraudList)
    ensures FraudCount(txs) > 0 ==> TotalProcessed(stats, FraudCount(txs)) != 0.0
    ensures stats.totalProcessed.None? && FraudCount(txs) > 0 ==>
              DetectionRate(FraudCount(txs), TotalProcessed(stats, FraudCount(txs))) == 10.0
  {
    var c := FraudCount(txs);
    if stats.totalProcessed.None? && c > 0 {
      var cr := c as real;
      assert TotalProcessed(stats, c) == cr * 10.0;
      assert cr / (cr * 10.0) == 0.1;
    }
  }

  /** With no reported total, the estimate of ten transactions per fraud
      case gives a 10% rate; seven cases out of a reported 100 give 7%. */
  lemma DetectionRateExamples()
    ensures DetectionRate(7, 100.0) == 7.0
    ensures DetectionRate(0, 0.0) == 0.0
    ensures DetectionRate(-3, 0.0) == 0.0
  {
  }

  /** The card figures: the reported count (0 when missing); the reported
      total, or ten per fraud case when it is missing or zero; a rate that
      is the count's percentage of that total, and 0 without fraud; the
      fraud amount as the sum of parsed amounts (missing ones count 0) and
      the volume as 15 times that; the mean processing time, whose product
      with the number of logs is their summed time, and 145 without logs. */
  lemma MetricsSpec(stats: StatsBody, txs: FraudList, logs: LogsBody, now: int, rand: Draws)
    ensures ComputeMetrics(stats, txs, logs, now, rand).fraudDetected == txs.count.GetOr(0)
    ensures ComputeMetrics(stats, txs, logs, now, rand).totalTransactions ==
              (if stats.totalProcessed.Some? && stats.totalProcessed.value != 0.0
               then stats.totalProcessed.value else 10.0 * (txs.count.GetOr(0) as real))
    ensures var m := ComputeMetrics(stats, txs, logs, now, rand);
            m.fraudDetected > 0 ==> m.detectionRate * m.totalTransactions == 100.0 * (m.fraudDetected as real)
    ensures var m := ComputeMetrics(stats, txs, logs, now, rand);
            m.fraudDetected <= 0 ==> m.detectionRate == 0.0
    ensures var m := ComputeMetrics(stats, txs, logs, now, rand);
            && m.fraudAmount == Sum(AmountOrZero, TransactionsOf(txs))
            && m.totalAmount == 15.0 * m.fraudAmount
    ensures logs.logs.Some? && logs.logs.value != [] ==>
              ComputeMetrics(stats, txs, logs, now, rand).averageProcessingTime * (|logs.logs.value| as real)
              == Sum(LogTime, logs.logs.value)
    ensures logs.logs.None? || logs.logs.value == [] ==>
              ComputeMetrics(stats, txs, logs, now, rand).averageProcessingTime == 145.0
    ensures |ComputeMetrics(stats, txs, logs, now, rand).recentActivity| <= FeedLength
    ensures |ComputeMetrics(stats, txs, logs, now, rand).hourlyStats| == 24
  {
    var c := FraudCount(txs);
    assert c == txs.count.GetOr(0);
    assert (c * 10) as real == 10.0 * (c as real);
    if c > 0 {
      DetectionRateDefined(stats, txs);
      RateTimesTotal(c, TotalProcessed(stats, c));
    }
    if logs.logs.Some? && logs.logs.value != [] {
      AverageTimesCount(logs);
    }
  }

  /** The rate is the count's percentage of the total. */
  lemma RateTimesTotal(fraudCount: int, totalProcessed: real)
    requires fraudCount > 0 && totalProcessed != 0.0
    ensures DetectionRate(fraudCount, totalProcessed) * totalProcessed == 100.0 * (fraudCount as real)
  {
    var c := fraudCount as real;
    assert c / totalProcessed * totalProcessed == c;
  }

  /** The mean processing time times the number of logs is their total. */
  lemma AverageTimesCount(logs: LogsBody)
    requires logs.logs.Some? && logs.logs.value != []
    ensures AverageProcessingTime(logs) * (|logs.logs.value| as real) == Sum(LogTime, logs.logs.value)
  {
    var n := |logs.logs.value| as real;
    var s := Sum(LogTime, logs.logs.value);
    assert s / n * n == s;
  }

  /** The feed lists the first ten transactions in order, keeping id and
      type; a missing timestamp becomes the refresh time. */
  lemma RecentActivitySpec(txs: FraudList, now: int, rand: Draws)
    requires txs.transactions.Some?
    ensures var r := RecentActivity(txs, now, rand);
            var all := txs.transactions.value;
            && |r| == (if |all| < 10 then |all| else 10)
            && forall i :: 0 <= i < |r| ==>
                 && r[i].id == all[i].id && r[i].txType == all[i].txType
                 && r[i].amount == AmountOrZero(all[i])
                 && (all[i].timestamp.None? ==> r[i].timestamp == now)
  {
    var all := txs.transactions.value;
    var first := Take(all, FeedLength);
    var r := RecentActivity(txs, now, rand);
    assert |r| == |first|;
    forall i | 0 <= i < |r|
      ensures r[i] == ToActivity(all[i], now, rand(i, 0))
    {
      assert first[i] == all[i];
    }
  }

  lemma {:induction false} SumBounds(logs: seq<ProcessingLog>, lo: real, hi: real)
    requires forall i :: 0 <= i < |logs| ==> lo <= LogTime(logs[i]) <= hi
    ensures (|logs| as real) * lo <= Sum(LogTime, logs) <= (|logs| as real) * hi
    decreases logs
  {
    if logs != [] {
      SumBounds(logs[1..], lo, hi);
    }
  }

  /** The mean processing time lies within any bounds that hold for every
      log entry (a missing time counting as 150). */
  lemma AverageBounded(logs: LogsBody, lo: real, hi: real)
    requires logs.logs.Some? && logs.logs.value != []
    requires forall i :: 0 <= i < |logs.logs.value| ==> lo <= LogTime(logs.logs.value[i]) <= hi
    ensures lo <= AverageProcessingTime(logs) <= hi
  {
    var l := logs.logs.value;
    SumBounds(l, lo, hi);
    var n := |l| as real;
    assert n > 0.0;
    assert Sum(LogTime, l) / n >= lo by {
      assert Sum(LogTime, l) >= n * lo;
    }
    assert Sum(LogTime, l) / n <= hi by {
      assert Sum(LogTime, l) <= n * hi;
    }
  }

  /** The mock hourly data stays within its stated ranges. */
  lemma HourlyStatsBounds(rand: Draws)
    requires UnitDraws(rand)
    ensures var hs := HourlyStats(rand);
            forall h :: 0 <= h < 24 ==>
              hs[h].hour == h && 5 <= hs[h].fraudCount <= 24 && 85.0 <= hs[h].detectionRate <= 95.0
  {
    forall h | 0 <= h < 24
      ensures 5 <= HourlyStats(rand)[h].fraudCount <= 24
    {
      var r := rand(100 + h, 0);
      assert 0.0 <= r * 20.0 < 20.0;
    }
  }

  /** A failed request keeps the previous metrics. */
  lemma FailedRefreshKeepsMetrics(m: Metrics, stats: Fetch<StatsBody>, txs: Fetch<FraudList>,
                                  logs: Fetch<LogsBody>, now: int, rand: Draws)
    requires stats.FetchFailed? || txs.FetchFailed? || logs.FetchFailed?
    ensures Refresh(m, stats, txs, logs, now, rand) == m
  {
  }
}

=== FILE: numbers.dfy ===
/** Integer conversions the sources rely on: Python's `int()` and
    `abs()` on numbers, and JavaScript's `Math.floor`. */
module Numbers {
  /** `abs` on an integer. */
  function AbsInt(n: int): (r: nat)
    ensures r == n || r == -n
  {
    if n < 0 then -n else n
  }

  /** `int(x)` on a float: rounds toward zero. */
  function Trunc(x: real): (r: int)
    ensures x >= 0.0 ==> r as real <= x < r as real + 1.0 && r >= 0
    ensures x < 0.0 ==> r as real - 1.0 < x <= r as real && r <= 0
  {
    if x >= 0.0 then x.Floor else -((-x).Floor)
  }

  /** `Math.floor`. */
  function Floor(x: real): (r: int)
    ensures r as real <= x < r as real + 1.0
  {
    x.Floor
  }

  /** A source of `Math.random()` values: draw `k` for item `n`. */
  type Draws = (nat, nat) -> real

  ghost predicate UnitDraws(rand: Draws) {
    forall n: nat, k: nat :: 0.0 <= rand(n, k) < 1.0
  }

  lemma TruncExamples()
    ensures Trunc(2.7) == 2 && Trunc(-2.7) == -2 && Floor(-2.7) == -3
  {
  }
}

=== FILE: prevention.dfy ===
/** The fraud prevention engine: two recommendations that depend on the
    fetched transactions, four that are always made, and the metrics
    derived from the list. */
module Prevention {
  import opened Wrappers
  import opened Seqs
  import opened Transactions

  datatype Priority = HighPriority | MediumPriority | LowPriority

  datatype Recommendation = Recommendation(
    id: string, title: string, category: string, priority: Priority, estimatedSavings: real)

  datatype PreventionMetrics = PreventionMetrics(
    totalPrevented: int, amountSaved: real, riskReduction: int, implementationScore: int)

  datatype PreventionState = PreventionState(recommendations: seq<Recommendation>, metrics: PreventionMetrics)

  const InitialState := PreventionState([], PreventionMetrics(0, 0.0, 0, 0))

  const HighValueThreshold: real := 500000.0
  const VelocityThreshold: nat := 15
  const SavingsPerTransfer: real := 25000.0

  /** `parseFloat(t.amount) > 500000`; a missing amount reads as NaN and
      compares false. */
  predicate IsHighValue(t: Transaction) {
    t.amount.Some? && t.amount.value > HighValueThreshold
  }

  predicate IsTransfer(t: Transaction) { t.txType == Transfer }

  function HighValueAmount(t: Transaction): real {
    if t.amount.Some? then t.amount.value else 0.0
  }

  const GeoFencing := Recommendation("geo-fencing", "Geographic Risk Scoring", "Location Intelligence", MediumPriority, 1500000.0)
  const MlEnhancement := Recommendation("ml-enhancement", "Advanced ML Model Deployment", "AI/ML Enhancement", HighPriority, 5000000.0)
  const CustomerEducation := Recommendation("customer-education", "Customer Fraud Awareness Program", "User Education", LowPriority, 800000.0)
  const RealtimeAlerts := Recommendation("realtime-alerts", "Real-time Fraud Alert System", "Monitoring & Alerts", HighPriority, 2000000.0)

  /** The four recommendations made whatever the data. */
  const FixedRecommendations: seq<Recommendation> := [GeoFencing, MlEnhancement, CustomerEducation, RealtimeAlerts]

  function HighValueRecommendation(txs: seq<Transaction>): seq<Recommendation> {
    var high := Filter(IsHighValue, txs);
    if |high| > 0 then
      [Recommendation("high-value-controls", "Enhanced High-Value Transaction Monitoring",
                      "Transaction Controls", HighPriority, Sum(HighValueAmount, high) * 0.8)]
    else []
  }

  function VelocityRecommendation(txs: seq<Transaction>): seq<Recommendation> {
    var transfers := Filter(IsTransfer, txs);
    if |transfers| > VelocityThreshold then
      [Recommendation("velocity-controls", "Transaction Velocity Monitoring", "Behavioral Analytics",
                      MediumPriority, (|transfers| as real) * SavingsPerTransfer)]
    else []
  }

  /** The recommendation list in push order. */
  function Recommendations(txs: seq<Transaction>): seq<Recommendation> {
    HighValueRecommendation(txs) + VelocityRecommendation(txs) + FixedRecommendations
  }

  function TotalSavings(recs: seq<Recommendation>): real
    decreases recs
  {
    if recs == [] then 0.0 else recs[0].estimatedSavings + TotalSavings(recs[1..])
  }

  function MetricsOf(recs: seq<Recommendation>): PreventionMetrics {
    PreventionMetrics(|recs| * 45, TotalSavings(recs), 35, 78)
  }

  /** `generateRecommendations`: both requests must succeed; a failure
      leaves the previous recommendations and metrics in place. */
  function Refresh(st: PreventionState, statsFetched: bool, txFetch: Fetch<FraudList>): PreventionState {
    if !statsFetched || txFetch.FetchFailed? then st
    else
      var recs := Recommendations(TransactionsOf(txFetch.body));
      PreventionState(recs, MetricsOf(recs))
  }

  /** The high-value recommendation is made exactly when some amount
      exceeds 500000, and it is the first one, estimating 80% of the sum of
      those amounts. */
  lemma HighValueRecommendationIff(txs: seq<Transaction>)
    ensures var recs := Recommendations(txs);
            && ((exists t :: t in txs && IsHighValue(t)) <==> recs[0].id == "high-value-controls")
            && (recs[0].id == "high-value-controls" ==>
                  recs[0].estimatedSavings == 0.8 * Sum(HighValueAmount, Filter(IsHighValue, txs))
                  && recs[0].priority == HighPriority)
  {
    FilterNonEmpty(IsHighValue, txs);
  }

  /** The velocity recommendation is made exactly when more than 15
      transactions are transfers, estimating 25000 per transfer. */
  lemma VelocityRecommendationIff(txs: seq<Transaction>)
    ensures var recs := Recommendations(txs);
            (Count(IsTransfer, txs) > 15 <==> exists i :: 0 <= i < |recs| && recs[i].id == "velocity-controls")
    ensures var recs := Recommendations(txs);
            forall i :: 0 <= i < |recs| && recs[i].id == "velocity-controls" ==>
              recs[i].estimatedSavings == 25000.0 * (Count(IsTransfer, txs) as real)
  {
    FilterLength(IsTransfer, txs);
    var recs := Recommendations(txs);
    if Count(IsTransfer, txs) > 15 {
      assert recs[|HighValueRecommendation(txs)|].id == "velocity-controls";
    }
  }

  /** There are four to six recommendations, the last four always the
      same, and no id repeats. */
  lemma RecommendationsShape(txs: seq<Transaction>)
    ensures var recs := Recommendations(txs);
            && 4 <= |recs| <= 6
            && recs[|recs| - 4..] == FixedRecommendations
            && (forall a, b :: 0 <= a < b < |recs| ==> recs[a].id != recs[b].id)
  {
    var recs := Recommendations(txs);
    assert recs[|recs| - 4..] == FixedRecommendations;
    forall a, b | 0 <= a < b < |recs| ensures recs[a].id != recs[b].id {
      DistinctPositions(txs, a, b);
    }
  }

  /** A recommendation's id names its position among the six kinds, and
      kinds appear in that order. */
  function KindIndex(r: Recommendation): nat {
    if r.id == "high-value-controls" then 0
    else if r.id == "velocity-controls" then 1
    else if r.id == "geo-fencing" then 2
    else if r.id == "ml-enhancement" then 3
    else if r.id == "customer-education" then 4
    else 5
  }

  lemma DistinctPositions(txs: seq<Transaction>, a: nat, b: nat)
    requires a < b < |Recommendations(txs)|
    ensures KindIndex(Recommendations(txs)[a]) < KindIndex(Recommendations(txs)[b])
  {
  }

  lemma {:induction false} TotalSavingsAppend(a: seq<Recommendation>, b: seq<Recommendation>)
    ensures TotalSavings(a + b) == TotalSavings(a) + TotalSavings(b)
    decreases a
  {
    if a == [] {
      assert a + b == b;
    } else {
      assert (a + b)[1..] == a[1..] + b;
      TotalSavingsAppend(a[1..], b);
    }
  }

  /** The metrics after a successful refresh: 45 prevented cases per
      recommendation, the savings of all of them added up (9.3 million
      from the fixed four), and the two constants. */
  lemma RefreshMetrics(st: PreventionState, body: FraudList)
    ensures var s := Refresh(st, true, Fetched(body));
            var txs := TransactionsOf(body);
            && s.metrics.totalPrevented == 45 * |s.recommendations|
            && s.metrics.amountSaved ==
                 TotalSavings(HighValueRecommendation(txs)) + TotalSavings(VelocityRecommendation(txs)) + 9300000.0
            && s.metrics.riskReduction == 35 && s.metrics.implementationScore == 78
  {
    var txs := TransactionsOf(body);
    TotalSavingsAppend(HighValueRecommendation(txs) + VelocityRecommendation(txs), FixedRecommendations);
    TotalSavingsAppend(HighValueRecommendation(txs), VelocityRecommendation(txs));
    FixedSavings();
  }

  /** The fixed four estimate 1.5M + 5M + 0.8M + 2M. */
  lemma FixedSavings()
    ensures TotalSavings(FixedRecommendations) == 9300000.0
  {
    var s1 := [RealtimeAlerts];
    var s2 := [CustomerEducation] + s1;
    var s3 := [MlEnhancement] + s2;
    var s4 := [GeoFencing] + s3;
    assert s1[1..] == [] && s2[1..] == s1 && s3[1..] == s2 && s4[1..] == s3;
    assert TotalSavings(s1) == 2000000.0;
    assert TotalSavings(s2) == 2800000.0;
    assert TotalSavings(s3) == 7800000.0;
    assert s4 == FixedRecommendations;
  }

  /** With no transactions only the fixed four are made: 180 cases and
      9.3 million saved. */
  lemma EmptyInputGivesFixedFour(st: PreventionState)
    ensures var s := Refresh(st, true, Fetched(FraudList(None, None)));
            && s.recommendations == FixedRecommendations
            && s.metrics == PreventionMetrics(180, 9300000.0, 35, 78)
  {
    assert Filter(IsHighValue, []) == [];
    assert Filter(IsTransfer, []) == [];
    assert Recommendations([]) == FixedRecommendations;
    FixedSavings();
  }

  /** A failed request changes nothing. */
  lemma FailedRefreshKeepsState(st: PreventionState, statsFetched: bool)
    ensures Refresh(st, statsFetched, FetchFailed) == st
    ensures Refresh(st, false, Fetched(FraudList(None, None))) == st
  {
  }
}

=== FILE: results_table.dfy ===
/** The fraud results table: one fetch of up to 500 flagged transactions,
    and the client-side filter on type and an inclusive amount range. */
module ResultsTable {
  import opened Wrappers
  import opened Seqs
  import opened Transactions

  /** The three filter fields; an empty field is None. A bound that was
      typed is kept as the number `parseFloat` reads from it. */
  datatype TableFilters = TableFilters(txType: Option<ParsedType>, minAmount: Option<real>, maxAmount: Option<real>)

  const NoFilters := TableFilters(None, None, None)

  /** The table's state after a fetch. */
  datatype TableState = TableState(rows: seq<Transaction>, error: Option<string>)

  const FetchError := "Failed to fetch fraud data"

  /** A successful fetch replaces the rows (`transactions || []`) and clears
      the error; a failed one keeps the rows and sets the error. */
  function ApplyFetch(st: TableState, fetch: Fetch<FraudList>): TableState {
    match fetch
    case Fetched(body) => TableState(TransactionsOf(body), None)
    case FetchFailed => st.(error := Some(FetchError))
  }

  /** The filter callback. A row without an amount compares false against
      both bounds (`undefined < x` is false), so no bound rejects it. */
  predicate KeepRow(f: TableFilters, row: Transaction) {
    if f.txType.Some? && row.txType != f.txType.value then false
    else if f.minAmount.Some? && row.amount.Some? && row.amount.value < f.minAmount.value then false
    else if f.maxAmount.Some? && row.amount.Some? && row.amount.value > f.maxAmount.value then false
    else true
  }

  function FilteredRows(rows: seq<Transaction>, f: TableFilters): seq<Transaction> {
    Filter(row => KeepRow(f, row), rows)
  }

  /** The "Total fraudulent transactions" figure: the filtered count. */
  function DisplayedTotal(rows: seq<Transaction>, f: TableFilters): nat {
    |FilteredRows(rows, f)|
  }

  /** A row with an amount is kept iff the type filter is empty or equal,
      and the amount is at least min and at most max where those are set
      (both bounds inclusive). */
  lemma KeepRowIff(f: TableFilters, row: Transaction)
    requires row.amount.Some?
    ensures KeepRow(f, row) <==>
      && (f.txType.None? || f.txType.value == row.txType)
      && (f.minAmount.None? || row.amount.value >= f.minAmount.value)
      && (f.maxAmount.None? || row.amount.value <= f.maxAmount.value)
  {
  }

  /** The filtered rows are an order-preserving subsequence of the fetched
      rows, holding exactly the fetched rows the filter keeps; the shown
      total counts them. */
  lemma FilteredRowsSpec(rows: seq<Transaction>, f: TableFilters)
    ensures IsSubsequence(FilteredRows(rows, f), rows)
    ensures forall row :: row in FilteredRows(rows, f) <==> row in rows && KeepRow(f, row)
    ensures DisplayedTotal(rows, f) == Count(row => KeepRow(f, row), rows)
  {
    FilterIsSubsequence(row => KeepRow(f, row), rows);
    FilterLength(row => KeepRow(f, row), rows);
    forall row | row in rows && KeepRow(f, row)
      ensures row in FilteredRows(rows, f)
    {
      FilterKeeps(row => KeepRow(f, row), rows, row);
    }
  }

  /** With every field empty the table shows the fetched list as it came. */
  lemma NoFiltersKeepAll(rows: seq<Transaction>)
    ensures FilteredRows(rows, NoFilters) == rows
    ensures DisplayedTotal(rows, NoFilters) == |rows|
  {
    FilterAll(row => KeepRow(NoFilters, row), rows);
  }

  /** An amount equal to a bound is kept. */
  lemma BoundsInclusive(row: Transaction, v: real)
    requires row.amount == Some(v)
    ensures KeepRow(TableFilters(None, Some(v), Some(v)), row)
  {
  }

  /** A minimum above the maximum leaves no row that has an amount. */
  lemma CrossedBoundsKeepNothing(rows: seq<Transaction>, f: TableFilters)
    requires f.minAmount.Some? && f.maxAmount.Some? && f.minAmount.value > f.maxAmount.value
    requires forall row :: row in rows ==> row.amount.Some?
    ensures FilteredRows(rows, f) == []
  {
    FilterNone(row => KeepRow(f, row), rows);
  }

  /** A response without `transactions` gives an empty table. */
  lemma MissingTransactionsGiveEmpty(st: TableState, count: Option<int>)
    ensures ApplyFetch(st, Fetched(FraudList(count, None))).rows == []
    ensures ApplyFetch(st, Fetched(FraudList(count, None))).error.None?
  {
  }

  /** A failed fetch keeps the previous rows and shows the error. */
  lemma FailedFetchKeepsRows(st: TableState)
    ensures ApplyFetch(st, FetchFailed).rows == st.rows
    ensures ApplyFetch(st, FetchFailed).error == Some(FetchError)
  {
  }
}

=== FILE: risk_alerts.dfy ===
/** The risk-alert rule engine: four threshold rules over the latest batch
    of fraudulent transactions, an overall risk level folded from the
    alerts' severities, and a most-recent-first history capped at 20. */
module RiskAlerts {
  import opened Wrappers
  import opened Seqs
  import opened Transactions

  const HighValueThreshold: real := 1000000.0
  const FrequencyThreshold: nat := 20
  const TransferThreshold: nat := 15
  const CashOutThreshold: nat := 10
  const HourMs: int := 3600000
  const HistoryCap: nat := 20

  datatype AlertType = HighValue | HighFrequency | TransferSpike | CashoutPattern

  datatype Severity = Critical | High | Warning

  /** The overall level shown in the banner. */
  datatype RiskLevel = LowRisk | MediumRisk | HighRisk | CriticalRisk

  /** One alert; `at` is the generation time (it also names the alert). */
  datatype Alert = Alert(kind: AlertType, severity: Severity, count: nat, totalAmount: Option<real>, at: int)

  /** The component's state: alert history, current level, banner shown. */
  datatype AlertView = AlertView(alerts: seq<Alert>, level: RiskLevel, notifying: bool)

  /** The position of each alert type in a cycle's output. */
  function Rank(k: AlertType): nat {
    match k
    case HighValue => 0
    case HighFrequency => 1
    case TransferSpike => 2
    case CashoutPattern => 3
  }

  /** `parseFloat(t.amount) > 1000000`; a missing amount parses to NaN and
      is never high-value. */
  predicate IsHighValue(t: Transaction) {
    t.amount.Some? && t.amount.value > HighValueThreshold
  }

  /** Within the last hour; `t.timestamp || Date.now()` reads a missing
      or zero timestamp as `now`. */
  predicate IsRecent(now: int, t: Transaction) {
    OrInt(t.timestamp, now) > now - HourMs
  }

  predicate IsTransfer(t: Transaction) {
    t.txType == Transfer
  }

  predicate IsCashOut(t: Transaction) {
    t.txType == CashOut
  }

  function HighValueAmount(t: Transaction): real {
    t.amount.GetOr(0.0)
  }

  /** One alert when `fired`, none otherwise. */
  function Emit(fired: bool, a: Alert): seq<Alert> {
    if fired then [a] else []
  }

  /** Rule 1: one CRITICAL alert over the transactions above 1,000,000. */
  function HighValueRule(txs: seq<Transaction>, now: int): (r: seq<Alert>)
    ensures |r| <= 1 && forall a :: a in r ==> a.kind == HighValue
  {
    var highValue := Filter(IsHighValue, txs);
    Emit(|highValue| > 0,
         Alert(HighValue, Critical, |highValue|, Some(Sum(HighValueAmount, highValue)), now))
  }

  /** Rule 2: one WARNING when more than 20 transactions are recent. */
  function FrequencyRule(txs: seq<Transaction>, now: int): (r: seq<Alert>)
    ensures |r| <= 1 && forall a :: a in r ==> a.kind == HighFrequency
  {
    var recent := Filter(t => IsRecent(now, t), txs);
    Emit(|recent| > FrequencyThreshold, Alert(HighFrequency, Warning, |recent|, None, now))
  }

  /** Rule 3: one WARNING when more than 15 transactions are transfers. */
  function TransferRule(txs: seq<Transaction>, now: int): (r: seq<Alert>)
    ensures |r| <= 1 && forall a :: a in r ==> a.kind == TransferSpike
  {
    var transfers := Filter(IsTransfer, txs);
    Emit(|transfers| > TransferThreshold, Alert(TransferSpike, Warning, |transfers|, None, now))
  }

  /** Rule 4: one HIGH alert when more than 10 transactions are cash-outs. */
  function CashoutRule(txs: seq<Transaction>, now: int): (r: seq<Alert>)
    ensures |r| <= 1 && forall a :: a in r ==> a.kind == CashoutPattern
  {
    var cashOuts := Filter(IsCashOut, txs);
    Emit(|cashOuts| > CashOutThreshold, Alert(CashoutPattern, High, |cashOuts|, None, now))
  }

  /** The alerts of one cycle, in rule order. */
  function GenerateAlerts(txs: seq<Transaction>, now: int): seq<Alert> {
    HighValueRule(txs, now) + FrequencyRule(txs, now) + TransferRule(txs, now) + CashoutRule(txs, now)
  }

  /** The generated alert of kind `k`, if any. */
  predicate HasAlert(alerts: seq<Alert>, k: AlertType) {
    exists a :: a in alerts && a.kind == k
  }

  /** A HIGH_VALUE alert of severity CRITICAL appears exactly when some
      amount exceeds 1,000,000; its count is the number of such
      transactions and its total their summed amounts. */
  lemma HighValueAlertIff(txs: seq<Transaction>, now: int)
    ensures HasAlert(GenerateAlerts(txs, now), HighValue)
        <==> exists t :: t in txs && IsHighValue(t)
    ensures forall a :: a in GenerateAlerts(txs, now) && a.kind == HighValue ==>
              && a.severity == Critical
              && a.count == Count(IsHighValue, txs)
              && a.totalAmount == Some(Sum(HighValueAmount, Filter(IsHighValue, txs)))
  {
    FilterNonEmpty(IsHighValue, txs);
    FilterLength(IsHighValue, txs);
  }

  /** HIGH_FREQUENCY (WARNING) appears exactly when more than 20
      transactions are within the last hour, and counts them. */
  lemma HighFrequencyAlertIff(txs: seq<Transaction>, now: int)
    ensures HasAlert(GenerateAlerts(txs, now), HighFrequency)
        <==> Count(t => IsRecent(now, t), txs) > FrequencyThreshold
    ensures forall a :: a in GenerateAlerts(txs, now) && a.kind == HighFrequency ==>
              a.severity == Warning && a.count == Count(t => IsRecent(now, t), txs)
  {
    FilterLength(t => IsRecent(now, t), txs);
  }

  /** TRANSFER_SPIKE (WARNING) appears exactly when more than 15 transfers
      are in the batch, and counts them. */
  lemma TransferSpikeAlertIff(txs: seq<Transaction>, now: int)
    ensures HasAlert(GenerateAlerts(txs, now), TransferSpike)
        <==> Count(IsTransfer, txs) > TransferThreshold
    ensures forall a :: a in GenerateAlerts(txs, now) && a.kind == TransferSpike ==>
              a.severity == Warning && a.count == Count(IsTransfer, txs)
  {
    FilterLength(IsTransfer, txs);
  }

  /** CASHOUT_PATTERN (HIGH) appears exactly when more than 10 cash-outs
      are in the batch, and counts them. */
  lemma CashoutPatternAlertIff(txs: seq<Transaction>, now: int)
    ensures HasAlert(GenerateAlerts(txs, now), CashoutPattern)
        <==> Count(IsCashOut, txs) > CashOutThreshold
    ensures forall a :: a in GenerateAlerts(txs, now) && a.kind == CashoutPattern ==>
              a.severity == High && a.count == Count(IsCashOut, txs)
  {
    FilterLength(IsCashOut, txs);
  }

  /** Alert types strictly increase along the sequence. */
  predicate InRuleOrder(alerts: seq<Alert>) {
    forall i, j :: 0 <= i < j < |alerts| ==> Rank(alerts[i].kind) < Rank(alerts[j].kind)
  }

  /** Putting at most one alert of a lower rank in front keeps the order. */
  lemma PrependInOrder(front: seq<Alert>, rest: seq<Alert>, k: AlertType)
    requires |front| <= 1 && forall a :: a in front ==> a.kind == k
    requires InRuleOrder(rest)
    requires forall b :: b in rest ==> Rank(k) < Rank(b.kind)
    ensures InRuleOrder(front + rest)
  {
    var r := front + rest;
    if |front| == 1 {
      assert front[0] in front;
      forall i, j | 0 <= i < j < |r|
        ensures Rank(r[i].kind) < Rank(r[j].kind)
      {
        assert r[j] == rest[j - 1];
        if i > 0 {
          assert r[i] == rest[i - 1];
        }
      }
    } else {
      assert r == rest;
    }
  }

  /** A cycle emits at most one alert per type, always in the order
      HIGH_VALUE, HIGH_FREQUENCY, TRANSFER_SPIKE, CASHOUT_PATTERN. */
  lemma AlertsInRuleOrder(txs: seq<Transaction>, now: int)
    ensures |GenerateAlerts(txs, now)| <= 4
    ensures InRuleOrder(GenerateAlerts(txs, now))
  {
    ConcatInOrder(HighValueRule(txs, now), FrequencyRule(txs, now),
                  TransferRule(txs, now), CashoutRule(txs, now));
  }

  /** Four at-most-one-alert lists of increasing kinds concatenate in order. */
  lemma ConcatInOrder(e1: seq<Alert>, e2: seq<Alert>, e3: seq<Alert>, e4: seq<Alert>)
    requires |e1| <= 1 && forall a :: a in e1 ==> a.kind == HighValue
    requires |e2| <= 1 && forall a :: a in e2 ==> a.kind == HighFrequency
    requires |e3| <= 1 && forall a :: a in e3 ==> a.kind == TransferSpike
    requires |e4| <= 1 && forall a :: a in e4 ==> a.kind == CashoutPattern
    ensures |e1 + e2 + e3 + e4| <= 4
    ensures InRuleOrder(e1 + e2 + e3 + e4)
  {
    assert e1 + e2 + e3 + e4 == e1 + (e2 + (e3 + e4));
    assert InRuleOrder(e4);
    PrependInOrder(e3, e4, TransferSpike);
    assert forall b: Alert :: b in e3 + e4 ==> Rank(HighFrequency) < Rank(b.kind);
    PrependInOrder(e2, e3 + e4, HighFrequency);
    assert forall b: Alert :: b in e2 + (e3 + e4) ==> Rank(HighValue) < Rank(b.kind);
    PrependInOrder(e1, e2 + (e3 + e4), HighValue);
  }

  /** The level as the component computes it: counts per severity. */
  function LevelOf(alerts: seq<Alert>): RiskLevel {
    var critical := Count((a: Alert) => a.severity == Critical, alerts);
    var high := Count((a: Alert) => a.severity == High, alerts);
    var warning := Count((a: Alert) => a.severity == Warning, alerts);
    if critical > 0 then CriticalRisk
    else if high > 0 then HighRisk
    else if warning > 0 then MediumRisk
    else LowRisk
  }

  /** The level one severity contributes: a warning alone means MEDIUM. */
  function SeverityLevel(s: Severity): RiskLevel {
    match s
    case Critical => CriticalRisk
    case High => HighRisk
    case Warning => MediumRisk
  }

  function LevelRank(l: RiskLevel): nat {
    match l
    case LowRisk => 0
    case MediumRisk => 1
    case HighRisk => 2
    case CriticalRisk => 3
  }

  function MaxLevel(a: RiskLevel, b: RiskLevel): RiskLevel {
    if LevelRank(a) >= LevelRank(b) then a else b
  }

  /** Reference definition: the highest level any alert contributes, LOW
      for none. */
  function HighestLevel(alerts: seq<Alert>): RiskLevel
    decreases alerts
  {
    if alerts == [] then LowRisk
    else MaxLevel(SeverityLevel(alerts[0].severity), HighestLevel(alerts[1..]))
  }

  /** The severity fold is the maximum: CRITICAL if any alert is critical,
      else HIGH if any is high, else MEDIUM if any is a warning, else LOW. */
  lemma {:induction false} LevelIsHighestSeverity(alerts: seq<Alert>)
    ensures LevelOf(alerts) == HighestLevel(alerts)
    decreases alerts
  {
    if alerts != [] {
      LevelIsHighestSeverity(alerts[1..]);
    }
  }

  /** Warnings alone give MEDIUM, never a WARNING level. */
  lemma WarningsOnlyGiveMedium(alerts: seq<Alert>)
    requires alerts != []
    requires forall a :: a in alerts ==> a.severity == Warning
    ensures LevelOf(alerts) == MediumRisk
  {
    assert alerts[0] in alerts;
    assert Count((a: Alert) => a.severity == Critical, alerts) == 0 by {
      FilterNone((a: Alert) => a.severity == Critical, alerts);
      FilterLength((a: Alert) => a.severity == Critical, alerts);
    }
    assert Count((a: Alert) => a.severity == High, alerts) == 0 by {
      FilterNone((a: Alert) => a.severity == High, alerts);
      FilterLength((a: Alert) => a.severity == High, alerts);
    }
  }

  /** New alerts go on the front of the history, which keeps 20 entries. */
  function NewHistory(incoming: seq<Alert>, previous: seq<Alert>): seq<Alert> {
    Take(incoming + previous, HistoryCap)
  }

  /** The history holds exactly 20 entries, or all of them when there are
      fewer; the new alerts come first, and what follows is a prefix of the
      previous history, in its order. */
  lemma NewHistoryShape(incoming: seq<Alert>, previous: seq<Alert>)
    requires |incoming| <= HistoryCap
    ensures |NewHistory(incoming, previous)| <= HistoryCap
    ensures |NewHistory(incoming, previous)| ==
              if |incoming| + |previous| < HistoryCap then |incoming| + |previous| else HistoryCap
    ensures NewHistory(incoming, previous)[..|incoming|] == incoming
    ensures var kept := NewHistory(incoming, previous)[|incoming|..];
            kept == previous[..|kept|]
    ensures |incoming| + |previous| <= HistoryCap ==>
              NewHistory(incoming, previous) == incoming + previous
  {
  }

  /** One 45-second cycle: a rejected fetch changes nothing; otherwise the
      alerts are prepended, and the level (with the banner) changes only
      when the computed level differs from the current one. */
  function Cycle(view: AlertView, fetch: Fetch<FraudList>, now: int): AlertView {
    match fetch
    case FetchFailed => view
    case Fetched(body) =>
      var incoming := GenerateAlerts(TransactionsOf(body), now);
      var level := LevelOf(incoming);
      var history := NewHistory(incoming, view.alerts);
      if level != view.level then AlertView(history, level, true)
      else AlertView(history, view.level, view.notifying)
  }

  /** After a successful fetch the level is the computed one; the banner is
      raised when the level changed and left as it was when it did not. */
  lemma CycleLevelUpdate(view: AlertView, body: FraudList, now: int)
    ensures var incoming := GenerateAlerts(TransactionsOf(body), now);
            var r := Cycle(view, Fetched(body), now);
            && r.level == LevelOf(incoming)
            && (LevelOf(incoming) != view.level ==> r.notifying)
            && (LevelOf(incoming) == view.level ==> r.notifying == view.notifying)
            && r.alerts == NewHistory(incoming, view.alerts)
  {
  }

  /** A rejected fetch leaves the component as it was. */
  lemma CycleFailedFetch(view: AlertView, now: int)
    ensures Cycle(view, FetchFailed, now) == view
  {
  }

  /** An empty batch (or a body without `transactions`) yields no alerts
      and level LOW, and leaves the history unchanged. */
  lemma EmptyBatchCycle(view: AlertView, body: FraudList, now: int)
    requires TransactionsOf(body) == []
    ensures GenerateAlerts(TransactionsOf(body), now) == []
    ensures Cycle(view, Fetched(body), now).level == LowRisk
    ensures |view.alerts| <= HistoryCap ==> Cycle(view, Fetched(body), now).alerts == view.alerts
  {
  }
}

=== FILE: seqs.dfy ===
/** Sequence vocabulary shared by the filters and aggregations: counting,
    filtering, summing, truncation and order-preserving subsequences. */
module Seqs {

  /** The elements of `s` that satisfy `p`, in their original order
      (JavaScript `Array.prototype.filter`, Python list comprehension). */
  function Filter<T>(p: T -> bool, s: seq<T>): (r: seq<T>)
    ensures |r| <= |s|
    ensures forall x :: x in r ==> x in s && p(x)
    decreases s
  {
    if s == [] then []
    else if p(s[0]) then [s[0]] + Filter(p, s[1..])
    else Filter(p, s[1..])
  }

  /** The number of elements of `s` that satisfy `p`. */
  function Count<T>(p: T -> bool, s: seq<T>): nat
    decreases s
  {
    if s == [] then 0 else (if p(s[0]) then 1 else 0) + Count(p, s[1..])
  }

  /** The sum of `f` over `s` (a `reduce((sum, x) => sum + f(x), 0)`). */
  function Sum<T>(f: T -> real, s: seq<T>): real
    decreases s
  {
    if s == [] then 0.0 else f(s[0]) + Sum(f, s[1..])
  }

  /** The first `n` elements of `s`, or all of them when there are fewer
      (`slice(0, n)`). */
  function Take<T>(s: seq<T>, n: nat): (r: seq<T>)
    ensures |r| == if |s| < n then |s| else n
    ensures forall i :: 0 <= i < |r| ==> r[i] == s[i]
  {
    if |s| <= n then s else s[..n]
  }

  /** `a` is `b` with some elements deleted: an order-preserving subsequence. */
  predicate IsSubsequence<T(==)>(a: seq<T>, b: seq<T>)
    decreases |b|
  {
    if a == [] then true
    else if b == [] then false
    else if a[0] == b[0] then IsSubsequence(a[1..], b[1..])
    else IsSubsequence(a, b[1..])
  }

  /** Filtering keeps exactly the elements that satisfy the predicate:
      its length is their count. */
  lemma {:induction false} FilterLength<T>(p: T -> bool, s: seq<T>)
    ensures |Filter(p, s)| == Count(p, s)
    decreases s
  {
    if s != [] {
      FilterLength(p, s[1..]);
    }
  }

  /** Filtering never reorders: the result is a subsequence of the input. */
  lemma {:induction false} FilterIsSubsequence<T>(p: T -> bool, s: seq<T>)
    ensures IsSubsequence(Filter(p, s), s)
    decreases s
  {
    if s != [] {
      FilterIsSubsequence(p, s[1..]);
      if !p(s[0]) {
        SubsequenceDropHead(Filter(p, s[1..]), s[0], s[1..]);
      }
    }
  }

  /** Prepending an element to the larger sequence keeps a subsequence. */
  lemma {:induction false} SubsequenceDropHead<T>(a: seq<T>, x: T, b: seq<T>)
    requires IsSubsequence(a, b)
    ensures IsSubsequence(a, [x] + b)
    decreases |b|, 1
  {
    var xb := [x] + b;
    assert xb[1..] == b;
    if a != [] && a[0] == x {
      // a[1..] is a subsequence of b because a is
      SubsequenceTail(a, b);
    }
  }

  /** Dropping the head of a subsequence keeps a subsequence. */
  lemma {:induction false} SubsequenceTail<T>(a: seq<T>, b: seq<T>)
    requires a != []
    requires IsSubsequence(a, b)
    ensures IsSubsequence(a[1..], b)
    decreases |b|, 0
  {
    if a[0] == b[0] {
      if a[1..] != [] {
        SubsequenceDropHead(a[1..], b[0], b[1..]);
        assert [b[0]] + b[1..] == b;
      }
    } else {
      SubsequenceTail(a, b[1..]);
      if a[1..] != [] {
        SubsequenceDropHead(a[1..], b[0], b[1..]);
        assert [b[0]] + b[1..] == b;
      }
    }
  }

  /** A predicate true everywhere keeps the whole sequence, in order. */
  lemma {:induction false} FilterAll<T>(p: T -> bool, s: seq<T>)
    requires forall x :: x in s ==> p(x)
    ensures Filter(p, s) == s
    decreases s
  {
    if s != [] {
      FilterAll(p, s[1..]);
    }
  }

  /** A predicate true nowhere keeps nothing. */
  lemma {:induction false} FilterNone<T>(p: T -> bool, s: seq<T>)
    requires forall x :: x in s ==> !p(x)
    ensures Filter(p, s) == []
    decreases s
  {
    if s != [] {
      FilterNone(p, s[1..]);
    }
  }

  /** An element of `s` satisfying `p` survives the filter. */
  lemma {:induction false} FilterKeeps<T>(p: T -> bool, s: seq<T>, x: T)
    requires x in s && p(x)
    ensures x in Filter(p, s)
    decreases s
  {
    if s[0] != x {
      FilterKeeps(p, s[1..], x);
    }
  }

  /** The filter is non-empty exactly when some element satisfies `p`. */
  lemma FilterNonEmpty<T>(p: T -> bool, s: seq<T>)
    ensures |Filter(p, s)| > 0 <==> exists x :: x in s && p(x)
  {
    if exists x :: x in s && p(x) {
      var x :| x in s && p(x);
      FilterKeeps(p, s, x);
    }
  }

  /** Sums distribute over concatenation. */
  lemma {:induction false} SumAppend<T>(f: T -> real, a: seq<T>, b: seq<T>)
    ensures Sum(f, a + b) == Sum(f, a) + Sum(f, b)
    decreases a
  {
    if a != [] {
      assert (a + b)[1..] == a[1..] + b;
      SumAppend(f, a[1..], b);
    } else {
      assert a + b == b;
    }
  }

  /** Counts distribute over concatenation. */
  lemma {:induction false} CountAppend<T>(p: T -> bool, a: seq<T>, b: seq<T>)
    ensures Count(p, a + b) == Count(p, a) + Count(p, b)
    decreases a
  {
    if a != [] {
      assert (a + b)[1..] == a[1..] + b;
      CountAppend(p, a[1..], b);
    } else {
      assert a + b == b;
    }
  }
}

=== FILE: text.dfy ===
/** The string operations the components rely on, over `seq<char>`:
    case mapping (ASCII letters only), substring and suffix tests, `trim`,
    and lexicographic order on code points, which is JavaScript's `<` on
    strings as long as no character lies outside the Basic Multilingual
    Plane. */
module Text {

  predicate IsUpper(c: char) {
    'A' <= c <= 'Z'
  }

  predicate IsLower(c: char) {
    'a' <= c <= 'z'
  }

  /** `toLowerCase` of one character (ASCII letters). */
  function LowerChar(c: char): (r: char)
    ensures !IsUpper(r)
    ensures !IsUpper(c) ==> r == c
  {
    if IsUpper(c) then (c as int + 32) as char else c
  }

  /** `toUpperCase` of one character (ASCII letters). */
  function UpperChar(c: char): (r: char)
    ensures !IsLower(r)
    ensures !IsLower(c) ==> r == c
  {
    if IsLower(c) then (c as int - 32) as char else c
  }

  /** `s.toLowerCase()`. */
  function Lower(s: string): (r: string)
    ensures |r| == |s|
    ensures forall i :: 0 <= i < |s| ==> r[i] == LowerChar(s[i])
  {
    seq(|s|, i requires 0 <= i < |s| => LowerChar(s[i]))
  }

  /** `t` occurs in `s` starting at position `i`. */
  predicate OccursAt(s: string, t: string, i: int) {
    0 <= i <= |s| - |t| && s[i..i + |t|] == t
  }

  /** `s.includes(t)`: `t` occurs in `s` at some position. */
  predicate Contains(s: string, t: string) {
    exists i | 0 <= i <= |s| - |t| :: OccursAt(s, t, i)
  }

  /** Every string contains the empty string. */
  lemma ContainsEmpty(s: string)
    ensures Contains(s, "")
  {
    assert OccursAt(s, "", 0);
  }

  /** `s.endsWith(t)` (case-sensitive). */
  predicate EndsWith(s: string, t: string) {
    |t| <= |s| && s[|s| - |t|..] == t
  }

  /** The whitespace `trim` removes: the white-space characters (tab,
      vertical tab, form feed, space, no-break space, the byte-order mark
      and the other space separators) and the line terminators. */
  predicate IsSpace(c: char) {
    || c == '\t' || c == '\n' || c == '\U{B}' || c == '\U{C}' || c == '\r' || c == ' '
    || c == '\U{A0}' || c == '\U{1680}' || '\U{2000}' <= c <= '\U{200A}'
    || c == '\U{2028}' || c == '\U{2029}' || c == '\U{202F}' || c == '\U{205F}'
    || c == '\U{3000}' || c == '\U{FEFF}'
  }

  function TrimStart(s: string): (r: string)
    ensures |r| <= |s|
    ensures r == s[|s| - |r|..]
    ensures r != [] ==> !IsSpace(r[0])
    ensures forall i :: 0 <= i < |s| - |r| ==> IsSpace(s[i])
  {
    if s != [] && IsSpace(s[0]) then TrimStart(s[1..]) else s
  }

  function TrimEnd(s: string): (r: string)
    ensures |r| <= |s|
    ensures r == s[..|r|]
    ensures r != [] ==> !IsSpace(r[|r| - 1])
    ensures forall i :: |r| <= i < |s| ==> IsSpace(s[i])
  {
    if s != [] && IsSpace(s[|s| - 1]) then TrimEnd(s[..|s| - 1]) else s
  }

  /** `s.trim()`: a slice of `s` that neither starts nor ends with
      whitespace, and everything cut off around it is whitespace. */
  function Trim(s: string): (r: string)
    ensures r != [] ==> !IsSpace(r[0]) && !IsSpace(r[|r| - 1])
    ensures exists a, b :: 0 <= a <= b <= |s| && r == s[a..b]
              && (forall i :: 0 <= i < a ==> IsSpace(s[i]))
              && (forall i :: b <= i < |s| ==> IsSpace(s[i]))
  {
    var t := TrimStart(s);
    var r := TrimEnd(t);
    var a := |s| - |t|;
    assert r == s[a..a + |r|];
    r
  }

  /** A no-break space and a byte-order mark are trimmed like a space. */
  lemma TrimExamples()
    ensures Trim("\U{A0} ok\U{FEFF}") == "ok"
  {
    TrimStartExample();
    TrimEndExample();
  }

  lemma TrimStartExample()
    ensures TrimStart("\U{A0} ok\U{FEFF}") == "ok\U{FEFF}"
  {
    var s := "\U{A0} ok\U{FEFF}";
    assert IsSpace(s[0]) && s[1..] == " ok\U{FEFF}";
    var s1 := " ok\U{FEFF}";
    assert IsSpace(s1[0]) && s1[1..] == "ok\U{FEFF}";
    var s2 := "ok\U{FEFF}";
    assert !IsSpace(s2[0]);
  }

  lemma TrimEndExample()
    ensures TrimEnd("ok\U{FEFF}") == "ok"
  {
    var s2 := "ok\U{FEFF}";
    assert IsSpace(s2[2]) && s2[..2] == "ok";
    assert !IsSpace("ok"[1]);
  }

  /** The trimmed text is empty exactly when the input is all whitespace. */
  lemma TrimEmptyIffBlank(s: string)
    ensures Trim(s) == [] <==> forall i :: 0 <= i < |s| ==> IsSpace(s[i])
  {
    var a := TrimStart(s);
    if a != [] {
      assert a[0] == s[|s| - |a|];
    }
  }

  /** JavaScript `a <= b` on strings, as lexicographic order on code
      points. A Dafny `char` is a Unicode scalar value, while JavaScript
      compares UTF-16 code units; the two agree on text within the Basic
      Multilingual Plane. */
  predicate LexLe(a: string, b: string)
    decreases |a|
  {
    if a == [] then true
    else if b == [] then false
    else if a[0] != b[0] then a[0] < b[0]
    else LexLe(a[1..], b[1..])
  }

  /** Where the two orders part: U+1F600 is above U+FF5E as a code point,
      but its leading surrogate 0xD83D is below 0xFF5E as a code unit. */
  lemma AstralOrderExample()
    ensures !LexLe("\U{1F600}", "\U{FF5E}") && LexLe("\U{FF5E}", "\U{1F600}")
  {
  }

  /** Any two strings are comparable. */
  lemma {:induction false} LexLeTotal(a: string, b: string)
    ensures LexLe(a, b) || LexLe(b, a)
    decreases |a|
  {
    if a != [] && b != [] && a[0] == b[0] {
      LexLeTotal(a[1..], b[1..]);
    }
  }

  /** The order is transitive. */
  lemma {:induction false} LexLeTransitive(a: string, b: string, c: string)
    requires LexLe(a, b) && LexLe(b, c)
    ensures LexLe(a, c)
    decreases |a|
  {
    if a != [] && b != [] && c != [] && a[0] == b[0] && b[0] == c[0] {
      LexLeTransitive(a[1..], b[1..], c[1..]);
    }
  }

  /** The order is antisymmetric: strings below each other are equal. */
  lemma {:induction false} LexLeAntisymmetric(a: string, b: string)
    requires LexLe(a, b) && LexLe(b, a)
    ensures a == b
    decreases |a|
  {
    if a != [] && b != [] {
      LexLeAntisymmetric(a[1..], b[1..]);
      assert a == [a[0]] + a[1..];
      assert b == [b[0]] + b[1..];
    }
  }
}

=== FILE: transactions.dfy ===
/** The transaction record as the backend serves it, and the outcome of one
    fetch. Every field a component reads with a fallback is optional here. */
module Transactions {
  import opened Wrappers

  /** The five transaction types of the dataset; anything else the backend
      sends is kept under its own name. */
  datatype TxType = Transfer | CashOut | CashIn | Payment | Debit | OtherType(name: string)

  const KnownTypeNames: set<string> := {"TRANSFER", "CASH_OUT", "CASH_IN", "PAYMENT", "DEBIT"}

  /** The `type` string of a type. */
  function TypeName(t: TxType): string {
    match t
    case Transfer => "TRANSFER"
    case CashOut => "CASH_OUT"
    case CashIn => "CASH_IN"
    case Payment => "PAYMENT"
    case Debit => "DEBIT"
    case OtherType(name) => name
  }

  /** A type as reading a `type` string produces it: `OtherType` never
      carries one of the five known names. */
  predicate Canonical(t: TxType) {
    t.OtherType? ==> t.name !in KnownTypeNames
  }

  /** A type as a record carries it: read from its `type` string, so a
      known name is always its own constructor. */
  type ParsedType = t: TxType | Canonical(t) witness Transfer

  /** The type a `type` string denotes. */
  function ParseType(name: string): (t: ParsedType)
    ensures Canonical(t)
    ensures TypeName(t) == name
    ensures t.OtherType? <==> name !in KnownTypeNames
  {
    if name == "TRANSFER" then Transfer
    else if name == "CASH_OUT" then CashOut
    else if name == "CASH_IN" then CashIn
    else if name == "PAYMENT" then Payment
    else if name == "DEBIT" then Debit
    else OtherType(name)
  }

  /** Parsing inverts naming on canonical types, so two canonical types
      are equal exactly when their strings are: comparing types is the
      components' `t.type === name`. */
  lemma ParseTypeName(a: TxType, b: TxType)
    requires Canonical(a) && Canonical(b)
    ensures ParseType(TypeName(a)) == a
    ensures a == b <==> TypeName(a) == TypeName(b)
  {
    if TypeName(a) == TypeName(b) {
      assert ParseType(TypeName(a)) == a && ParseType(TypeName(b)) == b;
    }
  }

  /** One transaction row. Amounts and balances are exact decimals;
      `timestamp` is milliseconds since the epoch, already parsed;
      `confidence` is `prediction_confidence`. */
  datatype Transaction = Transaction(
    id: Option<int>,
    step: Option<int>,
    txType: ParsedType,
    amount: Option<real>,
    oldBalanceOrg: Option<real>,
    newBalanceOrig: Option<real>,
    newBalanceDest: Option<real>,
    timestamp: Option<int>,
    confidence: Option<real>)

  /** The body of `GET /fraudulent-transactions`: `{count, transactions}`. */
  datatype FraudList = FraudList(count: Option<int>, transactions: Option<seq<Transaction>>)

  /** One request: a parsed body, or a rejected promise. */
  datatype Fetch<T> = Fetched(body: T) | FetchFailed

  /** `response.transactions || []`. */
  function TransactionsOf(r: FraudList): (txs: seq<Transaction>)
    ensures r.transactions.None? ==> txs == []
  {
    r.transactions.GetOr([])
  }

  /** The amount as `parseFloat(t.amount) || 0` reads it. */
  function AmountOrZero(t: Transaction): real {
    Or(t.amount, 0.0)
  }
}

=== FILE: upload.dfy ===
/** The upload panel: which chosen files it accepts, what selecting and
    uploading do to its state, and the detection rate it shows for the
    backend's answer. The request itself is a parameter: its outcome is
    either the backend's result or a failure carrying the backend's error
    text, if any. */
module Upload {
  import opened Wrappers
  import opened Text

  /** The browser's description of a chosen file. */
  datatype ChosenFile = ChosenFile(name: string, mimeType: string, size: nat)

  /** The fields of the backend's answer that the panel reads. */
  datatype UploadResult = UploadResult(totalTransactions: real, fraudulentTransactions: real)

  datatype UploadState = UploadState(
    selected: Option<ChosenFile>,
    uploading: bool,
    result: Option<UploadResult>,
    error: Option<string>)

  const InitialState := UploadState(None, false, None, None)

  /** What the request ended with. */
  datatype Outcome = Succeeded(result: UploadResult) | Failed(backendError: Option<string>)

  const ValidTypes: seq<string> := [
    "text/csv",
    "application/vnd.ms-excel",
    "application/vnd.openxmlformats-officedocument.spreadsheetml.sheet"]

  const InvalidFileMessage := "Please select a valid CSV or Excel file"
  const UploadFailedMessage := "Upload failed. Please try again."

  /** A listed MIME type, or a name ending in ".csv" or ".xlsx" (compared
      case-sensitively). */
  predicate Accepts(f: ChosenFile) {
    f.mimeType in ValidTypes || EndsWith(f.name, ".csv") || EndsWith(f.name, ".xlsx")
  }

  /** `handleFileSelect`: no file leaves the state alone; an accepted file
      is selected and clears the error; any other file clears the
      selection and sets the error. */
  function Select(st: UploadState, file: Option<ChosenFile>): UploadState {
    if file.None? then st
    else if Accepts(file.value) then st.(selected := file, error := None)
    else st.(selected := None, error := Some(InvalidFileMessage))
  }

  /** `handleUpload` once the request has settled, together with the
      result handed to `onUploadSuccess`. Without a selected file nothing
      happens; a success stores the result; a failure shows the backend's
      error, or the fallback message when there is none, and keeps the
      previous result. */
  function UploadFile(st: UploadState, outcome: Outcome): (UploadState, Option<UploadResult>) {
    if st.selected.None? then (st, None)
    else match outcome
      case Succeeded(r) => (st.(uploading := false, error := None, result := Some(r)), Some(r))
      case Failed(e) => (st.(uploading := false, error := Some(OrText(e, UploadFailedMessage))), None)
  }

  /** The shown detection rate: 0 unless some transactions were processed. */
  function DetectionRate(r: UploadResult): real {
    if r.totalTransactions > 0.0 then r.fraudulentTransactions / r.totalTransactions * 100.0 else 0.0
  }

  /** The panel accepts a file exactly by its listed type or one of the two
      suffixes; ".xls" by name alone, or an upper-case suffix, is refused. */
  lemma AcceptsExamples()
    ensures Accepts(ChosenFile("data.csv", "", 0))
    ensures Accepts(ChosenFile("book", "application/vnd.ms-excel", 0))
    ensures !Accepts(ChosenFile("old.xls", "", 0))
    ensures !Accepts(ChosenFile("DATA.CSV", "", 0))
  {
    assert "data.csv"[4..] == ".csv";
    assert ValidTypes[1] == "application/vnd.ms-excel";
    assert "old.xls"[3..] != ".csv" by { assert "old.xls"[3..][1] == 'x'; }
    assert "old.xls"[2..] != ".xlsx" by { assert "old.xls"[2..][0] == 'd'; }
    assert "DATA.CSV"[4..] != ".csv" by { assert "DATA.CSV"[4..][1] == 'C'; }
    assert "DATA.CSV"[3..] != ".xlsx" by { assert "DATA.CSV"[3..][0] == 'A'; }
  }

  /** After choosing a file, a file is selected exactly when it is accepted,
      and the error is set exactly when it is not; the upload flag and the
      last result are untouched. */
  lemma SelectSpec(st: UploadState, f: ChosenFile)
    ensures var s := Select(st, Some(f));
            && (s.selected == Some(f) <==> Accepts(f))
            && (s.selected.None? <==> !Accepts(f))
            && (s.error.Some? <==> !Accepts(f))
            && (s.error.Some? ==> s.error.value == InvalidFileMessage)
            && s.uploading == st.uploading && s.result == st.result
  {
  }

  /** Cancelling the file dialog changes nothing. */
  lemma NoFileKeepsState(st: UploadState)
    ensures Select(st, None) == st
  {
  }

  /** Without a selected file the upload button does nothing and nothing is
      reported, whatever the request would have returned. */
  lemma UploadWithoutFileIsNoop(st: UploadState, outcome: Outcome)
    requires st.selected.None?
    ensures UploadFile(st, outcome) == (st, None)
  {
  }

  /** With a file selected, the request settles with the flag cleared; the
      callback receives the result exactly on success, and exactly one of
      the result and the error is new. */
  lemma UploadSpec(st: UploadState, outcome: Outcome)
    requires st.selected.Some?
    ensures var (s, notified) := UploadFile(st, outcome);
            && !s.uploading
            && s.selected == st.selected
            && (notified.Some? <==> outcome.Succeeded?)
            && (outcome.Succeeded? ==> s.result == notified && s.result == Some(outcome.result) && s.error.None?)
            && (outcome.Failed? ==> s.result == st.result && s.error.Some?)
  {
  }

  /** The error shown after a failure is the backend's message when it has
      a non-empty one, and the fallback otherwise; it is never empty. */
  lemma FailureMessage(st: UploadState, e: Option<string>)
    requires st.selected.Some?
    ensures var s := UploadFile(st, Failed(e)).0;
            && (e.Some? && e.value != [] ==> s.error == e)
            && (e.None? || e.value == [] ==> s.error == Some(UploadFailedMessage))
            && s.error.value != []
  {
  }

  /** The rate is the fraud share in percent: multiplied back by the total
      it gives the fraud count times 100, it lies within 0..100 when the
      fraud count does not exceed the total, and 7 out of 100 shows 7. */
  lemma DetectionRateSpec(r: UploadResult)
    ensures r.totalTransactions > 0.0 ==> DetectionRate(r) * r.totalTransactions == r.fraudulentTransactions * 100.0
    ensures r.totalTransactions <= 0.0 ==> DetectionRate(r) == 0.0
    ensures 0.0 <= r.fraudulentTransactions <= r.totalTransactions ==> 0.0 <= DetectionRate(r) <= 100.0
    ensures DetectionRate(UploadResult(100.0, 7.0)) == 7.0
  {
    if r.totalTransactions > 0.0 {
      var q := r.fraudulentTransactions / r.totalTransactions;
      assert q * r.totalTransactions == r.fraudulentTransactions;
      if 0.0 <= r.fraudulentTransactions <= r.totalTransactions {
        assert q <= 1.0;
      }
    }
  }
}

=== FILE: wrappers.dfy ===
/** Optional values, and the JavaScript "falsy → default" fallback that the
    dashboard components use everywhere (`x || d`). */
module Wrappers {

  /** A value that may be absent: a missing JSON field, an empty form field,
      an unparsable number. */
  datatype Option<+T> = None | Some(value: T) {

    /** The value, or `default` when absent. */
    function GetOr(default: T): T {
      match this
      case Some(v) => v
      case None => default
    }
  }

  /** The numeric JavaScript `x || d`: a missing value and the number 0 are
      both falsy and give way to `d`; any other number is kept. */
  function Or(x: Option<real>, d: real): (r: real)
    ensures x.Some? && x.value != 0.0 ==> r == x.value
    ensures (x.None? || x.value == 0.0) ==> r == d
  {
    if x.Some? && x.value != 0.0 then x.value else d
  }

  /** The same fallback for integer-valued fields. */
  function OrInt(x: Option<int>, d: int): (r: int)
    ensures x.Some? && x.value != 0 ==> r == x.value
    ensures (x.None? || x.value == 0) ==> r == d
  {
    if x.Some? && x.value != 0 then x.value else d
  }

  /** The string JavaScript `s || d`: only the empty string is falsy. */
  function OrText(x: Option<string>, d: string): (r: string)
    ensures x.Some? && x.value != [] ==> r == x.value
    ensures (x.None? || x.value == []) ==> r == d
  {
    if x.Some? && x.value != [] then x.value else d
  }
}
